=== FILE: README.md ===
# PromptNest in Dafny

A model of the core of PromptNest, a browser extension that keeps a library of AI
prompts. The library holds two lists, categories and prompts, plus a settings record.
The model covers:

- the storage layer's operations on those lists;
- the popup's ranked search and search history;
- import and export of the library;
- writing a prompt into a chat site's input box;
- the content script, background worker, popup forms and settings;
- the in-page sidebar, in both its refactored and its original form.

Layout: one module per source file, plus shared foundations.

- `Wrappers`: the `Option` type.
- `Seqs`: filtering, first-index search, prefixes and subsequences.
- `Text`: JavaScript's `trim`, white space, `toLowerCase`, `includes`, `split(/\s+/)` and decimal rendering.
- `Values`: JSON-like values and truthiness.
- `Records`: categories, prompts and patches.
- `Ranking`: a stable descending sort.
- `Merging`: the append-unseen loop shared by storage and import.

Where the source changes state in place, the model does too:

- a `class` per object whose fields the source reassigns: `Storage.Store`, `Search.SearchEngine`, `Sidebar.PromptNestSidebar`, `ModalManager.ModalManager`, `SidebarOriginal.OriginalSidebar`, `Content.FloatingIcon`, `PopupSettings.SettingsPanel`, `FormHandler.PromptForms`;
- a `method` with loop invariants for each loop;
- each method is proved against a function that specifies it.

The clock (`now`), fresh ids, the page's elements, the system colour scheme and the outcome of clipboard and storage writes are all parameters.

## Model

| member | source | states |
|---|---|---|
| Text.Trim | assets/js/storage.js:121 | `String.prototype.trim`: the input with its leading and trailing white space cut off (`StripsSpace`), so no white space at either end; empty exactly when the input is all white space |
| Text.TrimIdempotent | assets/js/storage.js:121 | trimming twice is trimming once |
| Text.LowerTrim | assets/js/storage.js:200-206 | lower-casing and trimming commute, so trimming before or after lower-casing a query gives the same term |
| Text.Words | assets/js/search.js:112-113 | the non-empty white-space-separated tokens of a string, each a word without white space (`WordsAreWords`) |
| Text.WordsConcat | assets/js/search.js:112-113 | the words, joined back together, are the string with its white space removed: no character is lost, reordered or invented |
| Text.WordsJoin | assets/js/search.js:112-113 | splitting two strings joined by a white-space character gives the words of the first followed by the words of the second |
| Text.WordsEmpty | assets/js/search.js:112-113 | a query has no words exactly when it is all white space |
| Text.Contains | assets/js/storage.js:204-205 | `includes`: an occurrence at some position (`ContainsAt`), never of a longer string (`ShorterNotContained`) |
| Text.NatToStringRoundTrip | assets/js/background.js:215 | `Date.now().toString()` renders decimal digits that read back as the same number |
| Seqs.Filter | assets/js/storage.js:162 | `Array.filter`: keeps exactly the elements that pass, in order; a subsequence of the input (`FilterIsSubsequence`) |
| Seqs.FilterCounts | assets/js/storage.js:162 | every copy of a passing element is kept and no copy of a failing one, so repeated entries keep their number |
| Seqs.FindIndex | assets/js/storage.js:89 | `findIndex`: -1 exactly when no element passes, otherwise the first index that passes |
| Seqs.Take | assets/js/background.js:365-373 | `slice(0, n)`: the first `n` elements, or all when there are fewer |
| Ranking.SortDescSorted | assets/js/search.js:121 | the sort used for ranking yields a non-increasing order |
| Ranking.SortDescStable | assets/js/search.js:121 | the sort keeps equal-key elements in input order (a stable `sort((a, b) => b - a)`) |
| Ranking.TakeSortedTies | assets/js/storage.js:216-228 | the first `n` after the stable sort are drawn from the input without repetition, and ties are cut in input order |
| Ranking.WithKeyAppend | assets/js/storage.js:216-228 | selecting the elements of one key distributes over concatenation |
| Ranking.TakeSortedIsTop | assets/js/storage.js:216-228 | the first `n` after sorting are the `n` largest: nothing left out outranks anything kept; they are drawn from the input without repetition, and for each key they are the first elements with that key in input order, as the stable sort leaves ties |
| Merging.MergeUnseen | assets/js/storage.js:314-326 | the loop that appends the incoming items whose key is new equals `Merged` |
| Merging.MergedShape | assets/js/storage.js:314-326 | the existing list comes first, unchanged; exactly the incoming items with an unseen key follow |
| Merging.MergeIntoSelf | assets/js/storage.js:314-326 | merging a list into itself adds nothing |
| Merging.MergeTwiceAddsNothing | assets/js/import-export.js:443-462 | merging the same incoming list a second time adds nothing when restamping keeps keys |
| Storage.NewPrompt | assets/js/storage.js:133-143 | a new prompt has a trimmed title and content, no uses, no last use, and created = modified = now |
| Storage.AddPromptIdempotent | assets/js/storage.js:122-131 | adding the same trimmed title and content twice stores it once |
| Storage.Store.AddPrompt | assets/js/storage.js:118-148 | returns the stored duplicate and writes nothing, or appends exactly one new prompt |
| Storage.Store.Init | assets/js/storage.js:12-21 | the default categories are written only when none are stored; an existing list is kept |
| Storage.Store.AddCategory | assets/js/storage.js:73-85 | appends one category with the trimmed name and a fresh id |
| Storage.Store.UpdateCategory | assets/js/storage.js:87-95 | false and no write for an unknown id; otherwise only the first match is patched and stamped |
| Records.ApplyCategoryPatch | assets/js/storage.js:93 | a spread of the update: each field it carries, `id` and `created` included, replaces the stored one; the others keep their values; `modified` is the stamp |
| Records.CategoryPatchTwice | assets/js/storage.js:93 | applying the same update twice at the same time is applying it once |
| Records.EmptyCategoryPatchStamps | assets/js/storage.js:93 | an update that carries no field only stamps `modified` |
| Storage.Store.DeleteCategory | assets/js/storage.js:97-107 | removes the category and every prompt filed under it, keeping the order of the rest |
| Storage.DeleteCategoryCascade | assets/js/storage.js:97-107 | after the cascade, exactly the other categories and the prompts of other categories remain, in order, each with as many copies as before (`KeepsCounts`) |
| Storage.Store.UpdatePrompt | assets/js/storage.js:150-158 | false and no write for an unknown id; otherwise only the first match is patched, `modified` = now |
| Storage.Store.DeletePrompt | assets/js/storage.js:160-164 | exactly the prompts with the id go; the rest keep their order |
| Storage.CloneOf | assets/js/storage.js:172-180 | a clone keeps content and category, adds " (Copy)" to the title, resets usage |
| Storage.Store.ClonePrompt | assets/js/storage.js:166-185 | none for an unknown id; otherwise the clone is appended |
| Storage.WithUsage | assets/js/storage.js:193-194 | one more use and `lastUsed` = now, nothing else changes |
| Storage.TotalUsesAfterUse | assets/js/storage.js:187-196 | recording a use raises the library's total uses by exactly one |
| Storage.Store.IncrementPromptUsage | assets/js/storage.js:187-196 | false for an unknown id; otherwise the first match gets one more use |
| Storage.Store.SearchPrompts | assets/js/storage.js:199-208 | all prompts for a blank query; otherwise those whose lower-cased title or content contains the trimmed lower-cased query, in order and with every copy of a match |
| Storage.Store.GetPromptsByCategory | assets/js/storage.js:210-214 | all prompts for "all" or none given, otherwise exactly the prompts filed under the id, in order and with every copy |
| Storage.Store.GetRecentPrompts | assets/js/storage.js:216-221 | the `limit` most recently used prompts, newest first, drawn from the stored prompts without repetition; among equal times, the first stored come first |
| Storage.Store.GetPopularPrompts | assets/js/storage.js:223-228 | the `limit` most used prompts, most used first, drawn from the stored prompts without repetition; among equal counts, the first stored come first |
| Storage.Store.GetSettings | assets/js/storage.js:231-240 | the stored settings, or the defaults when none are stored |
| Storage.Store.UpdateSettings | assets/js/storage.js:242-246 | the given keys overwrite the current settings, the others stay |
| Storage.Store.ExportData | assets/js/storage.js:249-270 | a snapshot of both lists and the effective settings |
| Storage.Store.ImportData | assets/js/storage.js:272-307 | refused with no write without data; merge appends the records whose id is new; replace stores the incoming lists |
| Storage.ImportOwnExportMerge | assets/js/storage.js:272-307 | merging the library's own export back in changes nothing |
| Storage.Store.GetStatistics | assets/js/storage.js:329-347 | counts of both lists, total uses, the first prompt with the highest use count (every earlier prompt has strictly fewer uses), and the count of prompts used in the last week |
| Search.TitleScore | assets/js/search.js:132-136 | the title bonus is 100 for equality, 50 for containment without equality, 0 otherwise |
| Search.WordsScore | assets/js/search.js:144-160 | each word adds between 0 and 40 |
| Search.CalculateSearchScore | assets/js/search.js:126-171 | the accumulating loop computes `Score` |
| Search.ScoreAtLeastUsage | assets/js/search.js:163-168 | the score is at least twice the use count, so never negative and positive once used |
| Search.ExactTitleOutranks | assets/js/search.js:132-136 | for a one-word query, an equal title outranks a containing title when all else is equal |
| Search.HitsMembership | assets/js/search.js:115-119 | the hits are exactly the prompts with a positive score, with that score |
| Search.SearchPrompts | assets/js/search.js:107-124 | the result is the hits sorted by score |
| Search.SearchResultsRanked | assets/js/search.js:115-123 | the result is sorted, contains exactly the positive-score prompts, and keeps collection order among equal scores |
| Search.PerformSearch | assets/js/search.js:86-105 | a blank query shows all prompts; otherwise the results for the trimmed query |
| Search.EscapeRegExpLiteral | assets/js/search.js:332-334 | every metacharacter is escaped (the pattern is literal), and removing the escapes gives the input back |
| Search.HighlightWords | assets/js/search.js:321 | the highlighted words are the query's words longer than one character |
| Search.HighlightBreaksMarkup | assets/js/search.js:318-330 | as written, a later word can match inside an earlier `<mark>` tag, so the marks no longer strip back to the text |
| Search.HighlightOnePassUnmarks | assets/js/search.js:318-330 | marking all words in one pass leaves text that strips back to the input |
| Search.OnePassSingleWord | assets/js/search.js:324-327 | for a single word the one-pass marking equals the as-written replacement |
| Search.PushHistoryProperties | assets/js/search.js:388-405 | a blank or one-character query is ignored; otherwise the trimmed query comes first, once, followed by the first nine entries of the old history that differ from it, in their old order |
| Search.SearchEngine.AddToSearchHistory | assets/js/search.js:388-405 | the history becomes `PushHistory` of the old one and is stored unless the query is ignored |
| Search.SearchEngine.GetSearchHistory | assets/js/search.js:425-427 | the history as it stands in memory, the same list `AddToSearchHistory` keeps |
| Search.SearchEngine.LoadSearchHistory | assets/js/search.js:407-415 | the stored history is loaded |
| ImportExport.ValidateImportData | assets/js/import-export.js:238-285 | the early-return loops decide `WellFormedImport`: an object with truthy version and data, arrays where present, complete entries |
| ImportExport.ExportAllData | assets/js/import-export.js:63-96 | a full export carries both lists, the settings and the total uses |
| ImportExport.ExportPromptsOnly | assets/js/import-export.js:98-125 | a prompts export carries both lists and no settings |
| ImportExport.ExportData | assets/js/import-export.js:497-502 | "prompts" selects the prompts export, anything else the full one |
| ImportExport.ExportCountsMatch | assets/js/import-export.js:74-88 | the recorded totals equal the lengths of the exported lists, and settings are present exactly in a full export |
| ImportExport.CategoriesValueOk | assets/js/import-export.js:262-270 | a list of categories passes the entry checks exactly when every category has an id, a name and a creation time |
| ImportExport.PromptsValueOk | assets/js/import-export.js:272-279 | a list of prompts passes the entry checks exactly when every prompt has an id, title, content and creation time |
| ImportExport.DocValidates | assets/js/import-export.js:238-285 | an export document passes validation exactly when all its entries are complete |
| ImportExport.ExportValidates | assets/js/import-export.js:63-96 | the library's own export passes import validation exactly when its records are complete |
| ImportExport.MergeData | assets/js/import-export.js:443-462 | the existing list comes first, unchanged; each incoming item with an unseen key is appended, stamped |
| ImportExport.PerformImport | assets/js/import-export.js:387-441 | per selected and present item type: merge appends unseen names or titles, replace stores the incoming list; others are untouched |
| ImportExport.ImportOwnExport | assets/js/import-export.js:387-441 | importing the library's own full export leaves both lists and the settings as they were, in either mode |
| ImportExport.MergeImportTwice | assets/js/import-export.js:392-421 | a second merge import of the same document adds nothing |
| ImportExport.MergeKeysDisagree | assets/js/import-export.js:406 | the file import merges by name, the storage import by id: the same pair of categories gives different results |
| ImportExport.Decode | assets/js/storage.js:272-286 | the storage import reads a document exactly when it has truthy `data` whose truthy `categories` and `prompts` are arrays; every document that passes file validation is read |
| ImportExport.CategoryRoundTrip | assets/js/import-export.js:63-96 | reading back an exported category gives the category |
| ImportExport.PromptRoundTrip | assets/js/import-export.js:63-96 | reading back an exported prompt, with its source, gives the prompt |
| ImportExport.DecodeExport | assets/js/storage.js:272-278 | the storage import reads the library's own export as exactly its categories, prompts and settings |
| ImportExport.ImportFromFile | assets/js/import-export.js:504-513 | refused with no write exactly when validation fails; otherwise categories and prompts are merged by id with the collections read from that same document, and its settings, when present, are spread over the stored ones |
| ImportExport.ImportOwnExportFile | assets/js/import-export.js:504-513 | importing the library's own export file changes neither list nor the settings |
| ImportExport.CategoryLabel | assets/js/import-export.js:527-532 | a prompt's section is the name of the last category with its id, as the `Map` keeps it; "Uncategorized" when no category has the id or that name is empty |
| ImportExport.GroupedPartition | assets/js/import-export.js:526-537 | the text export's sections have distinct names, each prompt filed under its label, and together hold every prompt once |
| ImportExport.GroupPrompts | assets/js/import-export.js:526-537 | the grouping into a plain object throws exactly when some prompt's label is a property every object inherits; otherwise it yields the sections of `Grouped` |
| ImportExport.GroupingThrowsOnlyOnInheritedNames | assets/js/import-export.js:530-536 | only a category named after an inherited property, and used by some prompt, makes the grouping throw; "Uncategorized" never does |
| ImportExport.ConstructorCategoryThrows | assets/js/import-export.js:530-536 | a prompt filed under a category named "constructor" makes the grouping throw |
| ImportExport.RenderGroup | assets/js/import-export.js:540-547 | the rendering loop computes `GroupText` |
| ImportExport.ExportAsText | assets/js/import-export.js:516-555 | null exactly when the grouping throws; otherwise the header followed by every section |
| Injection.SelectorsFor | content/sidebar-utils.js:103-139 | the first matching site's selectors followed by the fallbacks, or the fallbacks alone |
| Injection.BuildSelectorList | content/sidebar-utils.js:103-139 | the site loop builds `SelectorsFor`; the fallbacks always end the list |
| Injection.Pick | content/sidebar-utils.js:146-148 | none exactly when nothing is visible; otherwise a visible element of maximal area |
| Injection.PickPrefersFirst | content/sidebar-utils.js:146-148 | among equal areas the first visible element wins |
| Injection.TargetOfFirstHit | content/sidebar-utils.js:142-152 | the target comes from the first selector with a visible match |
| Injection.TargetOfNone | content/sidebar-utils.js:154 | there is no target exactly when no selector has a visible match |
| Injection.TargetOfIgnoresLater | content/sidebar-utils.js:142-152 | selectors after the first hit are never consulted |
| Injection.NewlinesToBr | content/sidebar-utils.js:161 | the converted text has no newline; conversion distributes over concatenation (`NewlinesToBrAppend`) |
| Injection.RichTextWrite | content/sidebar-utils.js:159-178 | a contenteditable target gets the converted text in its first paragraph or itself, and input events |
| Injection.ParagraphWrite | content/sidebar-utils.js:180-196 | a matched paragraph gets the converted text, with events on it and its parent |
| Injection.PlainFieldWrite | content/sidebar-utils.js:198-209 | an input or textarea gets the text verbatim, input/change/keyup, and the caret at the end when it has a selection range |
| Injection.FindAndFillInput | content/sidebar-utils.js:99-215 | true exactly when a target exists, and then the target's write effects; false with nothing written |
| Injection.FindTarget | content/sidebar-utils.js:142-152 | the selector loop computes `TargetOf` |
| Injection.OriginalWritesVerbatim | content/sidebar-original.js:444-453 | the original resolver writes the text verbatim, never markup |
| Injection.FindAndFillInputOriginal | content/sidebar-original.js:413-464 | the original resolver tries the seven generic selectors only; false with nothing written when nothing is visible |
| Injection.ResolversDifferOnLineBreaks | content/sidebar-original.js:444-447 | given the same rich-text element, the refactored resolver writes `<br>` for a line break where the original writes the newline |
| Content.IsSupportedSite | assets/js/content.js:28-31 | true exactly when the hostname contains one of the six listed sites |
| Content.SupportedSitesHaveSelectors | assets/js/content.js:7-14 | the supported sites are exactly the hosts with their own selectors, so only they get more than the fallbacks |
| Content.FloatingIcon.InjectFloatingIcon | assets/js/content.js:43-50 | a no-op once injected or while a button exists; otherwise injects, so a second call changes nothing |
| Content.FloatingIcon.InitializeSidebar | assets/js/content.js:52-71 | a new closed sidebar when the sidebar class is available now or on the retry |
| Content.FloatingIcon.Destroy | assets/js/content.js:294-313 | no button, no sidebar, not injected; the old sidebar is closed and torn down |
| Content.FloatingIcon.HandleMessage | assets/js/content.js:317-356 | `fillPrompt` replies with the resolver's result; `toggleSidebar` flips an existing sidebar and replies success; others get no reply |
| Background.IsSupportedUrl | assets/js/background.js:305-318 | false for a missing or empty URL, otherwise true exactly when it contains a listed site |
| Background.SupportAgrees | assets/js/background.js:305-318 | the worker's check agrees with the content script's |
| Background.SamplePrompts | assets/js/background.js:86-119 | three sample prompts, each created and modified at `now` with an id that starts with `now` in decimal |
| Background.SamplesFitDefaults | assets/js/background.js:86-119 | the sample prompts have distinct ids, are filed under default categories, and are unused |
| Background.InitializeDefaultData | assets/js/background.js:71-139 | defaults and samples only when no categories are stored; default settings only when none are stored |
| Background.CleanupOldData | assets/js/background.js:360-379 | the history keeps its first 50 entries and the backups their first 5, untouched when shorter |
| Background.SelectionTitle | assets/js/background.js:207 | "Prompt from " and the tab's title, or "webpage" |
| Background.SelectionPrompt | assets/js/background.js:200-219 | trimmed content, category "general", unused, with the source page |
| Background.SaveSelectedTextAsPrompt | assets/js/background.js:193-231 | a missing or blank selection writes nothing; otherwise exactly one prompt is appended |
| Background.SavedSelectionIsFound | assets/js/background.js:193-231 | a saved selection is found by the storage search for the same text |
| Background.HandleMessage | assets/js/background.js:233-260 | the tab for `getTabInfo`, the support check for `checkSupportedSite`, "Unknown action" otherwise |
| Background.ToggleOnActiveTab | assets/js/background.js:281-293 | a toggle message exactly when the active tab's URL is supported |
| Background.HandleCommand | assets/js/background.js:262-279 | the two shortcuts toggle a supported tab, `quick-search` focusing the search |
| PopupSettings.SystemTheme | popup/scripts/settings.js:162-167 | "dark" exactly when the system prefers dark, else "light" |
| PopupSettings.ValidateSettings | popup/scripts/settings.js:308-330 | an object whose truthy theme is a theme and whose flags are booleans when present |
| PopupSettings.DefaultSettingsValid | popup/scripts/settings.js:308-330 | the default settings validate, with any of the three themes |
| PopupSettings.ThemeUpdateKeepsValid | popup/scripts/settings.js:316-318 | a theme from the list keeps settings valid; any other truthy value invalidates them |
| PopupSettings.ThemeDisplayName | popup/scripts/settings.js:353-360 | the labels of the three themes, anything else as it is |
| PopupSettings.DisplayNamesDistinct | popup/scripts/settings.js:353-360 | the three labels differ and are not theme names; a non-theme can share a label |
| PopupSettings.ToggledTheme | popup/scripts/settings.js:244-245 | "light" exactly after "dark"; always a different, concrete theme |
| PopupSettings.ToggleTwice | popup/scripts/settings.js:243-256 | toggling twice restores an effective light or dark theme |
| PopupSettings.CurrentTheme | popup/scripts/settings.js:169-177 | "auto" with no settings, the system theme for "auto", the stored theme otherwise |
| PopupSettings.SettingsPanel.GetCurrentTheme | popup/scripts/settings.js:169-177 | the panel's theme in use, as `CurrentTheme` decides it from the in-memory settings |
| PopupSettings.SettingsPanel.LoadCurrentSettings | popup/scripts/settings.js:14-26 | the stored settings, or the defaults when reading fails |
| PopupSettings.SettingsPanel.ApplyTheme | popup/scripts/settings.js:94-108 | renders the system theme for "auto"; records the theme in loaded settings |
| PopupSettings.SettingsPanel.UpdateSetting | popup/scripts/settings.js:110-125 | the in-memory settings become the updated copy only when the write succeeds |
| PopupSettings.SettingsPanel.SetTheme | popup/scripts/settings.js:209-216 | a value outside the three themes is refused with no write |
| PopupSettings.SettingsPanel.ToggleTheme | popup/scripts/settings.js:243-256 | the effective theme changes once settings are loaded or the write succeeds |
| PopupSettings.SettingsPanel.ImportSettings | popup/scripts/settings.js:285-305 | succeeds exactly when the document is truthy, its `data` is a truthy object, its `type` is "settings" and the write succeeds; then the data is stored as is, becomes the in-memory copy, and its theme (or "auto") is applied; on failure nothing changes |
| FormHandler.ValidatePromptForm | popup/scripts/form-handler.js:47-72 | valid exactly when neither field is blank; the fields come back trimmed |
| FormHandler.ValidatedFormIsStable | popup/scripts/form-handler.js:47-72 | validating the returned values gives the same form |
| FormHandler.ValidateCategoryForm | popup/scripts/form-handler.js:74-97 | a blank name or a case-insensitive duplicate is invalid with no name; otherwise the trimmed name |
| FormHandler.AddedNameIsTaken | popup/scripts/form-handler.js:88-94 | once an accepted name is added, it no longer validates |
| FormHandler.CategoryChoice | popup/scripts/form-handler.js:146 | the empty option means no category |
| FormHandler.PromptForms.PreSelectCategory | popup/scripts/form-handler.js:38-44 | only a present category other than "all" replaces the selection |
| FormHandler.PromptForms.HandlePromptSubmission | popup/scripts/form-handler.js:131-186 | refused while busy; the flag is clear after every exit; edit patches title, content and category; otherwise adds |
| FormHandler.PromptForms.HandleCategorySubmission | popup/scripts/form-handler.js:188-230 | its own busy flag; adds the trimmed name exactly when not busy and the name validates |
| Utils.TruncateText | popup/scripts/utils.js:34-37 | unchanged when short enough; otherwise the first `maxLength` characters and "..." |
| Utils.TruncateBound | popup/scripts/utils.js:34-37 | at most three characters over the limit: at most 153 by default |
| Utils.TruncateIdempotent | content/sidebar-utils.js:261-264 | truncating a truncated text changes nothing |
| Utils.FormatDate | popup/scripts/utils.js:39-43 | "Never" for a missing or zero timestamp |
| Sidebar.LoadedCategories | content/sidebar.js:33-36 | the stored categories, or the single "all" category when none are stored |
| Sidebar.PromptNestSidebar.LoadData | content/sidebar.js:26-41 | the stored lists; on a failed load no prompts and only the "all" category |
| Sidebar.Listed | content/sidebar.js:331-340 | all prompts for "all", otherwise exactly those filed under the category, in order and with every copy |
| Sidebar.SearchResults | content/sidebar.js:264-283 | the category's list for a blank query; otherwise its prompts whose title or content contains the query, case-insensitively, in order and with every copy |
| Sidebar.SearchKeepsSurroundingSpaces | content/sidebar.js:277-280 | the sidebar matches the untrimmed query, so " ab" misses a title that the storage search finds |
| Sidebar.SearchHeading | content/sidebar.js:288-291 | "Search in" the category's name, or "Unknown", and the number found |
| Sidebar.SearchLabel | content/sidebar.js:289-290 | the name shown is "All Prompts" for the all-category, the first matching category's non-empty name, else "Unknown" |
| Sidebar.CategoryHeading | content/sidebar.js:316-322 | the selected category's name, or "All Prompts" |
| Sidebar.CategoryCounts | content/sidebar.js:125-146 | "all" with the total first, then every other category with the size of its list |
| Sidebar.PromptNestSidebar.HandleSearch | content/sidebar.js:264-298 | shows `SearchResults`, and a search heading for a non-blank query |
| Sidebar.PromptNestSidebar.SelectCategory | content/sidebar.js:300-329 | shows the category's list under its heading |
| Sidebar.PromptNestSidebar.UpdatePromptList | content/sidebar.js:331-340 | shows the current category's list |
| Sidebar.PromptNestSidebar.UsePrompt | content/sidebar.js:397-416 | usage is recorded, stored and the panel closed only when the prompt was written into the page |
| Sidebar.PromptNestSidebar.RecordUse | content/sidebar.js:403-409 | the used prompt's count rises so the total rises by exactly one, the list is stored and the panel closes |
| Sidebar.PromptNestSidebar.CopyPrompt | content/sidebar.js:418-434 | usage is recorded only after the clipboard write completes |
| Sidebar.PromptNestSidebar.Open | content/sidebar.js:443-452 | a no-op when already open; otherwise opens and locks page scrolling |
| Sidebar.PromptNestSidebar.Close | content/sidebar.js:454-463 | a no-op when already closed |
| Sidebar.PromptNestSidebar.Toggle | content/sidebar.js:465-471 | flips the open state |
| Sidebar.PromptNestSidebar.Destroy | content/sidebar.js:473-484 | closed, with no panel and no scroll lock |
| Sidebar.PromptsAfterDialogAdd | content/sidebar-modal-manager.js:154-208 | the shared add rule: blank or duplicate adds nothing, otherwise one trimmed prompt under the selection or "general" |
| Sidebar.DialogAddIdempotent | content/sidebar-modal-manager.js:176-185 | saving the same dialog twice adds once |
| Sidebar.DialogAddNeverBlank | content/sidebar-modal-manager.js:154-169 | the add dialog never stores a blank title or content |
| Sidebar.DialogCategory | content/sidebar-modal-manager.js:366-386 | none for a blank name or a case-insensitive duplicate; otherwise a category with the trimmed name |
| Sidebar.DialogCategoryOnce | content/sidebar-modal-manager.js:366-386 | once added, the same name in any case is refused |
| Sidebar.SidebarImportCategories | content/sidebar-modal-manager.js:513-523 | the existing categories come first; the additions are not "all" and are not named like an existing one; every such incoming one is added |
| Sidebar.SidebarImportKeepsSameNamedPair | content/sidebar-modal-manager.js:513-523 | names are checked against the existing list only, so two incoming "Work"/"work" both get in |
| Sidebar.SidebarImportDisagreesWithStore | content/sidebar-modal-manager.js:513-516 | the sidebar import appends every prompt again, where the storage merge adds nothing |
| ModalManager.DefaultCategoryChoice | content/sidebar-modal-manager.js:80-82 | the shown category, or while "all" is shown the first category ("general" when none) |
| ModalManager.AddedFromViewIsListed | content/sidebar-modal-manager.js:80-82 | a prompt added with the default choice while a category is shown appears in that category's list |
| ModalManager.EditedPrompt | content/sidebar-modal-manager.js:286-289 | only title, content, category and `modified` change |
| ModalManager.ModalManager.HandleAddPrompt | content/sidebar-modal-manager.js:133-210 | nothing while busy; `PromptsAfterDialogAdd` otherwise; the flag is clear after every exit and storage is written only when a prompt is added |
| ModalManager.ModalManager.HandleEditPrompt | content/sidebar-modal-manager.js:256-297 | blank fields or an unknown id change nothing; otherwise only the first match changes, via `EditedPrompt` |
| ModalManager.ModalManager.HandleDeletePrompt | content/sidebar-modal-manager.js:323-330 | exactly the prompts with the id go |
| ModalManager.ModalManager.HandleAddCategory | content/sidebar-modal-manager.js:358-391 | appends and stores exactly when `DialogCategory` accepts the name |
| ModalManager.ModalManager.ImportData | content/sidebar-modal-manager.js:500-541 | all incoming prompts appended; categories through `Importable`; both stored |
| SidebarOriginal.OriginalSidebar.HandleAddPrompt | content/sidebar-original.js:591-665 | the same add rule as the dialogs, guarded by the busy flag, which is clear after every exit |
| SidebarOriginal.OriginalSidebar.HandleAddCategory | content/sidebar-original.js:847-879 | the same name rule as the dialogs |
| SidebarOriginal.OriginalSidebar.HandleDeletePrompt | content/sidebar-original.js:813-819 | exactly the prompts with the id go |
| SidebarOriginal.OriginalSidebar.ImportData | content/sidebar-original.js:1020-1059 | the same import rules as the dialogs |
| SidebarOriginal.OriginalSidebar.Open | content/sidebar-original.js:1137-1146 | a no-op when already open |
| SidebarOriginal.OriginalSidebar.Close | content/sidebar-original.js:1148-1157 | a no-op when already closed |
| SidebarOriginal.OriginalSidebar.Toggle | content/sidebar-original.js:1159-1165 | flips the open state and keeps the scroll lock in step |

## Left out

- Browser APIs are not modelled: `chrome.storage`, tabs, runtime messaging, context menus, alarms and the action title. Storage is the in-memory `Store`; messages are plain calls.
- Asynchrony and races between extension contexts are not modelled; each operation runs to completion.
- Storage write failures and the `catch` paths are not modelled, except that the settings panel's `updateSetting`/`importSettings` take the write's outcome as a parameter.
- Dates and fresh ids are parameters: `Date.now()` is `now`, and the random id generator is a `freshId`/`ids` oracle.
- Timers are not modelled: debounce, the delayed icon injection, the 500 ms retry of the universal toggle, focusing the search box, and the `MutationObserver`.
- HTML rendering, modal markup, toasts and `escapeHtml` are not modelled. Dialog fields arrive as arguments.
- A `<select>` value that names no option is not modelled.
- Reading files, `JSON.parse`, Blob downloads and the clipboard are not modelled. Parsed documents are `Value`s or typed records.
- A sidebar import of a category without a name, which throws in the source, is not modelled.
- `toLowerCase` is modelled on ASCII letters only.
- Lengths are counted in characters, not UTF-16 code units.
- Numbers are integers. `averageUsesPerPrompt`, which divides and formats a float, is left out of `GetStatistics`.
- Key order of `Object.entries` and of spread objects is not modelled; settings are maps.
- Storage.Store.IncrementPromptUsage: a stored prompt without a `useCount` field, which the source turns into `NaN`, is not modelled; counts are always numbers.
- Storage.TotalUsesAfterUse: holds only for prompts whose counts are numbers, as every count is in the model.
- Objects in an imported file whose fields have other types are read with defaults: an empty string, 0, or no value.
- Truthy settings in an imported file that are not an object are spread as no keys; this matches numbers and booleans, but not strings or arrays, whose indices would be copied.
- ImportExport.ExportAsText: integer-like category names, which `Object.entries` lists first, appear in order of first use.
- Search.ExactTitleOutranks: stated for one-word queries only. With several words, the per-word scores of the two titles are not compared.
- Search.HighlightSearchTerms: the regex engine is replaced by a literal, case-insensitive scan of the lower-cased text.
- ImportExport.PerformImport: one `now` stamps every imported record.
- PopupSettings.SettingsPanel.ImportSettings: accepts only object data. Truthy non-object data (a string, a number, an array), which the source stores, is refused here.
- PopupSettings.SettingsPanel.ImportSettings: the form refresh, which re-reads the stored settings after the theme is applied, is not modelled.
- PopupSettings.SettingsPanel.ApplyTheme: `matchMedia` is the `prefersDark` parameter.
- Content.FloatingIcon.HandleMessage: the universal toggle's delayed retry and focusing the search box are left out; the reply is modelled.
- Utils.FormatDate: locale date formatting is the `render` parameter.

## Findings

| source | as written | input that shows it | evidently intended | confidence | as-written member | corrected member |
|---|---|---|---|---|---|---|
| assets/js/search.js:324-327 | each query word is replaced in turn in the already highlighted text, so a later word can match inside an earlier `<mark>` tag | text "test", query "test mark": the second pass turns `<mark>` into `<<mark>mark</mark>>` | mark each occurrence of any query word once, leaving earlier marks intact | not executed | Search.HighlightBreaksMarkup | Search.HighlightOnePassUnmarks |
| assets/js/import-export.js:530-536 | prompts are grouped in a plain object, so a category named after an inherited property finds a function already there and `push` throws, and the text export returns null | one prompt in a category named "constructor" | every category name gets its own section | not executed | ImportExport.ConstructorCategoryThrows | ImportExport.GroupedPartition |

=== FILE: background.dfy ===
/**
 * The background service worker (assets/js/background.js): first-run defaults, saving a
 * page selection as a prompt, storage housekeeping, and the routing of messages and
 * keyboard commands. The active tab, the clock and the stored lists are parameters or
 * the `Store`; the browser's tab and messaging calls are not part of this model.
 */
module Background {
  import opened Wrappers
  import opened Seqs
  import opened Text
  import opened Records
  import opened Storage
  import Content

  /** A browser tab as the worker sees it; `url` and `title` may be missing. */
  datatype Tab = Tab(id: int, url: Option<string>, title: Option<string>)

  /** `isSupportedSite(url)`: false for a missing or empty URL, else some listed site occurs in it. */
  function IsSupportedUrl(url: Option<string>): (r: bool)
    ensures url.None? || url == Some("") ==> !r
    ensures url.Some? && url.value != "" ==>
      (r <==> exists i :: 0 <= i < |Content.SupportedSites| && Contains(url.value, Content.SupportedSites[i]))
  {
    url.Some? && url.value != "" && Content.IsSupportedSite(url.value)
  }

  /** The worker and the content script agree on which pages are supported. */
  lemma SupportAgrees(url: string)
    ensures IsSupportedUrl(Some(url)) == Content.IsSupportedSite(url)
  {
    if url == "" {
      forall i | 0 <= i < |Content.SupportedSites|
        ensures !Contains(url, Content.SupportedSites[i])
      {
        ShorterNotContained(url, Content.SupportedSites[i]);
      }
    }
  }

  // ---------------------------------------------------------------------------
  // First run and housekeeping
  // ---------------------------------------------------------------------------

  /** One of the sample prompts: fresh counters, stamped `now`. */
  function Sample(id: string, title: string, content: string, categoryId: string, now: nat): Prompt
  {
    Prompt(id, title, content, Some(categoryId), now, now, 0, None, None, false, None)
  }

  const EmailSummaryText: string :=
    "Please summarize the key points from this email in 3-4 bullet points, focusing on action items and important deadlines."
  const CreativeWritingText: string :=
    "Write a short story (500 words) about a character who discovers an unusual object in their attic. Focus on building mystery and atmosphere."
  const ExplainSimplyText: string :=
    "Explain this concept as if you're talking to a 5-year-old. Use simple language, analogies, and examples that a child would understand."

  /** The three sample prompts, with ids `Date.now()` followed by `-1`, `-2`, `-3`. */
  function SamplePrompts(now: nat): (ps: seq<Prompt>)
    ensures |ps| == 3
    ensures forall p :: p in ps ==> p.created == now && p.modified == now && NatToString(now) <= p.id
  {
    var stamp := NatToString(now);
    [Sample(stamp + "-1", "Email Summary", EmailSummaryText, "work", now),
     Sample(stamp + "-2", "Creative Writing Prompt", CreativeWritingText, "creative", now),
     Sample(stamp + "-3", "Explain Like I'm 5", ExplainSimplyText, "general", now)]
  }

  /**
   * The sample prompts have pairwise distinct ids and are each filed under one of the
   * default categories, and none has been used.
   */
  lemma SamplesFitDefaults(now: nat)
    ensures forall i, j :: 0 <= i < j < 3 ==> SamplePrompts(now)[i].id != SamplePrompts(now)[j].id
    ensures forall i :: 0 <= i < 3 ==>
      exists c :: c in DefaultCategories(now) && SamplePrompts(now)[i].categoryId == Some(c.id)
    ensures forall p :: p in SamplePrompts(now) ==> p.useCount == 0 && p.lastUsed.None?
  {
    var ps := SamplePrompts(now);
    var stamp := NatToString(now);
    var n := |stamp|;
    assert ps[0].id[n + 1] == '1' && ps[1].id[n + 1] == '2' && ps[2].id[n + 1] == '3';
    var cs := DefaultCategories(now);
    assert cs[1] in cs && ps[0].categoryId == Some(cs[1].id);
    assert cs[2] in cs && ps[1].categoryId == Some(cs[2].id);
    assert cs[0] in cs && ps[2].categoryId == Some(cs[0].id);
  }

  /**
   * `initializeDefaultData`: with no stored categories, the default categories and the
   * sample prompts are written (replacing any stored prompts); with no stored settings,
   * the default settings are written. Anything already there stays.
   */
  method InitializeDefaultData(store: Store, now: nat)
    modifies store`categories, store`prompts, store`settings
    ensures old(store.categories) == [] ==>
      store.categories == DefaultCategories(now) && store.prompts == SamplePrompts(now)
    ensures old(store.categories) != [] ==>
      store.categories == old(store.categories) && store.prompts == old(store.prompts)
    ensures old(store.settings).None? ==> store.settings == Some(DefaultSettings)
    ensures old(store.settings).Some? ==> store.settings == old(store.settings)
  {
    if store.categories == [] {
      store.categories := DefaultCategories(now);
      store.prompts := SamplePrompts(now);
    }
    if store.settings.None? {
      store.settings := Some(DefaultSettings);
    }
  }

  /** `cleanupOldData`: the search history keeps its first 50 entries, the backups their first 5. */
  method CleanupOldData(store: Store)
    modifies store`searchHistory, store`backups
    ensures store.searchHistory == Take(old(store.searchHistory), 50)
    ensures store.backups == Take(old(store.backups), 5)
    ensures |store.searchHistory| <= 50 && |store.backups| <= 5
    ensures |old(store.searchHistory)| <= 50 ==> store.searchHistory == old(store.searchHistory)
    ensures |old(store.backups)| <= 5 ==> store.backups == old(store.backups)
  {
    if |store.searchHistory| > 50 {
      store.searchHistory := store.searchHistory[..50];
    }
    if |store.backups| > 5 {
      store.backups := store.backups[..5];
    }
  }

  // ---------------------------------------------------------------------------
  // Saving a selection
  // ---------------------------------------------------------------------------

  /** The title of a saved selection: the tab's title, or "webpage" when it has none. */
  function SelectionTitle(tab: Tab): (t: string)
    ensures StartsWith(t, "Prompt from ")
    ensures tab.title.Some? && tab.title.value != "" ==> t == "Prompt from " + tab.title.value
    ensures tab.title.None? || tab.title == Some("") ==> t == "Prompt from webpage"
  {
    var name := if tab.title.Some? && tab.title.value != "" then tab.title.value else "webpage";
    var t := "Prompt from " + name;
    assert t[..|"Prompt from "|] == "Prompt from ";
    t
  }

  /** The prompt a selection becomes: trimmed text, filed under "general", with its source page. */
  function SelectionPrompt(text: string, tab: Tab, now: nat): (p: Prompt)
    ensures p.id == NatToString(now) && p.title == SelectionTitle(tab)
    ensures p.content == Trim(text) && p.categoryId == Some("general")
    ensures p.useCount == 0 && p.lastUsed.None? && p.created == now && p.modified == now
    ensures p.source == Some(Source(tab.url, tab.title, now))
  {
    Prompt(NatToString(now), SelectionTitle(tab), Trim(text), Some("general"), now, now, 0, None,
           Some(Source(tab.url, tab.title, now)), false, None)
  }

  /**
   * `saveSelectedTextAsPrompt`: a missing or blank selection writes nothing; otherwise
   * the selection is appended as one new prompt.
   */
  method SaveSelectedTextAsPrompt(store: Store, selectedText: Option<string>, tab: Tab, now: nat)
    modifies store`prompts
    ensures selectedText.None? || IsBlank(selectedText.value) ==> store.prompts == old(store.prompts)
    ensures selectedText.Some? && !IsBlank(selectedText.value) ==>
      store.prompts == old(store.prompts) + [SelectionPrompt(selectedText.value, tab, now)]
  {
    if selectedText.None? || IsBlank(selectedText.value) {
      return;
    }
    store.prompts := store.prompts + [SelectionPrompt(selectedText.value, tab, now)];
  }

  /** A saved selection is found by the storage search for the same text. */
  lemma SavedSelectionIsFound(store: Store, text: string, tab: Tab, now: nat)
    requires !IsBlank(text) && SelectionPrompt(text, tab, now) in store.prompts
    ensures SelectionPrompt(text, tab, now) in store.SearchPrompts(text)
  {
    var p := SelectionPrompt(text, tab, now);
    LowerTrim(text);
    ContainsSelf(Lower(p.content));
  }

  // ---------------------------------------------------------------------------
  // Message and command routing
  // ---------------------------------------------------------------------------

  /** A runtime message to the worker: its `action` and, for the site check, its `url`. */
  datatype Message = Message(action: string, url: Option<string>)

  datatype Response =
    | TabInfo(tab: Option<Tab>)
    | Supported(supported: bool)
    | Error(message: string)

  /** `handleMessage`: the active tab, the support check of the given URL, or an error. */
  function HandleMessage(m: Message, activeTab: Option<Tab>): (r: Response)
    ensures m.action == "getTabInfo" ==> r == TabInfo(activeTab)
    ensures m.action == "checkSupportedSite" ==> r == Supported(IsSupportedUrl(m.url))
    ensures m.action != "getTabInfo" && m.action != "checkSupportedSite" ==> r == Error("Unknown action")
  {
    if m.action == "getTabInfo" then TabInfo(activeTab)
    else if m.action == "checkSupportedSite" then Supported(IsSupportedUrl(m.url))
    else Error("Unknown action")
  }

  /** The `toggleSidebar` message sent to a tab. */
  datatype ToggleMessage = ToggleMessage(tabId: int, focusSearch: bool)

  /** `toggleSidebarOnActiveTab`: a message only for an existing tab on a supported page. */
  function ToggleOnActiveTab(activeTab: Option<Tab>, focusSearch: bool): (r: Option<ToggleMessage>)
    ensures r.Some? <==> activeTab.Some? && IsSupportedUrl(activeTab.value.url)
    ensures r.Some? ==> r.value == ToggleMessage(activeTab.value.id, focusSearch)
  {
    if activeTab.Some? && IsSupportedUrl(activeTab.value.url) then
      Some(ToggleMessage(activeTab.value.id, focusSearch))
    else None
  }

  /**
   * `handleCommand`: the two shortcuts toggle the sidebar of a supported active tab,
   * `quick-search` asking for the search box to be focused; other commands send nothing.
   */
  function HandleCommand(command: string, activeTab: Option<Tab>): (r: Option<ToggleMessage>)
    ensures r.Some? ==> (command == "open-promptnest" || command == "quick-search")
    ensures r.Some? ==> r.value.focusSearch == (command == "quick-search")
    ensures r.Some? ==>
      activeTab.Some? && r.value.tabId == activeTab.value.id && activeTab.value.url.Some? &&
      Content.IsSupportedSite(activeTab.value.url.value)
    ensures ((command == "open-promptnest" || command == "quick-search") &&
             activeTab.Some? && IsSupportedUrl(activeTab.value.url)) ==> r.Some?
  {
    if command == "open-promptnest" then ToggleOnActiveTab(activeTab, false)
    else if command == "quick-search" then ToggleOnActiveTab(activeTab, true)
    else None
  }
}

=== FILE: content.dfy ===
/**
 * The content script (`PromptNestFloatingIcon`, assets/js/content.js): the supported-site
 * test, the injected/destroyed state of the floating button and its sidebar, and the
 * replies to the messages the extension sends to the page. Writing into the page is
 * the resolver of the `Injection` module, which this script contains a copy of.
 */
module Content {
  import opened Wrappers
  import opened Seqs
  import opened Text
  import opened Storage
  import opened Sidebar
  import opened Injection

  /** The sites the floating button is offered on (`supportedSites`). */
  const SupportedSites: seq<string> := [
    "chat.openai.com",
    "chatgpt.com",
    "gemini.google.com",
    "claude.ai",
    "copilot.microsoft.com",
    "chat.deepseek.com"
  ]

  /** The test `hostname.includes(site)`. */
  function ContainsSite(hostname: string): string -> bool
  {
    (site: string) => Contains(hostname, site)
  }

  /** `isSupportedSite`: some listed site occurs in the hostname. */
  function IsSupportedSite(hostname: string): (r: bool)
    ensures r <==> exists i :: 0 <= i < |SupportedSites| && Contains(hostname, SupportedSites[i])
  {
    FindIndex(SupportedSites, ContainsSite(hostname)) >= 0
  }

  /**
   * The supported sites are exactly the sites with their own selectors in the input
   * resolver: on a supported site the resolver tries site-specific selectors before the
   * fallbacks, and elsewhere the fallbacks alone.
   */
  lemma SupportedSitesHaveSelectors(hostname: string)
    ensures IsSupportedSite(hostname) <==> FindIndex(SiteSelectors, SiteIn(hostname)) >= 0
    ensures IsSupportedSite(hostname) <==> |SelectorsFor(hostname)| > |FallbackSelectors|
  {
    SiteKeysAreSupportedSites();
    KeyedSearchAgrees(hostname, SiteSelectors, SupportedSites);
  }

  /** Searching a table by its keys finds a hit exactly when searching the keys alone does. */
  lemma KeyedSearchAgrees(hostname: string, table: seq<(string, seq<string>)>, sites: seq<string>)
    requires |table| == |sites|
    requires forall i :: 0 <= i < |table| ==> table[i].0 == sites[i]
    ensures FindIndex(table, SiteIn(hostname)) >= 0 <==> FindIndex(sites, ContainsSite(hostname)) >= 0
  {
    var i := FindIndex(table, SiteIn(hostname));
    var j := FindIndex(sites, ContainsSite(hostname));
    if i >= 0 {
      assert ContainsSite(hostname)(sites[i]);
    }
    if j >= 0 {
      assert SiteIn(hostname)(table[j]);
    }
  }

  /** The keys of the selector table are the supported sites, in order, each with selectors. */
  lemma SiteKeysAreSupportedSites()
    ensures |SiteSelectors| == |SupportedSites|
    ensures forall i :: 0 <= i < |SiteSelectors| ==> SiteSelectors[i].0 == SupportedSites[i]
    ensures forall i :: 0 <= i < |SiteSelectors| ==> SiteSelectors[i].1 != []
  {
  }

  /** The messages the page answers. */
  datatype Request =
    | FillPrompt(promptText: string)
    | ToggleSidebar(focusSearch: bool, isUniversal: bool)
    | OtherRequest

  /** The `{ success }` reply. */
  datatype Reply = Reply(success: bool)

  class FloatingIcon {
    /** `window.location.hostname` of the page the script runs in. */
    const hostname: string
    var isInjected: bool
    var hasButton: bool
    var sidebar: PromptNestSidebar?

    /** The state before the page-load timer has fired. */
    constructor (hostname: string)
      ensures this.hostname == hostname
      ensures !isInjected && !hasButton && sidebar == null
    {
      this.hostname := hostname;
      isInjected := false;
      hasButton := false;
      sidebar := null;
    }

    /**
     * `initializeSidebar`: a new sidebar when the sidebar class is loaded now or on the
     * single retry; otherwise the field keeps its value.
     */
    method InitializeSidebar(loaded: bool, loadedOnRetry: bool, store: Store, now: int)
      modifies this`sidebar
      ensures loaded || loadedOnRetry ==>
        sidebar != null && fresh(sidebar) && sidebar.store == store && sidebar.Valid() && !sidebar.isOpen
      ensures !(loaded || loadedOnRetry) ==> sidebar == old(sidebar)
    {
      if loaded || loadedOnRetry {
        sidebar := new PromptNestSidebar(store, false, now);
      }
    }

    /**
     * `injectFloatingIcon`: a no-op once injected or while a button exists; otherwise it
     * creates the button and the sidebar and marks the page injected, so that a second
     * call changes nothing.
     */
    method InjectFloatingIcon(loaded: bool, loadedOnRetry: bool, store: Store, now: int)
      modifies this`isInjected, this`hasButton, this`sidebar
      ensures old(isInjected) || old(hasButton) ==>
        isInjected == old(isInjected) && hasButton == old(hasButton) && sidebar == old(sidebar)
      ensures !(old(isInjected) || old(hasButton)) ==>
        isInjected && hasButton
        && (loaded || loadedOnRetry ==> sidebar != null && fresh(sidebar) && !sidebar.isOpen)
        && (!(loaded || loadedOnRetry) ==> sidebar == old(sidebar))
    {
      if isInjected || hasButton {
        return;
      }
      hasButton := true;
      InitializeSidebar(loaded, loadedOnRetry, store, now);
      isInjected := true;
    }

    /** `destroy`: removes the button, destroys and drops the sidebar, and clears the flag. */
    method Destroy()
      modifies this`isInjected, this`hasButton, this`sidebar
      modifies sidebar
      ensures !isInjected && !hasButton && sidebar == null
      ensures old(sidebar) != null ==> !old(sidebar).isOpen && !old(sidebar).hasPanel && old(sidebar).Valid()
    {
      hasButton := false;
      if sidebar != null {
        sidebar.Destroy();
        sidebar := null;
      }
      isInjected := false;
    }

    /**
     * The message listener: `fillPrompt` replies with whether the prompt could be written
     * into the page; `toggleSidebar` toggles an existing sidebar and replies with success;
     * anything else gets no reply.
     */
    method HandleMessage(request: Request, page: Page) returns (reply: Option<Reply>, effects: seq<Effect>)
      modifies sidebar
      ensures request.FillPrompt? ==>
        reply == Some(Reply(TargetOf(page, SelectorsFor(hostname)).Some?))
        && (TargetOf(page, SelectorsFor(hostname)).Some? ==>
              effects == WriteEffects(TargetOf(page, SelectorsFor(hostname)).value, request.promptText))
      ensures request.ToggleSidebar? ==> reply == Some(Reply(true)) && effects == []
      ensures request.ToggleSidebar? && sidebar != null ==> sidebar.isOpen == !old(sidebar.isOpen)
      ensures !request.ToggleSidebar? && sidebar != null ==> sidebar.isOpen == old(sidebar.isOpen)
      ensures request.OtherRequest? ==> reply.None? && effects == []
    {
      match request {
        case FillPrompt(text) =>
          var ok;
          ok, effects := FindAndFillInput(page, hostname, text);
          reply := Some(Reply(ok));
        case ToggleSidebar(_, _) =>
          if sidebar != null {
            sidebar.Toggle();
          }
          reply, effects := Some(Reply(true)), [];
        case OtherRequest =>
          reply, effects := None, [];
      }
    }
  }
}

=== FILE: form_handler.dfy ===
/**
 * The popup's form logic (`PromptNestFormHandler`, popup/scripts/form-handler.js): the
 * validation of the prompt and category forms, the two submission handlers with their
 * ignore-while-busy flags, and the category pre-selection. The form fields arrive as
 * arguments; error messages and button states are not part of this model.
 */
module FormHandler {
  import opened Wrappers
  import opened Seqs
  import opened Text
  import opened Records
  import opened Storage

  /** The `{ isValid, title, content }` a prompt form validates to. */
  datatype PromptForm = PromptForm(isValid: bool, title: string, content: string)

  /** `validatePromptForm`: valid iff neither field is blank; the fields come back trimmed. */
  function ValidatePromptForm(title: string, content: string): (f: PromptForm)
    ensures f.isValid <==> !IsBlank(title) && !IsBlank(content)
    ensures f.title == Trim(title) && f.content == Trim(content)
  {
    PromptForm(Trim(title) != [] && Trim(content) != [], Trim(title), Trim(content))
  }

  /** Validating the values a form returned gives the same form back. */
  lemma ValidatedFormIsStable(title: string, content: string)
    ensures ValidatePromptForm(Trim(title), Trim(content)) == ValidatePromptForm(title, content)
  {
    TrimIdempotent(title);
    TrimIdempotent(content);
  }

  /** The `{ isValid, name }` a category form validates to; `name` is null when invalid. */
  datatype CategoryForm = CategoryForm(isValid: bool, name: Option<string>)

  /**
   * `validateCategoryForm`: a blank name, or one equal to an existing category's name
   * once both are lower-cased, is invalid; otherwise the trimmed name is returned.
   */
  function ValidateCategoryForm(name: string, categories: seq<Category>): (f: CategoryForm)
    ensures f.isValid <==> !IsBlank(name) && !NameTaken(categories, name)
    ensures f.isValid ==> f.name == Some(Trim(name))
    ensures !f.isValid ==> f.name.None?
  {
    if IsBlank(name) || NameTaken(categories, name) then CategoryForm(false, None)
    else CategoryForm(true, Some(Trim(name)))
  }

  /** Once a validated name has been added as a category, the same name no longer validates. */
  lemma AddedNameIsTaken(categories: seq<Category>, name: string, freshId: string, now: int)
    requires ValidateCategoryForm(name, categories).isValid
    ensures !ValidateCategoryForm(name, categories + [Category(freshId, Trim(name), now, None, false, None)]).isValid
  {
    var cs := categories + [Category(freshId, Trim(name), now, None, false, None)];
    assert Lower(cs[|categories|].name) == Lower(Trim(name));
  }

  /** The form's category selection: the empty option means no category. */
  function CategoryChoice(value: string): (r: Option<string>)
    ensures r.None? <==> value == []
    ensures r.Some? ==> r.value == value
  {
    if value == [] then None else Some(value)
  }

  class PromptForms {
    const store: Store
    var isSubmitting: bool
    var isCategorySubmitting: bool
    /** The value of the prompt form's category select. */
    var selectedCategory: string

    constructor (store: Store)
      ensures this.store == store && !isSubmitting && !isCategorySubmitting && selectedCategory == []
    {
      this.store := store;
      isSubmitting := false;
      isCategorySubmitting := false;
      selectedCategory := [];
    }

    /** `preSelectCategory`: only a present category other than "all" replaces the selection. */
    method PreSelectCategory(current: Option<string>)
      modifies this`selectedCategory
      ensures current.Some? && current.value != [] && current.value != "all" ==> selectedCategory == current.value
      ensures !(current.Some? && current.value != [] && current.value != "all") ==>
        selectedCategory == old(selectedCategory)
    {
      if current.Some? && current.value != [] && current.value != "all" {
        selectedCategory := current.value;
      }
    }

    /**
     * `handlePromptSubmission`: refused while a submission is in progress; an invalid
     * form is refused; an edit with a prompt id patches that prompt's title, content and
     * category, anything else adds the trimmed prompt. The flag is clear again on every
     * way out after the guard.
     */
    method HandlePromptSubmission(isEdit: bool, currentPromptId: Option<string>, title: string, content: string,
                                  categoryValue: string, freshId: string, now: int) returns (success: bool)
      modifies this`isSubmitting, store`prompts
      ensures old(isSubmitting) ==> !success && isSubmitting && store.prompts == old(store.prompts)
      ensures !old(isSubmitting) ==> !isSubmitting
      ensures !old(isSubmitting) && !ValidatePromptForm(title, content).isValid ==>
        !success && store.prompts == old(store.prompts)
      ensures (!old(isSubmitting) && ValidatePromptForm(title, content).isValid &&
               isEdit && currentPromptId.Some? && currentPromptId.value != []) ==>
          var i := FindIndex(old(store.prompts), HasPromptId(currentPromptId.value));
          (success <==> i >= 0)
          && (i < 0 ==> store.prompts == old(store.prompts))
          && (i >= 0 ==> store.prompts == old(store.prompts)[i := ApplyPromptPatch(old(store.prompts)[i],
                PromptPatch(Some(Trim(title)), Some(Trim(content)), Some(CategoryChoice(categoryValue))), now)])
      ensures (!old(isSubmitting) && ValidatePromptForm(title, content).isValid &&
               !(isEdit && currentPromptId.Some? && currentPromptId.value != [])) ==>
          success
          && store.prompts == PromptsAfterAdd(old(store.prompts), Trim(title), Trim(content),
                                              CategoryChoice(categoryValue), freshId, now)
    {
      if isSubmitting {
        return false;
      }
      isSubmitting := true;
      var form := ValidatePromptForm(title, content);
      if !form.isValid {
        isSubmitting := false;
        return false;
      }
      var categoryId := CategoryChoice(categoryValue);
      if isEdit && currentPromptId.Some? && currentPromptId.value != [] {
        success := store.UpdatePrompt(currentPromptId.value,
                                      PromptPatch(Some(form.title), Some(form.content), Some(categoryId)), now);
      } else {
        var _ := store.AddPrompt(form.title, form.content, categoryId, freshId, now);
        success := true;
      }
      isSubmitting := false;
    }

    /**
     * `handleCategorySubmission`: refused while a category submission is in progress or
     * when the name does not validate against the stored categories; otherwise the
     * category is added under the trimmed name. The flag is clear again after the guard.
     */
    method HandleCategorySubmission(name: string, freshId: string, now: int) returns (success: bool)
      modifies this`isCategorySubmitting, store`categories
      ensures old(isCategorySubmitting) ==> isCategorySubmitting
      ensures !old(isCategorySubmitting) ==> !isCategorySubmitting
      ensures success <==> !old(isCategorySubmitting) && ValidateCategoryForm(name, old(store.categories)).isValid
      ensures !success ==> store.categories == old(store.categories)
      ensures success ==>
        store.categories == old(store.categories) + [Category(freshId, Trim(name), now, None, false, None)]
    {
      if isCategorySubmitting {
        return false;
      }
      isCategorySubmitting := true;
      var form := ValidateCategoryForm(name, store.categories);
      if !form.isValid {
        isCategorySubmitting := false;
        return false;
      }
      TrimIdempotent(name);
      var _ := store.AddCategory(form.name.value, freshId, now);
      success := true;
      isCategorySubmitting := false;
    }
  }
}

=== FILE: import_export.dfy ===
/**
 * The import/export panel (`PromptNestImportExport`, assets/js/import-export.js):
 * the structural check a foreign document must pass, the import that merges by
 * category name and prompt title or replaces whole collections, the two export
 * documents and the plain-text export. Reading and writing files, `JSON.parse` and
 * the option dialog are not part of this model: the import takes the document both
 * as an untyped value (for the check) and as typed records (for the writes).
 */
module ImportExport {
  import opened Wrappers
  import opened Seqs
  import opened Text
  import opened Values
  import opened Records
  import opened Merging
  import Storage

  // ---------------------------------------------------------------------------
  // Validation of a foreign document
  // ---------------------------------------------------------------------------

  /** A category entry has a truthy `id`, `name` and `created`. */
  predicate CategoryEntryOk(v: Value)
  {
    Truthy(Get(v, "id")) && Truthy(Get(v, "name")) && Truthy(Get(v, "created"))
  }

  /** A prompt entry has a truthy `id`, `title`, `content` and `created`. */
  predicate PromptEntryOk(v: Value)
  {
    Truthy(Get(v, "id")) && Truthy(Get(v, "title")) && Truthy(Get(v, "content")) && Truthy(Get(v, "created"))
  }

  /** An absent (falsy) category list is fine; a present one is an array of good entries. */
  predicate CategoryListOk(list: Value)
  {
    !Truthy(list) || (list.Arr? && forall i :: 0 <= i < |list.items| ==> CategoryEntryOk(list.items[i]))
  }

  predicate PromptListOk(list: Value)
  {
    !Truthy(list) || (list.Arr? && forall i :: 0 <= i < |list.items| ==> PromptEntryOk(list.items[i]))
  }

  /** What `validateImportData` accepts. */
  predicate WellFormedImport(doc: Value)
  {
    IsObject(doc)
    && Truthy(Get(doc, "version"))
    && Truthy(Get(doc, "data"))
    && CategoryListOk(Get(Get(doc, "data"), "categories"))
    && PromptListOk(Get(Get(doc, "data"), "prompts"))
  }

  /**
   * `validateImportData`: the early-return checks in the order the panel makes them.
   * A property read on `null` inside the loops throws and is caught as `false`; here
   * such a read yields `undefined`, which fails the same truthiness test.
   */
  method ValidateImportData(doc: Value) returns (ok: bool)
    ensures ok == WellFormedImport(doc)
  {
    if !IsObject(doc) {
      return false;
    }
    if !Truthy(Get(doc, "version")) || !Truthy(Get(doc, "data")) {
      return false;
    }
    var categories := Get(Get(doc, "data"), "categories");
    var prompts := Get(Get(doc, "data"), "prompts");
    if Truthy(categories) && !categories.Arr? {
      return false;
    }
    if Truthy(prompts) && !prompts.Arr? {
      return false;
    }
    if Truthy(categories) {
      var i := 0;
      while i < |categories.items|
        invariant 0 <= i <= |categories.items|
        invariant forall j :: 0 <= j < i ==> CategoryEntryOk(categories.items[j])
      {
        if !CategoryEntryOk(categories.items[i]) {
          return false;
        }
        i := i + 1;
      }
    }
    if Truthy(prompts) {
      var i := 0;
      while i < |prompts.items|
        invariant 0 <= i <= |prompts.items|
        invariant forall j :: 0 <= j < i ==> PromptEntryOk(prompts.items[j])
      {
        if !PromptEntryOk(prompts.items[i]) {
          return false;
        }
        i := i + 1;
      }
    }
    return true;
  }

  // ---------------------------------------------------------------------------
  // Export documents
  // ---------------------------------------------------------------------------

  /** `metadata`; a prompts-only export has no `totalUses`. */
  datatype Metadata = Metadata(totalCategories: nat, totalPrompts: nat, totalUses: Option<nat>)

  /** `data`: each collection may be absent. */
  datatype DocData = DocData(
    categories: Option<seq<Category>>,
    prompts: Option<seq<Prompt>>,
    settings: Option<Settings>)

  datatype ExportDoc = ExportDoc(
    version: string,
    exportDate: string,
    exportType: string,
    metadata: Metadata,
    data: DocData)

  /** The version string both export documents carry. */
  const ExportVersion: string := "1.0.0"

  /** `exportAllData`: every collection, the effective settings, and their counts. */
  function ExportAllData(store: Storage.Store, exportDate: string): (doc: ExportDoc)
    reads store
    ensures doc.version == ExportVersion && doc.exportType == "full" && doc.exportDate == exportDate
    ensures doc.data == DocData(Some(store.categories), Some(store.prompts), Some(store.GetSettings()))
    ensures doc.metadata.totalUses == Some(Storage.TotalUses(store.prompts))
  {
    var stats := store.GetStatistics(0);
    ExportDoc(ExportVersion, exportDate, "full",
              Metadata(stats.totalCategories, stats.totalPrompts, Some(stats.totalUses)),
              DocData(Some(store.categories), Some(store.prompts), Some(store.GetSettings())))
  }

  /** `exportPromptsOnly`: categories and prompts, no settings, no use total. */
  function ExportPromptsOnly(store: Storage.Store, exportDate: string): (doc: ExportDoc)
    reads store
    ensures doc.version == ExportVersion && doc.exportType == "prompts" && doc.exportDate == exportDate
    ensures doc.data == DocData(Some(store.categories), Some(store.prompts), None)
    ensures doc.metadata.totalUses.None?
  {
    ExportDoc(ExportVersion, exportDate, "prompts",
              Metadata(|store.categories|, |store.prompts|, None),
              DocData(Some(store.categories), Some(store.prompts), None))
  }

  /** `exportData(type)`: `'prompts'` selects the prompts-only document, anything else the full one. */
  function ExportData(store: Storage.Store, kind: string, exportDate: string): (doc: ExportDoc)
    reads store
    ensures kind == "prompts" ==> doc == ExportPromptsOnly(store, exportDate)
    ensures kind != "prompts" ==> doc == ExportAllData(store, exportDate)
  {
    if kind == "prompts" then ExportPromptsOnly(store, exportDate) else ExportAllData(store, exportDate)
  }

  /** Both export documents count exactly the lists they carry. */
  lemma ExportCountsMatch(store: Storage.Store, kind: string, exportDate: string)
    ensures var doc := ExportData(store, kind, exportDate);
      doc.data.categories.Some? && doc.data.prompts.Some?
      && doc.metadata.totalCategories == |doc.data.categories.value|
      && doc.metadata.totalPrompts == |doc.data.prompts.value|
      && (doc.exportType == "full" <==> doc.data.settings.Some?)
  {
  }

  // ---------------------------------------------------------------------------
  // The export document as the untyped value a later import reads back
  // ---------------------------------------------------------------------------

  function OptNum(o: Option<int>): Value
  {
    if o.Some? then Num(o.value) else Null
  }

  function OptStr(o: Option<string>): Value
  {
    if o.Some? then Str(o.value) else Null
  }

  function CategoryValue(c: Category): (v: Value)
    ensures v.Obj?
  {
    Obj(map["modified" := OptNum(c.modified), "imported" := Bool(c.imported), "importDate" := OptNum(c.importDate)]
        + map["id" := Str(c.id), "name" := Str(c.name), "created" := Num(c.created)])
  }

  function SourceValue(s: Option<Source>): Value
  {
    if s.None? then Null
    else Obj(map["url" := OptStr(s.value.url), "title" := OptStr(s.value.title), "savedAt" := Num(s.value.savedAt)])
  }

  function PromptValue(p: Prompt): (v: Value)
    ensures v.Obj?
  {
    Obj(map["categoryId" := OptStr(p.categoryId), "modified" := Num(p.modified), "useCount" := Num(p.useCount),
            "lastUsed" := OptNum(p.lastUsed), "source" := SourceValue(p.source),
            "imported" := Bool(p.imported), "importDate" := OptNum(p.importDate)]
        + map["id" := Str(p.id), "title" := Str(p.title), "content" := Str(p.content), "created" := Num(p.created)])
  }

  function CategoriesValue(cs: seq<Category>): (v: Value)
    ensures v.Arr? && |v.items| == |cs|
    ensures forall i :: 0 <= i < |cs| ==> v.items[i] == CategoryValue(cs[i])
  {
    Arr(seq(|cs|, i requires 0 <= i < |cs| => CategoryValue(cs[i])))
  }

  function PromptsValue(ps: seq<Prompt>): (v: Value)
    ensures v.Arr? && |v.items| == |ps|
    ensures forall i :: 0 <= i < |ps| ==> v.items[i] == PromptValue(ps[i])
  {
    Arr(seq(|ps|, i requires 0 <= i < |ps| => PromptValue(ps[i])))
  }

  /** `data`: absent collections are absent keys. */
  function DataValue(d: DocData): (v: Value)
    ensures v.Obj?
    ensures Get(v, "categories") == if d.categories.Some? then CategoriesValue(d.categories.value) else Undefined
    ensures Get(v, "prompts") == if d.prompts.Some? then PromptsValue(d.prompts.value) else Undefined
  {
    var withSettings := if d.settings.Some? then map["settings" := Obj(d.settings.value)] else map[];
    var withPrompts := if d.prompts.Some? then withSettings["prompts" := PromptsValue(d.prompts.value)] else withSettings;
    var fields := if d.categories.Some? then withPrompts["categories" := CategoriesValue(d.categories.value)] else withPrompts;
    assert "categories" != "prompts" && "categories" != "settings" && "prompts" != "settings" by {
      assert |"categories"| == 10 && |"prompts"| == 7 && |"settings"| == 8;
    }
    Obj(fields)
  }

  function MetadataValue(m: Metadata): Value
  {
    var counts := map["totalCategories" := Num(m.totalCategories), "totalPrompts" := Num(m.totalPrompts)];
    Obj(if m.totalUses.Some? then counts["totalUses" := Num(m.totalUses.value)] else counts)
  }

  /** The export document as the JSON object a later import reads back. */
  function DocValue(doc: ExportDoc): (v: Value)
    ensures Get(v, "version") == Str(doc.version)
    ensures Get(v, "data") == DataValue(doc.data)
  {
    Obj(map["exportDate" := Str(doc.exportDate), "exportType" := Str(doc.exportType),
            "metadata" := MetadataValue(doc.metadata)]
        + map["version" := Str(doc.version), "data" := DataValue(doc.data)])
  }

  /** The stored fields `validateImportData` insists on are non-empty (or non-zero). */
  predicate CategoryComplete(c: Category)
  {
    c.id != [] && c.name != [] && c.created != 0
  }

  predicate PromptComplete(p: Prompt)
  {
    p.id != [] && p.title != [] && p.content != [] && p.created != 0
  }

  lemma CategoryValueOk(c: Category)
    ensures CategoryEntryOk(CategoryValue(c)) <==> CategoryComplete(c)
  {
    var v := CategoryValue(c);
    assert Get(v, "id") == Str(c.id) && Get(v, "name") == Str(c.name) && Get(v, "created") == Num(c.created);
  }

  lemma PromptValueOk(p: Prompt)
    ensures PromptEntryOk(PromptValue(p)) <==> PromptComplete(p)
  {
    var v := PromptValue(p);
    assert Get(v, "id") == Str(p.id) && Get(v, "title") == Str(p.title);
    assert Get(v, "content") == Str(p.content) && Get(v, "created") == Num(p.created);
  }

  lemma {:induction false} CategoriesValueOk(cs: seq<Category>)
    ensures CategoryListOk(CategoriesValue(cs)) <==> forall c :: c in cs ==> CategoryComplete(c)
  {
    forall i | 0 <= i < |cs| {
      CategoryValueOk(cs[i]);
    }
  }

  lemma {:induction false} PromptsValueOk(ps: seq<Prompt>)
    ensures PromptListOk(PromptsValue(ps)) <==> forall p :: p in ps ==> PromptComplete(p)
  {
    forall i | 0 <= i < |ps| {
      PromptValueOk(ps[i]);
    }
  }

  lemma {:induction false} DocValidates(doc: ExportDoc)
    requires doc.version != [] && doc.data.categories.Some? && doc.data.prompts.Some?
    ensures WellFormedImport(DocValue(doc)) <==>
      (forall c :: c in doc.data.categories.value ==> CategoryComplete(c))
      && (forall p :: p in doc.data.prompts.value ==> PromptComplete(p))
  {
    CategoriesValueOk(doc.data.categories.value);
    PromptsValueOk(doc.data.prompts.value);
  }

  /**
   * An export passes the import check exactly when every exported category has an id,
   * a name and a non-zero creation time, and every prompt has an id, a title, content
   * and a non-zero creation time: the validator rejects the panel's own export of a
   * library holding, say, a prompt with empty content.
   */
  lemma {:induction false} ExportValidates(store: Storage.Store, kind: string, exportDate: string)
    ensures WellFormedImport(DocValue(ExportData(store, kind, exportDate))) <==>
      (forall c :: c in store.categories ==> CategoryComplete(c))
      && (forall p :: p in store.prompts ==> PromptComplete(p))
  {
    DocValidates(ExportData(store, kind, exportDate));
  }

  // ---------------------------------------------------------------------------
  // Import
  // ---------------------------------------------------------------------------

  datatype Mode = Merge | Replace

  /** Which item types the user ticked in the import dialog. */
  datatype ImportItems = ImportItems(categories: bool, prompts: bool, settings: bool)

  /** The merge key of categories (`'name'`) and of prompts (`'title'`). */
  function CategoryNameKey(c: Category): string
  {
    c.name
  }

  function PromptTitleKey(p: Prompt): string
  {
    p.title
  }

  /** `{...item, id: generateId(), imported: true, importDate: now}`; the n-th appended gets `ids(n)`. */
  function CategoryImportStamp(ids: nat -> string, now: int): (Category, nat) -> Category
  {
    (c: Category, n: nat) => c.(id := ids(n), imported := true, importDate := Some(now))
  }

  function PromptImportStamp(ids: nat -> string, now: int): (Prompt, nat) -> Prompt
  {
    (p: Prompt, n: nat) => p.(id := ids(n), imported := true, importDate := Some(now))
  }

  /**
   * A collection after the import: untouched unless its type is selected and the
   * document has it; then merged by key, or replaced by the incoming list.
   */
  function ImportedList<T(!new)>(existing: seq<T>, incoming: Option<seq<T>>, selected: bool, mode: Mode,
                                 key: T -> string, stamp: (T, nat) -> T): seq<T>
  {
    if !selected || incoming.None? then existing
    else if mode == Merge then Merged(existing, incoming.value, key, stamp)
    else incoming.value
  }

  /** The stored settings after the import: merged over the effective settings, or replaced. */
  function ImportedSettings(current: Option<Settings>, incoming: Option<Settings>, selected: bool, mode: Mode): Option<Settings>
  {
    if !selected || incoming.None? then current
    else if mode == Merge then Some(Spread(current.GetOr(DefaultSettings), incoming.value))
    else incoming
  }

  /**
   * `mergeData(existing, incoming, uniqueField)`: the existing records first, then each
   * incoming record whose key is not among the existing keys, re-stamped.
   */
  method MergeData<T(!new)>(existing: seq<T>, incoming: seq<T>, key: T -> string, stamp: (T, nat) -> T)
    returns (merged: seq<T>)
    ensures merged == Merged(existing, incoming, key, stamp)
    ensures merged[..|existing|] == existing
    ensures forall x :: x in incoming && (forall e :: e in existing ==> key(e) != key(x)) ==>
      exists n :: stamp(x, n) in merged[|existing|..]
  {
    merged := MergeUnseen(existing, incoming, key, stamp);
    MergedShape(existing, incoming, key, stamp);
    forall x | x in incoming && (forall e :: e in existing ==> key(e) != key(x))
      ensures exists n :: stamp(x, n) in merged[|existing|..]
    {
      var u := Unseen(existing, incoming, key);
      assert x in u;
      var j :| 0 <= j < |u| && u[j] == x;
      assert merged[|existing|..][j] == stamp(x, j);
    }
  }

  /**
   * `performImport(importData, {mode, items})`. A document without `data` makes the
   * destructuring throw, which is caught as `false` before any write. The store
   * writes themselves are modelled as succeeding.
   */
  method PerformImport(store: Storage.Store, data: Option<DocData>, mode: Mode, items: ImportItems,
                       categoryIds: nat -> string, promptIds: nat -> string, now: int)
    returns (ok: bool)
    modifies store`categories, store`prompts, store`settings
    ensures ok <==> data.Some?
    ensures !ok ==> store.categories == old(store.categories) && store.prompts == old(store.prompts)
                    && store.settings == old(store.settings)
    ensures ok ==>
      store.categories == ImportedList(old(store.categories), data.value.categories, items.categories, mode,
                                       CategoryNameKey, CategoryImportStamp(categoryIds, now))
      && store.prompts == ImportedList(old(store.prompts), data.value.prompts, items.prompts, mode,
                                       PromptTitleKey, PromptImportStamp(promptIds, now))
      && store.settings == ImportedSettings(old(store.settings), data.value.settings, items.settings, mode)
  {
    if data.None? {
      return false;
    }
    var d := data.value;
    if mode == Replace {
      if items.categories && d.categories.Some? {
        store.categories := [];
      }
      if items.prompts && d.prompts.Some? {
        store.prompts := [];
      }
    }
    if items.categories && d.categories.Some? {
      if mode == Merge {
        store.categories := MergeData(store.categories, d.categories.value, CategoryNameKey, CategoryImportStamp(categoryIds, now));
      } else {
        store.categories := d.categories.value;
      }
    }
    if items.prompts && d.prompts.Some? {
      if mode == Merge {
        store.prompts := MergeData(store.prompts, d.prompts.value, PromptTitleKey, PromptImportStamp(promptIds, now));
      } else {
        store.prompts := d.prompts.value;
      }
    }
    if items.settings && d.settings.Some? {
      if mode == Merge {
        var merged := Spread(store.GetSettings(), d.settings.value);
        var _ := store.UpdateSettings(merged);
        assert store.GetSettings() == merged;
      } else {
        store.settings := d.settings;
      }
    }
    ok := true;
  }

  /**
   * Importing the panel's own full export, with every item type selected, changes no
   * record in either mode and leaves the effective settings as they were.
   */
  lemma ImportOwnExport(store: Storage.Store, exportDate: string, mode: Mode,
                        categoryIds: nat -> string, promptIds: nat -> string, now: int)
    ensures var d := ExportAllData(store, exportDate).data;
      ImportedList(store.categories, d.categories, true, mode, CategoryNameKey, CategoryImportStamp(categoryIds, now))
        == store.categories
      && ImportedList(store.prompts, d.prompts, true, mode, PromptTitleKey, PromptImportStamp(promptIds, now))
        == store.prompts
      && ImportedSettings(store.settings, d.settings, true, mode) == Some(store.GetSettings())
  {
    MergeIntoSelf(store.categories, CategoryNameKey, CategoryImportStamp(categoryIds, now));
    MergeIntoSelf(store.prompts, PromptTitleKey, PromptImportStamp(promptIds, now));
    var s := store.GetSettings();
    assert Spread(s, s) == s;
  }

  /**
   * Importing the same document twice in merge mode adds nothing the second time:
   * the re-stamp keeps names and titles, so every key brought in is now present.
   */
  lemma MergeImportTwice(cs: seq<Category>, ps: seq<Prompt>, d: DocData, items: ImportItems,
                         categoryIds: nat -> string, promptIds: nat -> string, now: int, now2: int)
    ensures var cs1 := ImportedList(cs, d.categories, items.categories, Merge, CategoryNameKey, CategoryImportStamp(categoryIds, now));
      ImportedList(cs1, d.categories, items.categories, Merge, CategoryNameKey, CategoryImportStamp(categoryIds, now2)) == cs1
    ensures var ps1 := ImportedList(ps, d.prompts, items.prompts, Merge, PromptTitleKey, PromptImportStamp(promptIds, now));
      ImportedList(ps1, d.prompts, items.prompts, Merge, PromptTitleKey, PromptImportStamp(promptIds, now2)) == ps1
  {
    if items.categories && d.categories.Some? {
      var inc := d.categories.value;
      var st := CategoryImportStamp(categoryIds, now);
      MergeTwiceAddsNothing(cs, inc, CategoryNameKey, st);
      var cs1 := Merged(cs, inc, CategoryNameKey, st);
      assert Unseen(cs1, inc, CategoryNameKey) == [];
    }
    if items.prompts && d.prompts.Some? {
      var inc := d.prompts.value;
      var st := PromptImportStamp(promptIds, now);
      MergeTwiceAddsNothing(ps, inc, PromptTitleKey, st);
      var ps1 := Merged(ps, inc, PromptTitleKey, st);
      assert Unseen(ps1, inc, PromptTitleKey) == [];
    }
  }

  /**
   * The two import paths key their merges differently: the storage manager by id, this
   * panel by name. A category whose id is new but whose name is taken is appended by one
   * and dropped by the other.
   */
  lemma MergeKeysDisagree(now: int, ids: nat -> string)
    ensures var existing := [Category("a", "Work", now, None, false, None)];
      var incoming := [Category("b", "Work", now, None, false, None)];
      |Merged(existing, incoming, Storage.CategoryIdKey, Storage.CategoryWithNewId(ids))| == 2
      && Merged(existing, incoming, CategoryNameKey, CategoryImportStamp(ids, now)) == existing
  {
    var existing := [Category("a", "Work", now, None, false, None)];
    var incoming := [Category("b", "Work", now, None, false, None)];
    var byId := KeyIsNew(existing, Storage.CategoryIdKey);
    var byName := KeyIsNew(existing, CategoryNameKey);
    assert KeysOf(existing, Storage.CategoryIdKey) == {"a"};
    assert Storage.CategoryIdKey(incoming[0]) == "b" && "b" != "a";
    assert byId(incoming[0]) == (Storage.CategoryIdKey(incoming[0]) !in KeysOf(existing, Storage.CategoryIdKey));
    assert Filter(incoming, byId) == [incoming[0]];
    assert CategoryNameKey(incoming[0]) in KeysOf(existing, CategoryNameKey);
    assert Filter(incoming, byName) == [];
  }

  // ---------------------------------------------------------------------------
  // Reading a parsed document as records
  // ---------------------------------------------------------------------------

  /** A string field: anything but a string reads as empty. */
  function StrOf(v: Value): string
  {
    if v.Str? then v.s else []
  }

  /** A number field: anything but a number reads as 0. */
  function IntOf(v: Value): int
  {
    if v.Num? then v.n else 0
  }

  function NatOf(v: Value): nat
  {
    if v.Num? && v.n >= 0 then v.n else 0
  }

  function OptStrOf(v: Value): Option<string>
  {
    if v.Str? then Some(v.s) else None
  }

  function OptIntOf(v: Value): Option<int>
  {
    if v.Num? then Some(v.n) else None
  }

  function SourceOf(v: Value): Option<Source>
  {
    if v.Obj? then Some(Source(OptStrOf(Get(v, "url")), OptStrOf(Get(v, "title")), IntOf(Get(v, "savedAt"))))
    else None
  }

  /** A category entry of a document read as a record. */
  function CategoryOf(v: Value): Category
  {
    Category(StrOf(Get(v, "id")), StrOf(Get(v, "name")), IntOf(Get(v, "created")),
             OptIntOf(Get(v, "modified")), Get(v, "imported") == Bool(true), OptIntOf(Get(v, "importDate")))
  }

  /** A prompt entry of a document read as a record. */
  function PromptOf(v: Value): Prompt
  {
    Prompt(StrOf(Get(v, "id")), StrOf(Get(v, "title")), StrOf(Get(v, "content")), OptStrOf(Get(v, "categoryId")),
           IntOf(Get(v, "created")), IntOf(Get(v, "modified")), NatOf(Get(v, "useCount")),
           OptIntOf(Get(v, "lastUsed")), SourceOf(Get(v, "source")),
           Get(v, "imported") == Bool(true), OptIntOf(Get(v, "importDate")))
  }

  /** The settings `updateSettings` spreads: an object's own keys, none for a number or boolean. */
  function SettingsOf(v: Value): Option<Settings>
  {
    if !Truthy(v) then None else if v.Obj? then Some(v.fields) else Some(map[])
  }

  /**
   * `importData.data` as the storage import reads it. A falsy `data` is refused by its
   * guard; a truthy list that is not an array has no `forEach`, so the merge throws and
   * the import answers `false`; a falsy list counts as absent (`categories || []`).
   */
  function Decode(doc: Value): (r: Option<Storage.ImportPayload>)
    ensures r.Some? <==> (Truthy(Get(doc, "data"))
      && (Truthy(Get(Get(doc, "data"), "categories")) ==> Get(Get(doc, "data"), "categories").Arr?)
      && (Truthy(Get(Get(doc, "data"), "prompts")) ==> Get(Get(doc, "data"), "prompts").Arr?))
    ensures WellFormedImport(doc) ==> r.Some?
  {
    var data := Get(doc, "data");
    var cs, ps := Get(data, "categories"), Get(data, "prompts");
    if !Truthy(data) || (Truthy(cs) && !cs.Arr?) || (Truthy(ps) && !ps.Arr?) then None
    else
      Some(Storage.ImportPayload(
        if cs.Arr? then Some(seq(|cs.items|, i requires 0 <= i < |cs.items| => CategoryOf(cs.items[i]))) else None,
        if ps.Arr? then Some(seq(|ps.items|, i requires 0 <= i < |ps.items| => PromptOf(ps.items[i]))) else None,
        SettingsOf(Get(data, "settings"))))
  }

  /** Reading back an exported category gives the category. */
  lemma CategoryRoundTrip(c: Category)
    ensures CategoryOf(CategoryValue(c)) == c
  {
    var v := CategoryValue(c);
    assert Get(v, "id") == Str(c.id) && Get(v, "name") == Str(c.name) && Get(v, "created") == Num(c.created);
    assert Get(v, "modified") == OptNum(c.modified) && Get(v, "importDate") == OptNum(c.importDate);
    assert Get(v, "imported") == Bool(c.imported);
  }

  /** Reading back an exported prompt gives the prompt. */
  lemma PromptRoundTrip(p: Prompt)
    ensures PromptOf(PromptValue(p)) == p
  {
    PromptCoreFields(p);
    PromptUsageFields(p);
    PromptOriginFields(p);
    SourceRoundTrip(p.source);
  }

  lemma PromptCoreFields(p: Prompt)
    ensures var v := PromptValue(p);
      Get(v, "id") == Str(p.id) && Get(v, "title") == Str(p.title)
      && Get(v, "content") == Str(p.content) && Get(v, "created") == Num(p.created)
  {
  }

  lemma PromptUsageFields(p: Prompt)
    ensures var v := PromptValue(p);
      Get(v, "categoryId") == OptStr(p.categoryId) && Get(v, "modified") == Num(p.modified)
      && Get(v, "useCount") == Num(p.useCount) && Get(v, "lastUsed") == OptNum(p.lastUsed)
  {
    PromptFiledFields(p);
    PromptCountFields(p);
  }

  lemma PromptFiledFields(p: Prompt)
    ensures var v := PromptValue(p);
      Get(v, "categoryId") == OptStr(p.categoryId) && Get(v, "modified") == Num(p.modified)
  {
    var v := PromptValue(p);
    assert Get(v, "categoryId") == OptStr(p.categoryId);
  }

  lemma PromptCountFields(p: Prompt)
    ensures var v := PromptValue(p);
      Get(v, "useCount") == Num(p.useCount) && Get(v, "lastUsed") == OptNum(p.lastUsed)
  {
    var v := PromptValue(p);
    assert Get(v, "useCount") == Num(p.useCount);
  }

  lemma PromptOriginFields(p: Prompt)
    ensures var v := PromptValue(p);
      Get(v, "source") == SourceValue(p.source)
      && Get(v, "imported") == Bool(p.imported) && Get(v, "importDate") == OptNum(p.importDate)
  {
    var v := PromptValue(p);
    assert Get(v, "source") == SourceValue(p.source);
    assert Get(v, "imported") == Bool(p.imported);
  }

  lemma SourceRoundTrip(s: Option<Source>)
    ensures SourceOf(SourceValue(s)) == s
  {
    if s.Some? {
      var v := SourceValue(s);
      assert Get(v, "url") == OptStr(s.value.url) && Get(v, "title") == OptStr(s.value.title);
      assert Get(v, "savedAt") == Num(s.value.savedAt);
    }
  }

  /** Reading back an export document gives its collections and settings unchanged. */
  lemma DecodeExport(doc: ExportDoc)
    ensures Decode(DocValue(doc)) ==
      Some(Storage.ImportPayload(doc.data.categories, doc.data.prompts, doc.data.settings))
  {
    var d := doc.data;
    var data := DataValue(d);
    assert Get(DocValue(doc), "data") == data;
    var r := Decode(DocValue(doc));
    assert r.Some?;
    if d.categories.Some? {
      CategoriesRoundTrip(d.categories.value);
    }
    if d.prompts.Some? {
      PromptsRoundTrip(d.prompts.value);
    }
    DataSettings(d);
  }

  lemma CategoriesRoundTrip(cs: seq<Category>)
    ensures var items := CategoriesValue(cs).items;
      seq(|items|, i requires 0 <= i < |items| => CategoryOf(items[i])) == cs
  {
    var items := CategoriesValue(cs).items;
    forall i | 0 <= i < |cs| ensures CategoryOf(items[i]) == cs[i] {
      CategoryRoundTrip(cs[i]);
    }
  }

  lemma PromptsRoundTrip(ps: seq<Prompt>)
    ensures var items := PromptsValue(ps).items;
      seq(|items|, i requires 0 <= i < |items| => PromptOf(items[i])) == ps
  {
    var items := PromptsValue(ps).items;
    forall i | 0 <= i < |ps| ensures PromptOf(items[i]) == ps[i] {
      PromptRoundTrip(ps[i]);
    }
  }

  lemma DataSettings(d: DocData)
    ensures SettingsOf(Get(DataValue(d), "settings")) == d.settings
  {
    assert "settings" != "prompts" && "settings" != "categories" by {
      assert |"categories"| == 10 && |"prompts"| == 7 && |"settings"| == 8;
    }
  }

  /** How `importFromFile` ends: the format check failed, or the storage import's answer. */
  datatype FileImport = InvalidFormat | Imported(ok: bool)

  /**
   * `importFromFile`: a document that fails the check is refused (the thrown
   * `'Invalid import file format'`) with nothing written; otherwise its `data` goes to
   * the storage manager's id-keyed import in merge mode, which accepts every document
   * that passed the check, and incoming settings are spread over the effective ones.
   */
  method ImportFromFile(store: Storage.Store, doc: Value, categoryIds: nat -> string, promptIds: nat -> string)
    returns (r: FileImport)
    modifies store`categories, store`prompts, store`settings
    ensures r == InvalidFormat <==> !WellFormedImport(doc)
    ensures r == InvalidFormat ==> store.categories == old(store.categories) && store.prompts == old(store.prompts)
                                   && store.settings == old(store.settings)
    ensures r != InvalidFormat ==> r == Imported(true)
    ensures r == Imported(true) ==>
      var d := Decode(doc).value;
      store.categories == Merged(old(store.categories), d.categories.GetOr([]),
                                 Storage.CategoryIdKey, Storage.CategoryWithNewId(categoryIds))
      && store.prompts == Merged(old(store.prompts), d.prompts.GetOr([]),
                                 Storage.PromptIdKey, Storage.PromptWithNewId(promptIds))
      && store.settings == if d.settings.Some? then Some(Spread(old(store.GetSettings()), d.settings.value))
                           else old(store.settings)
  {
    var valid := ValidateImportData(doc);
    if !valid {
      return InvalidFormat;
    }
    var ok := store.ImportData(Decode(doc), true, categoryIds, promptIds);
    r := Imported(ok);
  }

  /**
   * Importing the library's own full export file changes no record and leaves the
   * effective settings as they were.
   */
  lemma ImportOwnExportFile(store: Storage.Store, exportDate: string, categoryIds: nat -> string, promptIds: nat -> string)
    ensures var d := Decode(DocValue(ExportAllData(store, exportDate))).value;
      Merged(store.categories, d.categories.GetOr([]), Storage.CategoryIdKey, Storage.CategoryWithNewId(categoryIds))
        == store.categories
      && Merged(store.prompts, d.prompts.GetOr([]), Storage.PromptIdKey, Storage.PromptWithNewId(promptIds))
        == store.prompts
      && d.settings == Some(store.GetSettings())
      && Spread(store.GetSettings(), d.settings.value) == store.GetSettings()
  {
    DecodeExport(ExportAllData(store, exportDate));
    Storage.ImportOwnExportMerge(store.categories, store.prompts, store.GetSettings(), categoryIds, promptIds);
  }

  // ---------------------------------------------------------------------------
  // Plain-text export
  // ---------------------------------------------------------------------------

  /** The heading prompts without a known, named category are filed under. */
  const Uncategorized: string := "Uncategorized"

  /**
   * `categoryMap.get(prompt.categoryId) || 'Uncategorized'`, where the map holds the
   * name of the last category with each id.
   */
  function CategoryLabel(categories: seq<Category>, categoryId: Option<string>): (r: string)
    ensures r != []
    ensures r == Uncategorized || exists c :: c in categories && Some(c.id) == categoryId && c.name == r
    ensures (forall c :: c in categories ==> Some(c.id) != categoryId) ==> r == Uncategorized
    ensures forall i {:trigger LastWithId(categories, categoryId, i)} ::
      LastWithId(categories, categoryId, i) ==> r == NameOrUncategorized(categories[i])
  {
    if categories == [] then Uncategorized
    else
      var last := categories[|categories| - 1];
      if Some(last.id) == categoryId then NameOrUncategorized(last)
      else
        var r := CategoryLabel(categories[..|categories| - 1], categoryId);
        assert forall c :: c in categories[..|categories| - 1] ==> c in categories;
        LastWithIdPrefix(categories, categoryId);
        r
  }

  /** `cat.name || 'Uncategorized'`. */
  function NameOrUncategorized(c: Category): string
  {
    if c.name != [] then c.name else Uncategorized
  }

  /** Index `i` holds the last category with the id: the one `Map.set` leaves in place. */
  predicate LastWithId(categories: seq<Category>, categoryId: Option<string>, i: int)
  {
    0 <= i < |categories| && Some(categories[i].id) == categoryId
    && forall j :: i < j < |categories| ==> Some(categories[j].id) != categoryId
  }

  /** When the final category has another id, the last one with the id is found before it. */
  lemma LastWithIdPrefix(categories: seq<Category>, categoryId: Option<string>)
    requires categories != [] && Some(categories[|categories| - 1].id) != categoryId
    ensures forall i :: LastWithId(categories, categoryId, i) ==>
      LastWithId(categories[..|categories| - 1], categoryId, i) && categories[..|categories| - 1][i] == categories[i]
  {
  }

  /** One heading of the text export and the prompts filed under it, in order. */
  datatype Group = Group(name: string, prompts: seq<Prompt>)

  function GroupNamed(name: string): Group -> bool
  {
    (g: Group) => g.name == name
  }

  /** `groupedPrompts[name].push(prompt)`, creating the group at the end when new. */
  function AddToGroup(gs: seq<Group>, name: string, p: Prompt): (r: seq<Group>)
  {
    var i := FindIndex(gs, GroupNamed(name));
    if i < 0 then gs + [Group(name, [p])] else gs[i := Group(name, gs[i].prompts + [p])]
  }

  /** The groups after filing every prompt under its category label. */
  function Grouped(ps: seq<Prompt>, cs: seq<Category>): seq<Group>
  {
    if ps == [] then []
    else
      var p := ps[|ps| - 1];
      AddToGroup(Grouped(ps[..|ps| - 1], cs), CategoryLabel(cs, p.categoryId), p)
  }

  function Size(gs: seq<Group>): nat
  {
    if gs == [] then 0 else Size(gs[..|gs| - 1]) + |gs[|gs| - 1].prompts|
  }

  lemma {:induction false} SizeAppend(gs: seq<Group>, g: Group)
    ensures Size(gs + [g]) == Size(gs) + |g.prompts|
  {
    assert (gs + [g])[..|gs|] == gs;
  }

  lemma {:induction false} SizeUpdate(gs: seq<Group>, i: nat, g: Group)
    requires i < |gs|
    ensures Size(gs[i := g]) == Size(gs) - |gs[i].prompts| + |g.prompts|
    decreases |gs|
  {
    var n := |gs| - 1;
    if i < n {
      SizeUpdate(gs[..n], i, g);
      assert gs[i := g][..n] == gs[..n][i := g];
    } else {
      assert gs[i := g][..n] == gs[..n];
    }
  }

  /** Group names are distinct. */
  predicate DistinctNames(gs: seq<Group>)
  {
    forall i, j :: 0 <= i < j < |gs| ==> gs[i].name != gs[j].name
  }

  /** Every prompt sits under its own category label. */
  predicate FiledUnderLabel(gs: seq<Group>, cs: seq<Category>)
  {
    forall g, p :: g in gs && p in g.prompts ==> CategoryLabel(cs, p.categoryId) == g.name
  }

  lemma AddToGroupKeeps(gs: seq<Group>, cs: seq<Category>, p: Prompt)
    requires DistinctNames(gs) && FiledUnderLabel(gs, cs)
    ensures var r := AddToGroup(gs, CategoryLabel(cs, p.categoryId), p);
      DistinctNames(r) && FiledUnderLabel(r, cs)
      && Size(r) == Size(gs) + 1
      && (forall g, q :: g in gs && q in g.prompts ==> exists h :: h in r && q in h.prompts)
      && exists h :: h in r && p in h.prompts
  {
    var name := CategoryLabel(cs, p.categoryId);
    AddToGroupDistinct(gs, name, p);
    AddToGroupFiled(gs, cs, p);
    AddToGroupSize(gs, name, p);
    AddToGroupMembers(gs, name, p);
  }

  lemma AddToGroupDistinct(gs: seq<Group>, name: string, p: Prompt)
    requires DistinctNames(gs)
    ensures DistinctNames(AddToGroup(gs, name, p))
  {
    var i := FindIndex(gs, GroupNamed(name));
    var r := AddToGroup(gs, name, p);
    if i < 0 {
      assert forall k :: 0 <= k < |gs| ==> r[k] == gs[k] && gs[k].name != name;
    } else {
      assert forall k :: 0 <= k < |gs| ==> r[k].name == gs[k].name;
    }
  }

  lemma AddToGroupFiled(gs: seq<Group>, cs: seq<Category>, p: Prompt)
    requires FiledUnderLabel(gs, cs)
    ensures FiledUnderLabel(AddToGroup(gs, CategoryLabel(cs, p.categoryId), p), cs)
  {
    var name := CategoryLabel(cs, p.categoryId);
    var i := FindIndex(gs, GroupNamed(name));
    var r := AddToGroup(gs, name, p);
    forall g, q | g in r && q in g.prompts
      ensures CategoryLabel(cs, q.categoryId) == g.name
    {
      var k :| 0 <= k < |r| && r[k] == g;
      if k < |gs| && k != i {
        assert g == gs[k];
      } else if q != p {
        assert q in gs[i].prompts;
      }
    }
  }

  lemma AddToGroupSize(gs: seq<Group>, name: string, p: Prompt)
    ensures Size(AddToGroup(gs, name, p)) == Size(gs) + 1
  {
    var i := FindIndex(gs, GroupNamed(name));
    if i < 0 {
      SizeAppend(gs, Group(name, [p]));
    } else {
      SizeUpdate(gs, i, Group(name, gs[i].prompts + [p]));
    }
  }

  lemma AddToGroupMembers(gs: seq<Group>, name: string, p: Prompt)
    ensures var r := AddToGroup(gs, name, p);
      (forall g, q :: g in gs && q in g.prompts ==> exists h :: h in r && q in h.prompts)
      && exists h :: h in r && p in h.prompts
  {
    var i := FindIndex(gs, GroupNamed(name));
    var r := AddToGroup(gs, name, p);
    if i < 0 {
      assert r[|gs|] == Group(name, [p]);
      forall g, q | g in gs && q in g.prompts
        ensures exists h :: h in r && q in h.prompts
      {
        assert g in r;
      }
    } else {
      var g' := Group(name, gs[i].prompts + [p]);
      assert r[i] == g';
      forall g, q | g in gs && q in g.prompts
        ensures exists h :: h in r && q in h.prompts
      {
        var k :| 0 <= k < |gs| && gs[k] == g;
        if k == i {
          assert q in r[i].prompts;
        } else {
          assert r[k] == g;
        }
      }
    }
  }

  /**
   * The text export's grouping is a partition: one group per label, every prompt filed
   * under its own category's label, every prompt filed somewhere, and as many filed
   * prompts as there are prompts.
   */
  lemma {:induction false} GroupedPartition(ps: seq<Prompt>, cs: seq<Category>)
    ensures var gs := Grouped(ps, cs);
      DistinctNames(gs) && FiledUnderLabel(gs, cs) && Size(gs) == |ps|
      && forall p :: p in ps ==> exists g :: g in gs && p in g.prompts
  {
    if ps != [] {
      var n := |ps| - 1;
      GroupedPartition(ps[..n], cs);
      AddToGroupKeeps(Grouped(ps[..n], cs), cs, ps[n]);
      forall p | p in ps
        ensures exists g :: g in Grouped(ps, cs) && p in g.prompts
      {
        if p != ps[n] {
          assert p in ps[..n];
        }
      }
    }
  }

  /** `### title`, the content, a blank line. */
  function PromptText(p: Prompt): string
  {
    "### " + p.title + "\n" + p.content + "\n\n"
  }

  function PromptsText(ps: seq<Prompt>): string
  {
    if ps == [] then [] else PromptsText(ps[..|ps| - 1]) + PromptText(ps[|ps| - 1])
  }

  /** `## name`, a blank line, then the group's prompts. */
  function GroupText(g: Group): string
  {
    "## " + g.name + "\n\n" + PromptsText(g.prompts)
  }

  function GroupsText(gs: seq<Group>): string
  {
    if gs == [] then [] else GroupsText(gs[..|gs| - 1]) + GroupText(gs[|gs| - 1])
  }

  function TextHeader(exportDate: string, total: nat): string
  {
    "PromptNest Export\n=================\n\nExport Date: " + exportDate + "\nTotal Prompts: " + NatToString(total) + "\n\n"
  }

  /** The text export of a library: the header, then each group in order of first appearance. */
  function ExportText(cs: seq<Category>, ps: seq<Prompt>, exportDate: string): string
  {
    TextHeader(exportDate, |ps|) + GroupsText(Grouped(ps, cs))
  }

  /**
   * The properties every plain object inherits from `Object.prototype`. Reading one of
   * them from the grouping object `{}` gives a truthy function (or, for `__proto__`,
   * the prototype itself), so no array is created and the `push` call throws.
   */
  const ObjectPrototypeKeys: set<string> := {
    "constructor", "hasOwnProperty", "isPrototypeOf", "propertyIsEnumerable", "toString",
    "toLocaleString", "valueOf", "__proto__", "__defineGetter__", "__defineSetter__",
    "__lookupGetter__", "__lookupSetter__"}

  /** Some prompt is filed under a label the grouping object already inherits. */
  predicate GroupingThrows(ps: seq<Prompt>, cs: seq<Category>)
  {
    exists i :: 0 <= i < |ps| && CategoryLabel(cs, ps[i].categoryId) in ObjectPrototypeKeys
  }

  /**
   * The grouping loop of `exportAsText`: `None` when the loop throws, which happens
   * exactly when some prompt's label is an inherited property name.
   */
  method GroupPrompts(ps: seq<Prompt>, cs: seq<Category>) returns (groups: Option<seq<Group>>)
    ensures groups.None? <==> GroupingThrows(ps, cs)
    ensures groups.Some? ==> groups.value == Grouped(ps, cs)
  {
    var gs := [];
    var i := 0;
    while i < |ps|
      invariant 0 <= i <= |ps|
      invariant gs == Grouped(ps[..i], cs)
      invariant !GroupingThrows(ps[..i], cs)
    {
      var name := CategoryLabel(cs, ps[i].categoryId);
      if name in ObjectPrototypeKeys {
        assert ps[i] == ps[..i + 1][i];
        GroupingThrowsPrefix(ps, cs, i + 1);
        return None;
      }
      NoThrowStep(ps, cs, i);
      assert ps[..i + 1][..i] == ps[..i];
      gs := AddToGroup(gs, name, ps[i]);
      i := i + 1;
    }
    assert ps[..i] == ps;
    return Some(gs);
  }

  /** A throwing prefix makes the whole loop throw. */
  lemma GroupingThrowsPrefix(ps: seq<Prompt>, cs: seq<Category>, n: nat)
    requires n <= |ps| && GroupingThrows(ps[..n], cs)
    ensures GroupingThrows(ps, cs)
  {
    var i :| 0 <= i < n && CategoryLabel(cs, ps[..n][i].categoryId) in ObjectPrototypeKeys;
    assert ps[..n][i] == ps[i];
  }

  /** One more prompt with an ordinary label keeps the prefix from throwing. */
  lemma NoThrowStep(ps: seq<Prompt>, cs: seq<Category>, i: nat)
    requires i < |ps| && !GroupingThrows(ps[..i], cs)
    requires CategoryLabel(cs, ps[i].categoryId) !in ObjectPrototypeKeys
    ensures !GroupingThrows(ps[..i + 1], cs)
  {
    var q := ps[..i + 1];
    forall j | 0 <= j < |q|
      ensures CategoryLabel(cs, q[j].categoryId) !in ObjectPrototypeKeys
    {
      if j < i {
        assert q[j] == ps[..i][j];
      }
    }
  }

  /** Only a category whose name is an inherited property name can make the grouping throw. */
  lemma GroupingThrowsOnlyOnInheritedNames(ps: seq<Prompt>, cs: seq<Category>)
    requires GroupingThrows(ps, cs)
    ensures exists c :: c in cs && c.name in ObjectPrototypeKeys && exists p :: p in ps && p.categoryId == Some(c.id)
  {
    var i :| 0 <= i < |ps| && CategoryLabel(cs, ps[i].categoryId) in ObjectPrototypeKeys;
    var name := CategoryLabel(cs, ps[i].categoryId);
    assert Uncategorized !in ObjectPrototypeKeys;
    var c :| c in cs && Some(c.id) == ps[i].categoryId && c.name == name;
    assert ps[i] in ps;
  }

  /** A prompt filed under a category named "constructor" makes the text export fail. */
  lemma ConstructorCategoryThrows(now: int)
    ensures var cs := [Category("c1", "constructor", now, None, false, None)];
      var ps := [Prompt("p1", "a", "b", Some("c1"), now, now, 0, None, None, false, None)];
      GroupingThrows(ps, cs)
  {
    var cs := [Category("c1", "constructor", now, None, false, None)];
    var ps := [Prompt("p1", "a", "b", Some("c1"), now, now, 0, None, None, false, None)];
    assert CategoryLabel(cs, ps[0].categoryId) == "constructor";
  }

  /** The text of one group: its heading, then its prompts in order. */
  method RenderGroup(g: Group) returns (section: string)
    ensures section == GroupText(g)
  {
    section := "## " + g.name + "\n\n";
    var j := 0;
    while j < |g.prompts|
      invariant 0 <= j <= |g.prompts|
      invariant section == "## " + g.name + "\n\n" + PromptsText(g.prompts[..j])
    {
      assert g.prompts[..j + 1][..j] == g.prompts[..j];
      section := section + PromptText(g.prompts[j]);
      j := j + 1;
    }
    assert g.prompts[..j] == g.prompts;
  }

  /**
   * `exportAsText`: groups the prompts by category label, then writes the header and
   * the groups. When the grouping throws, the `catch` makes the export `null`.
   * `exportDate` stands for the locale-formatted current time.
   */
  method ExportAsText(store: Storage.Store, exportDate: string) returns (text: Option<string>)
    ensures text.None? <==> GroupingThrows(store.prompts, store.categories)
    ensures text.Some? ==> text.value == ExportText(store.categories, store.prompts, exportDate)
  {
    var grouped := GroupPrompts(store.prompts, store.categories);
    if grouped.None? {
      return None;
    }
    var groups := grouped.value;
    var body := "";
    var k := 0;
    while k < |groups|
      invariant 0 <= k <= |groups|
      invariant body == GroupsText(groups[..k])
    {
      var section := RenderGroup(groups[k]);
      GroupsTextStep(groups, k);
      body := body + section;
      k := k + 1;
    }
    assert groups[..k] == groups;
    text := Some(TextHeader(exportDate, |store.prompts|) + body);
  }

  lemma GroupsTextStep(gs: seq<Group>, k: nat)
    requires k < |gs|
    ensures GroupsText(gs[..k + 1]) == GroupsText(gs[..k]) + GroupText(gs[k])
  {
    assert gs[..k + 1][..k] == gs[..k];
  }
}

=== FILE: injection.dfy ===
/**
 * The input-target resolver that writes a prompt into the chat box of the page
 * (`findAndFillInput`, identical in content/sidebar-utils.js and assets/js/content.js,
 * with an older variant in content/sidebar-original.js).
 *
 * The page is abstract: `querySelectorAll` is a function from a selector to the list
 * of matching elements, each seen through the few properties the resolver reads.
 * What the resolver does to the chosen element is recorded as a list of effects
 * (focus, markup or value written, events dispatched, caret placed) rather than
 * performed.
 */
module Injection {
  import opened Wrappers
  import opened Seqs
  import opened Ranking
  import Text

  /** An element as the resolver sees it. `parent` is the parent's `contentEditable === 'true'`, if there is a parent. */
  datatype Element = Element(
    width: nat,
    height: nat,
    tag: string,
    contentEditable: bool,
    hasParagraph: bool,
    parent: Option<bool>)

  /** `document.querySelectorAll`. */
  type Page = string -> seq<Element>

  /** The nodes an effect can touch: the chosen element, its first `<p>` descendant, its parent. */
  datatype Node = TargetNode | FirstParagraph | ParentNode

  datatype Effect =
    | Focus(node: Node)
    | SetInnerHtml(node: Node, html: string)
    | SetTextContent(node: Node, text: string)
    | SetValue(node: Node, value: string)
    | Dispatch(node: Node, event: string)
    | CursorToEnd(node: Node)
    | SelectionRange(start: nat, end: nat)

  // ---------------------------------------------------------------------------
  // Selector lists
  // ---------------------------------------------------------------------------

  /** The site-specific selectors, in declaration order. */
  const SiteSelectors: seq<(string, seq<string>)> := [
    ("chat.openai.com", ["#prompt-textarea"]),
    ("chatgpt.com", ["#prompt-textarea"]),
    ("gemini.google.com", [".text-input-field_textarea .ql-editor", ".text-input-field_textarea",
                           "div[role=\"textbox\"]", "[contenteditable=\"true\"]"]),
    ("claude.ai", ["#chat-input-file-upload-onpage", "input[placeholder*=\"ask\"]"]),
    ("copilot.microsoft.com", ["textarea[placeholder*=\"Copilot\"]"]),
    ("chat.deepseek.com", ["#chat-input"])
  ]

  /** The generic selectors tried after (or instead of) the site-specific ones. */
  const FallbackSelectors: seq<string> := [
    "textarea[placeholder*=\"ask\"]",
    "textarea[placeholder*=\"now\"]",
    "textarea[placeholder*=\"Message\"]",
    "textarea[placeholder*=\"message\"]",
    "textarea[placeholder*=\"chat\"]",
    "textarea[placeholder*=\"prompt\"]",
    "div[contenteditable=\"true\"]",
    "textarea:not([type=\"password\"])",
    "input[type=\"text\"]:not([type=\"password\"])"
  ]

  /** The test `hostname.includes(site)` on one entry of the site table. */
  function SiteIn(hostname: string): ((string, seq<string>)) -> bool
  {
    (entry: (string, seq<string>)) => Text.Contains(hostname, entry.0)
  }

  /**
   * The selectors to try: the first listed site contained in the hostname contributes
   * its own selectors, followed by all fallbacks; with no such site, the fallbacks alone.
   */
  function SelectorsFor(hostname: string): (r: seq<string>)
    ensures FindIndex(SiteSelectors, SiteIn(hostname)) == -1 ==> r == FallbackSelectors
    ensures var i := FindIndex(SiteSelectors, SiteIn(hostname));
      i >= 0 ==> r == SiteSelectors[i].1 + FallbackSelectors
  {
    var i := FindIndex(SiteSelectors, SiteIn(hostname));
    if i >= 0 then SiteSelectors[i].1 + FallbackSelectors else FallbackSelectors
  }

  /** The selector-list construction loop: the first matching site wins, then the empty-list fallback. */
  method BuildSelectorList(hostname: string) returns (selectors: seq<string>)
    ensures selectors == SelectorsFor(hostname)
    ensures |selectors| >= |FallbackSelectors|
    ensures selectors[|selectors| - |FallbackSelectors|..] == FallbackSelectors
  {
    selectors := [];
    var i := 0;
    while i < |SiteSelectors|
      invariant 0 <= i <= |SiteSelectors|
      invariant forall j :: 0 <= j < i ==> !SiteIn(hostname)(SiteSelectors[j])
      invariant selectors == []
    {
      if Text.Contains(hostname, SiteSelectors[i].0) {
        selectors := SiteSelectors[i].1 + FallbackSelectors;
        assert FindIndex(SiteSelectors, SiteIn(hostname)) == i;
        return;
      }
      i := i + 1;
    }
    if |selectors| == 0 {
      selectors := FallbackSelectors;
    }
  }

  // ---------------------------------------------------------------------------
  // Choosing the target
  // ---------------------------------------------------------------------------

  /** `el.offsetWidth > 0 && el.offsetHeight > 0`. */
  predicate IsVisible(e: Element)
  {
    e.width > 0 && e.height > 0
  }

  function Area(e: Element): int
  {
    e.width * e.height
  }

  /**
   * `Array.from(elements).filter(visible).sort(by area, largest first)[0]`: the first
   * visible element of largest area, or nothing when none is visible.
   */
  function Pick(elements: seq<Element>): (r: Option<Element>)
    ensures r.None? <==> forall e :: e in elements ==> !IsVisible(e)
    ensures r.Some? ==> r.value in elements && IsVisible(r.value)
    ensures r.Some? ==> forall e :: e in elements && IsVisible(e) ==> Area(e) <= Area(r.value)
  {
    var visible := Filter(elements, IsVisible);
    if visible == [] then
      assert forall e :: e in elements ==> !IsVisible(e) by {
        forall e | e in elements && IsVisible(e)
          ensures e in visible
        {
        }
      }
      None
    else
      SortDescHead(visible, Area);
      var r := FirstMax(visible, Area);
      assert visible[r] in visible;
      Some(SortDesc(visible, Area)[0])
  }

  /** Of equally large visible elements, the one that comes first in document order is taken. */
  lemma PickPrefersFirst(elements: seq<Element>)
    requires Pick(elements).Some?
    ensures var visible := Filter(elements, IsVisible);
      visible != [] && Pick(elements).value == visible[FirstMax(visible, Area)]
  {
    var visible := Filter(elements, IsVisible);
    SortDescHead(visible, Area);
  }

  /** The element the selector scan settles on: from the first selector with a visible match. */
  function TargetOf(page: Page, selectors: seq<string>): Option<Element>
  {
    if selectors == [] then None
    else
      var p := Pick(page(selectors[0]));
      if p.Some? then p else TargetOf(page, selectors[1..])
  }

  /** Some selector of the list has a visible match. */
  predicate AnyVisible(page: Page, selectors: seq<string>)
  {
    exists i, e :: 0 <= i < |selectors| && e in page(selectors[i]) && IsVisible(e)
  }

  /** The test the scan applies to each selector: some match is visible. */
  function HasVisibleMatch(page: Page): string -> bool
  {
    (selector: string) => Pick(page(selector)).Some?
  }

  /**
   * The scan settles on the largest visible match of the first selector that has a
   * visible match, and on nothing when there is no such selector.
   */
  lemma {:induction false} TargetOfFirstHit(page: Page, selectors: seq<string>)
    ensures var i := FindIndex(selectors, HasVisibleMatch(page));
      TargetOf(page, selectors) == if i < 0 then None else Pick(page(selectors[i]))
  {
    if selectors != [] && Pick(page(selectors[0])).None? {
      TargetOfFirstHit(page, selectors[1..]);
    }
  }

  /** No target exactly when no selector has a visible match. */
  lemma TargetOfNone(page: Page, selectors: seq<string>)
    ensures TargetOf(page, selectors).None? <==> !AnyVisible(page, selectors)
  {
    TargetOfFirstHit(page, selectors);
    if AnyVisible(page, selectors) {
      var i, e :| 0 <= i < |selectors| && e in page(selectors[i]) && IsVisible(e);
      assert HasVisibleMatch(page)(selectors[i]);
    }
    var k := FindIndex(selectors, HasVisibleMatch(page));
    if k >= 0 {
      var p := Pick(page(selectors[k]));
      assert p.value in page(selectors[k]) && IsVisible(p.value);
    }
  }

  /** The selectors after the first one with a visible match are never consulted. */
  lemma TargetOfIgnoresLater(page: Page, selectors: seq<string>)
    requires FindIndex(selectors, HasVisibleMatch(page)) >= 0
    ensures var i := FindIndex(selectors, HasVisibleMatch(page));
      TargetOf(page, selectors[..i + 1]) == TargetOf(page, selectors)
  {
    var i := FindIndex(selectors, HasVisibleMatch(page));
    var prefix := selectors[..i + 1];
    FindIndexPrefix(selectors, HasVisibleMatch(page));
    TargetAtHit(page, selectors, i);
    TargetAtHit(page, prefix, i);
    assert prefix[i] == selectors[i];
  }

  lemma TargetAtHit(page: Page, selectors: seq<string>, i: int)
    requires 0 <= i && FindIndex(selectors, HasVisibleMatch(page)) == i
    ensures i < |selectors| && TargetOf(page, selectors) == Pick(page(selectors[i]))
  {
    TargetOfFirstHit(page, selectors);
  }

  // ---------------------------------------------------------------------------
  // Writing the prompt
  // ---------------------------------------------------------------------------

  /** `text.replace(/\n/g, '<br>')`. */
  function NewlinesToBr(text: string): (r: string)
    ensures forall i :: 0 <= i < |r| ==> r[i] != '\n'
  {
    if text == [] then []
    else (if text[0] == '\n' then "<br>" else [text[0]]) + NewlinesToBr(text[1..])
  }

  /** The conversion works piece by piece: it distributes over concatenation. */
  lemma {:induction false} NewlinesToBrAppend(a: string, b: string)
    ensures NewlinesToBr(a + b) == NewlinesToBr(a) + NewlinesToBr(b)
  {
    if a == [] {
      assert a + b == b;
    } else {
      assert (a + b)[0] == a[0];
      assert (a + b)[1..] == a[1..] + b;
      NewlinesToBrAppend(a[1..], b);
    }
  }

  /** Text without line breaks is written as it is. */
  lemma {:induction false} NewlinesToBrPlain(text: string)
    requires forall i :: 0 <= i < |text| ==> text[i] != '\n'
    ensures NewlinesToBr(text) == text
  {
    if text != [] {
      NewlinesToBrPlain(text[1..]);
    }
  }

  /** `targetInput.setSelectionRange` exists: text inputs and text areas. */
  predicate HasSelectionApi(e: Element)
  {
    e.tag == "INPUT" || e.tag == "TEXTAREA"
  }

  /** What the current resolver does to its target. */
  function WriteEffects(e: Element, text: string): seq<Effect>
  {
    var html := NewlinesToBr(text);
    [Focus(TargetNode)]
    + (if e.contentEditable then
         (if e.hasParagraph then [SetInnerHtml(FirstParagraph, html), Dispatch(FirstParagraph, "input")]
          else [SetInnerHtml(TargetNode, html)])
         + [Dispatch(TargetNode, "input"), Dispatch(TargetNode, "keyup"), CursorToEnd(TargetNode)]
       else if e.tag == "P" then
         (if e.parent == Some(true) then [Focus(ParentNode)] else [])
         + [SetInnerHtml(TargetNode, html), Dispatch(TargetNode, "input")]
         + (if e.parent.Some? then [Dispatch(ParentNode, "input"), Dispatch(ParentNode, "keyup")] else [])
         + [CursorToEnd(TargetNode)]
       else
         [SetValue(TargetNode, text), Dispatch(TargetNode, "input"), Dispatch(TargetNode, "change"),
          Dispatch(TargetNode, "keyup")])
    + (if HasSelectionApi(e) && e.tag != "DIV" then [SelectionRange(|text|, |text|)] else [])
  }

  /** The markup a write puts into the page, if any. */
  predicate WritesHtml(effects: seq<Effect>, node: Node, html: string)
  {
    SetInnerHtml(node, html) in effects
  }

  /**
   * A rich-text target receives the text with each line break turned into `<br>`: in
   * its first paragraph when it has one, otherwise in itself; no `value` is set.
   */
  lemma RichTextWrite(e: Element, text: string)
    requires e.contentEditable
    ensures var effs := WriteEffects(e, text);
      (e.hasParagraph ==> WritesHtml(effs, FirstParagraph, NewlinesToBr(text)) && Dispatch(FirstParagraph, "input") in effs)
      && (!e.hasParagraph ==> WritesHtml(effs, TargetNode, NewlinesToBr(text)))
      && (forall n, v :: SetValue(n, v) !in effs)
      && Dispatch(TargetNode, "input") in effs && Dispatch(TargetNode, "keyup") in effs
  {
  }

  /**
   * A directly matched paragraph receives the converted text and an input event, and
   * its parent, when there is one, receives input and keyup.
   */
  lemma ParagraphWrite(e: Element, text: string)
    requires !e.contentEditable && e.tag == "P"
    ensures var effs := WriteEffects(e, text);
      WritesHtml(effs, TargetNode, NewlinesToBr(text)) && Dispatch(TargetNode, "input") in effs
      && (e.parent.Some? ==> Dispatch(ParentNode, "input") in effs && Dispatch(ParentNode, "keyup") in effs)
      && (e.parent.None? ==> forall ev :: Dispatch(ParentNode, ev) !in effs)
  {
  }

  /**
   * A plain field gets the text verbatim as its value, the input, change and keyup
   * events, and the caret at the end when it supports selection ranges; no markup.
   */
  lemma PlainFieldWrite(e: Element, text: string)
    requires !e.contentEditable && e.tag != "P"
    ensures var effs := WriteEffects(e, text);
      SetValue(TargetNode, text) in effs
      && Dispatch(TargetNode, "input") in effs && Dispatch(TargetNode, "change") in effs
      && Dispatch(TargetNode, "keyup") in effs
      && (forall n, h :: SetInnerHtml(n, h) !in effs)
      && (SelectionRange(|text|, |text|) in effs <==> HasSelectionApi(e))
  {
  }

  /**
   * `findAndFillInput(promptText)` of the current resolver: builds the selector list,
   * scans it for the first selector with a visible match, and writes into the largest
   * such match. False, with nothing written, when there is none.
   */
  method FindAndFillInput(page: Page, hostname: string, text: string) returns (ok: bool, effects: seq<Effect>)
    ensures ok <==> TargetOf(page, SelectorsFor(hostname)).Some?
    ensures ok ==> effects == WriteEffects(TargetOf(page, SelectorsFor(hostname)).value, text)
    ensures !ok ==> effects == []
  {
    var selectors := BuildSelectorList(hostname);
    var target := FindTarget(page, selectors);
    if target.Some? {
      return true, WriteEffects(target.value, text);
    }
    return false, [];
  }

  /** The scan loop: stops at the first selector whose matches include a visible element. */
  method FindTarget(page: Page, selectors: seq<string>) returns (target: Option<Element>)
    ensures target == TargetOf(page, selectors)
  {
    target := None;
    var i := 0;
    while i < |selectors|
      invariant 0 <= i <= |selectors|
      invariant TargetOf(page, selectors) == TargetOf(page, selectors[i..])
      invariant target.None?
    {
      var elements := page(selectors[i]);
      assert selectors[i..][0] == selectors[i];
      assert selectors[i..][1..] == selectors[i + 1..];
      if |elements| > 0 {
        target := Pick(elements);
        if target.Some? {
          return;
        }
      }
      i := i + 1;
    }
    assert selectors[i..] == [];
  }

  // ---------------------------------------------------------------------------
  // The older resolver (content/sidebar-original.js)
  // ---------------------------------------------------------------------------

  /** The older resolver's only selectors, tried in this order on every site. */
  const OriginalSelectors: seq<string> := [
    "textarea[placeholder*=\"message\"]",
    "textarea[placeholder*=\"prompt\"]",
    "textarea[placeholder*=\"ask\"]",
    "textarea[placeholder*=\"chat\"]",
    "div[contenteditable=\"true\"]",
    "textarea:not([type=\"password\"])",
    "input[type=\"text\"]:not([type=\"password\"])"
  ]

  /** What the older resolver does to its target: the text goes in verbatim, never as markup. */
  function WriteEffectsOriginal(e: Element, text: string): seq<Effect>
  {
    [Focus(TargetNode)]
    + (if e.contentEditable then [SetTextContent(TargetNode, text), Dispatch(TargetNode, "input")]
       else [SetValue(TargetNode, text), Dispatch(TargetNode, "input"), Dispatch(TargetNode, "change")])
    + (if HasSelectionApi(e) then [SelectionRange(|text|, |text|)] else [])
  }

  /** The older resolver never writes markup: line breaks stay as they are. */
  lemma OriginalWritesVerbatim(e: Element, text: string)
    ensures var effs := WriteEffectsOriginal(e, text);
      (forall n, h :: SetInnerHtml(n, h) !in effs)
      && (e.contentEditable ==> SetTextContent(TargetNode, text) in effs)
      && (!e.contentEditable ==> SetValue(TargetNode, text) in effs && Dispatch(TargetNode, "change") in effs)
  {
  }

  /** `findAndFillInput` of the older sidebar: the fixed selector list, the same scan. */
  method FindAndFillInputOriginal(page: Page, text: string) returns (ok: bool, effects: seq<Effect>)
    ensures ok <==> AnyVisible(page, OriginalSelectors)
    ensures ok ==> TargetOf(page, OriginalSelectors).Some? &&
                   effects == WriteEffectsOriginal(TargetOf(page, OriginalSelectors).value, text)
    ensures !ok ==> effects == []
  {
    TargetOfNone(page, OriginalSelectors);
    var target := FindTarget(page, OriginalSelectors);
    if target.Some? {
      return true, WriteEffectsOriginal(target.value, text);
    }
    return false, [];
  }

  /**
   * Given the same rich-text element, the two resolvers write a multi-line prompt
   * differently: the current one writes `<br>` markup, the older one the raw text.
   */
  lemma ResolversDifferOnLineBreaks(e: Element)
    requires e.contentEditable
    ensures SetInnerHtml(if e.hasParagraph then FirstParagraph else TargetNode, "a<br>b") in WriteEffects(e, "a\nb")
    ensures SetTextContent(TargetNode, "a\nb") in WriteEffectsOriginal(e, "a\nb")
  {
    var t := "a\nb";
    assert t[0] == 'a' && t[1..] == "\nb" && t[1..][1..] == "b" && t[1..][1..][1..] == [];
    assert NewlinesToBr("b") == "b";
    assert NewlinesToBr("\nb") == "<br>" + "b";
    assert NewlinesToBr(t) == "a" + "<br>b";
    assert NewlinesToBr(t) == "a<br>b";
    var effs := WriteEffects(e, t);
    if e.hasParagraph {
      assert effs[1] == SetInnerHtml(FirstParagraph, "a<br>b");
    } else {
      assert effs[1] == SetInnerHtml(TargetNode, "a<br>b");
    }
  }
}

=== FILE: merging.dfy ===
/**
 * The "append what is not there yet" merge both import paths use. The keys of the
 * existing records are collected once; each incoming record whose key is not among
 * them is appended, re-stamped (a fresh id, import marks). Incoming records are not
 * checked against one another: two new records with the same key are both appended.
 */
module Merging {
  import opened Seqs

  /** The set of keys of a collection (`new Set(existing.map(key))`). */
  function KeysOf<T>(s: seq<T>, key: T -> string): (r: set<string>)
    ensures forall i :: 0 <= i < |s| ==> key(s[i]) in r
    ensures forall k :: k in r ==> exists i :: 0 <= i < |s| && key(s[i]) == k
  {
    if s == [] then {} else {key(s[0])} + KeysOf(s[1..], key)
  }

  /** The test an incoming record passes when its key is new. */
  function KeyIsNew<T>(existing: seq<T>, key: T -> string): T -> bool
  {
    x => key(x) !in KeysOf(existing, key)
  }

  /** The incoming records that will be appended, in incoming order. */
  function Unseen<T(!new)>(existing: seq<T>, incoming: seq<T>, key: T -> string): seq<T>
  {
    Filter(incoming, KeyIsNew(existing, key))
  }

  /** The appended records after re-stamping; the n-th appended one is stamped with n. */
  function Stamp<T>(items: seq<T>, stamp: (T, nat) -> T): (r: seq<T>)
    ensures |r| == |items|
  {
    seq(|items|, i requires 0 <= i < |items| => stamp(items[i], i))
  }

  /** The merged collection: the existing records, then the re-stamped unseen ones. */
  function Merged<T(!new)>(existing: seq<T>, incoming: seq<T>, key: T -> string, stamp: (T, nat) -> T): seq<T>
  {
    existing + Stamp(Unseen(existing, incoming, key), stamp)
  }

  /** The merge loop. */
  method MergeUnseen<T(!new)>(existing: seq<T>, incoming: seq<T>, key: T -> string, stamp: (T, nat) -> T)
    returns (merged: seq<T>)
    ensures merged == Merged(existing, incoming, key, stamp)
  {
    var seen := KeysOf(existing, key);
    merged := existing;
    ghost var unseen: seq<T> := [];
    var i := 0;
    while i < |incoming|
      invariant 0 <= i <= |incoming|
      invariant unseen == Unseen(existing, incoming[..i], key)
      invariant merged == existing + Stamp(unseen, stamp)
    {
      var item := incoming[i];
      assert incoming[..i + 1] == incoming[..i] + [item];
      UnseenStep(existing, incoming[..i], item, key);
      if key(item) !in seen {
        StampAppend(unseen, item, stamp);
        merged := merged + [stamp(item, |merged| - |existing|)];
        unseen := unseen + [item];
      }
      i := i + 1;
    }
    assert incoming[..i] == incoming;
  }

  /** One more incoming record adds itself to the unseen ones exactly when its key is new. */
  lemma UnseenStep<T(!new)>(existing: seq<T>, prefix: seq<T>, item: T, key: T -> string)
    ensures key(item) !in KeysOf(existing, key) ==>
      Unseen(existing, prefix + [item], key) == Unseen(existing, prefix, key) + [item]
    ensures key(item) in KeysOf(existing, key) ==>
      Unseen(existing, prefix + [item], key) == Unseen(existing, prefix, key)
  {
    FilterAppend(prefix, [item], KeyIsNew(existing, key));
    assert [item][1..] == [];
    assert Unseen(existing, prefix, key) + [] == Unseen(existing, prefix, key);
  }

  /** Stamping one more record stamps it with the number stamped before it. */
  lemma StampAppend<T>(items: seq<T>, x: T, stamp: (T, nat) -> T)
    ensures Stamp(items + [x], stamp) == Stamp(items, stamp) + [stamp(x, |items|)]
  {
  }

  /**
   * What a merge appends: exactly one record per incoming record whose key is new,
   * the original records stay in front untouched, and no appended record comes from a
   * record whose key was already present.
   */
  lemma MergedShape<T(!new)>(existing: seq<T>, incoming: seq<T>, key: T -> string, stamp: (T, nat) -> T)
    ensures var m := Merged(existing, incoming, key, stamp);
      |m| == |existing| + Count(incoming, KeyIsNew(existing, key))
      && m[..|existing|] == existing
      && (forall x :: x in Unseen(existing, incoming, key) ==>
            x in incoming && forall e :: e in existing ==> key(e) != key(x))
      && (forall x :: x in incoming && (forall e :: e in existing ==> key(e) != key(x)) ==>
            x in Unseen(existing, incoming, key))
  {
    var m := Merged(existing, incoming, key, stamp);
    assert m[..|existing|] == existing;
  }

  /** Merging a collection into itself appends nothing. */
  lemma {:induction false} MergeIntoSelf<T(!new)>(s: seq<T>, key: T -> string, stamp: (T, nat) -> T)
    ensures Merged(s, s, key, stamp) == s
  {
    forall x | x in s
      ensures !KeyIsNew(s, key)(x)
    {
      var i :| 0 <= i < |s| && s[i] == x;
    }
    FilterNone(s, KeyIsNew(s, key));
    assert s + [] == s;
  }

  /**
   * When re-stamping keeps the key, merging the same records a second time appends
   * nothing: every key the first merge brought in is already present.
   */
  lemma MergeTwiceAddsNothing<T(!new)>(existing: seq<T>, incoming: seq<T>, key: T -> string, stamp: (T, nat) -> T)
    requires forall x, n :: key(stamp(x, n)) == key(x)
    ensures var m := Merged(existing, incoming, key, stamp);
      Merged(m, incoming, key, stamp) == m
  {
    var m := Merged(existing, incoming, key, stamp);
    var v := Unseen(existing, incoming, key);
    forall x | x in incoming
      ensures key(x) in KeysOf(m, key)
    {
      if key(x) in KeysOf(existing, key) {
        var i :| 0 <= i < |existing| && key(existing[i]) == key(x);
        assert m[i] == existing[i];
      } else {
        assert x in v;
        var j :| 0 <= j < |v| && v[j] == x;
        assert m[|existing| + j] == stamp(x, j);
      }
    }
    FilterNone(incoming, KeyIsNew(m, key));
    assert m + [] == m;
  }
}

=== FILE: modal_manager.dfy ===
/**
 * The sidebar's dialogs (`SidebarModalManager`, content/sidebar-modal-manager.js): adding,
 * editing and deleting prompts, adding categories and importing a file, each acting on
 * the sidebar's lists and writing the changed list back to storage. Dialog markup and
 * the toast messages are not part of this model; the form fields arrive as arguments.
 */
module ModalManager {
  import opened Wrappers
  import opened Seqs
  import opened Text
  import opened Records
  import opened Storage
  import opened Sidebar

  /**
   * The category the add-prompt dialog pre-selects: the first category while "all" is
   * shown ("general" when there is none), otherwise the category being shown.
   */
  function DefaultCategoryChoice(current: string, categories: seq<Category>): (id: string)
    ensures current != AllId ==> id == current
    ensures current == AllId && categories != [] ==> id == categories[0].id
    ensures current == AllId && categories == [] ==> id == "general"
  {
    if current == AllId then (if |categories| > 0 then categories[0].id else "general") else current
  }

  /**
   * A prompt saved with the pre-selected category while a category is shown lands in
   * that category's list.
   */
  lemma AddedFromViewIsListed(ps: seq<Prompt>, title: string, content: string, current: string,
                              categories: seq<Category>, now: nat)
    requires current != AllId && current != []
    requires !IsBlank(title) && !IsBlank(content) && FindIndex(ps, SameText(title, content)) < 0
    ensures var r := PromptsAfterDialogAdd(ps, title, content, DefaultCategoryChoice(current, categories), now);
      |r| == |ps| + 1 && r[|ps|] in Listed(r, current)
  {
    var r := PromptsAfterDialogAdd(ps, title, content, DefaultCategoryChoice(current, categories), now);
    assert r[|ps|].categoryId == Some(current);
    assert r[|ps|] in r;
  }

  /** The prompt after the edit dialog: trimmed title and content, the selected category, `modified` now. */
  function EditedPrompt(p: Prompt, title: string, content: string, selected: string, now: int): (r: Prompt)
    ensures r == p.(title := Trim(title), content := Trim(content), categoryId := Some(selected), modified := now)
  {
    ApplyPromptPatch(p, PromptPatch(Some(Trim(title)), Some(Trim(content)), Some(Some(selected))), now)
  }

  /** Whether saving the add-prompt dialog appends a prompt. */
  predicate DialogAppends(ps: seq<Prompt>, title: string, content: string)
  {
    !IsBlank(title) && !IsBlank(content) && FindIndex(ps, SameText(title, content)) < 0
  }

  class ModalManager {
    const sidebar: PromptNestSidebar
    var isSubmitting: bool

    constructor (sidebar: PromptNestSidebar)
      ensures this.sidebar == sidebar && !isSubmitting
    {
      this.sidebar := sidebar;
      isSubmitting := false;
    }

    /**
     * `handleAddPrompt`: ignored while a submission is in progress; otherwise the
     * dialog's prompt is added unless blank or a duplicate, and the flag is clear again
     * on every way out.
     */
    method HandleAddPrompt(title: string, content: string, selected: string, now: nat)
      modifies this`isSubmitting, sidebar`prompts, sidebar`shown, sidebar.store`prompts
      ensures old(isSubmitting) ==>
        isSubmitting && sidebar.prompts == old(sidebar.prompts)
        && sidebar.store.prompts == old(sidebar.store.prompts)
      ensures !old(isSubmitting) ==>
        !isSubmitting
        && sidebar.prompts == PromptsAfterDialogAdd(old(sidebar.prompts), title, content, selected, now)
      ensures !old(isSubmitting) && DialogAppends(old(sidebar.prompts), title, content) ==>
        sidebar.store.prompts == sidebar.prompts && sidebar.shown == Listed(sidebar.prompts, sidebar.currentCategory)
      ensures !(!old(isSubmitting) && DialogAppends(old(sidebar.prompts), title, content)) ==>
        sidebar.prompts == old(sidebar.prompts) && sidebar.store.prompts == old(sidebar.store.prompts)
    {
      if isSubmitting {
        return;
      }
      isSubmitting := true;
      if IsBlank(title) || IsBlank(content) {
        isSubmitting := false;
        return;
      }
      var i := FindIndex(sidebar.prompts, SameText(title, content));
      if i >= 0 {
        isSubmitting := false;
        return;
      }
      var p := NewPrompt(NatToString(now), title, content, Some(SelectedOrGeneral(selected)), now);
      sidebar.prompts := sidebar.prompts + [p];
      sidebar.store.prompts := sidebar.prompts;
      sidebar.UpdatePromptList();
      isSubmitting := false;
    }

    /**
     * `handleEditPrompt`: with a blank field, or no prompt with the id, nothing changes;
     * otherwise the first prompt with the id gets the trimmed title and content, the
     * selected category and a new `modified` time, and the list is stored.
     */
    method HandleEditPrompt(promptId: string, title: string, content: string, selected: string, now: int)
      modifies sidebar`prompts, sidebar`shown, sidebar.store`prompts
      ensures var i := FindIndex(old(sidebar.prompts), HasPromptId(promptId));
        if IsBlank(title) || IsBlank(content) || i < 0 then
          sidebar.prompts == old(sidebar.prompts) && sidebar.store.prompts == old(sidebar.store.prompts)
        else
          sidebar.prompts == old(sidebar.prompts)[i := EditedPrompt(old(sidebar.prompts)[i], title, content, selected, now)]
          && sidebar.store.prompts == sidebar.prompts
    {
      if IsBlank(title) || IsBlank(content) {
        return;
      }
      var i := FindIndex(sidebar.prompts, HasPromptId(promptId));
      if i < 0 {
        return;
      }
      sidebar.prompts := sidebar.prompts[i := EditedPrompt(sidebar.prompts[i], title, content, selected, now)];
      sidebar.store.prompts := sidebar.prompts;
      sidebar.UpdatePromptList();
    }

    /** `handleDeletePrompt`: every prompt with the id goes, the others keep their order. */
    method HandleDeletePrompt(promptId: string)
      modifies sidebar`prompts, sidebar`shown, sidebar.store`prompts
      ensures sidebar.prompts == Filter(old(sidebar.prompts), Not(HasPromptId(promptId)))
      ensures forall p :: p in sidebar.prompts <==> p in old(sidebar.prompts) && p.id != promptId
      ensures IsSubsequence(sidebar.prompts, old(sidebar.prompts))
      ensures sidebar.store.prompts == sidebar.prompts
    {
      FilterIsSubsequence(sidebar.prompts, Not(HasPromptId(promptId)));
      sidebar.prompts := Filter(sidebar.prompts, Not(HasPromptId(promptId)));
      sidebar.store.prompts := sidebar.prompts;
      sidebar.UpdatePromptList();
    }

    /**
     * `handleAddCategory`: a blank name, or one already present in any letter case, is
     * rejected; otherwise the category is appended under the trimmed name and stored.
     */
    method HandleAddCategory(name: string, now: nat) returns (added: bool)
      modifies sidebar`categories, sidebar.store`categories
      ensures added <==> DialogCategory(old(sidebar.categories), name, now).Some?
      ensures !added ==>
        sidebar.categories == old(sidebar.categories)
        && sidebar.store.categories == old(sidebar.store.categories)
      ensures added ==>
        sidebar.categories == old(sidebar.categories) + [DialogCategory(old(sidebar.categories), name, now).value]
        && sidebar.store.categories == sidebar.categories
    {
      var c := DialogCategory(sidebar.categories, name, now);
      if c.None? {
        return false;
      }
      sidebar.categories := sidebar.categories + [c.value];
      sidebar.store.categories := sidebar.categories;
      added := true;
    }

    /**
     * `importData`, once the file is read: every incoming prompt is appended, incoming
     * categories only when not "all" and not named like an existing one; both lists are
     * stored. A file that does not parse changes nothing.
     */
    method ImportData(data: Option<SidebarImport>)
      modifies sidebar`prompts, sidebar`categories, sidebar`shown, sidebar.store`prompts, sidebar.store`categories
      ensures data.None? ==>
        sidebar.prompts == old(sidebar.prompts) && sidebar.categories == old(sidebar.categories)
        && sidebar.store.prompts == old(sidebar.store.prompts) && sidebar.store.categories == old(sidebar.store.categories)
      ensures data.Some? ==>
        sidebar.prompts == PromptsAfterSidebarImport(old(sidebar.prompts), data.value.prompts)
        && sidebar.categories == CategoriesAfterSidebarImport(old(sidebar.categories), data.value.categories)
        && sidebar.store.prompts == sidebar.prompts && sidebar.store.categories == sidebar.categories
    {
      if data.None? {
        return;
      }
      sidebar.prompts := PromptsAfterSidebarImport(sidebar.prompts, data.value.prompts);
      sidebar.categories := CategoriesAfterSidebarImport(sidebar.categories, data.value.categories);
      sidebar.store.prompts := sidebar.prompts;
      sidebar.store.categories := sidebar.categories;
      sidebar.UpdatePromptList();
    }
  }
}

=== FILE: ranking.dfy ===
/**
 * `Array.prototype.sort((a, b) => key(b) - key(a))`: a descending sort by an integer
 * key. The sort the extension runs on is stable (ECMAScript 2019 onwards), so
 * elements with equal keys keep the order they had.
 */
module Ranking {
  import opened Seqs

  predicate SortedDesc<T>(s: seq<T>, key: T -> int)
  {
    forall i, j :: 0 <= i < j < |s| ==> key(s[i]) >= key(s[j])
  }

  /** The elements of `s` whose key is `k`, in order. */
  function WithKey<T>(s: seq<T>, key: T -> int, k: int): seq<T>
  {
    if s == [] then []
    else (if key(s[0]) == k then [s[0]] else []) + WithKey(s[1..], key, k)
  }

  /** Insert `x` in front of the first element whose key is not larger than `x`'s. */
  function Insert<T(==)>(x: T, s: seq<T>, key: T -> int): (r: seq<T>)
    ensures multiset(r) == multiset(s) + multiset{x}
  {
    if s == [] || key(x) >= key(s[0]) then [x] + s
    else
      assert s == [s[0]] + s[1..];
      [s[0]] + Insert(x, s[1..], key)
  }

  /** Insertion sort, descending by `key`; ties keep their input order. */
  function SortDesc<T(==)>(s: seq<T>, key: T -> int): (r: seq<T>)
    ensures multiset(r) == multiset(s)
  {
    if s == [] then []
    else
      assert s == [s[0]] + s[1..];
      Insert(s[0], SortDesc(s[1..], key), key)
  }

  lemma {:induction false} InsertSorted<T>(x: T, s: seq<T>, key: T -> int)
    requires SortedDesc(s, key)
    ensures SortedDesc(Insert(x, s, key), key)
  {
    if s != [] && key(x) < key(s[0]) {
      InsertSorted(x, s[1..], key);
      var r := Insert(x, s, key);
      forall i, j | 0 <= i < j < |r|
        ensures key(r[i]) >= key(r[j])
      {
        if i == 0 {
          assert r[j] in multiset(s[1..]) + multiset{x};
          if r[j] == x {
          } else {
            assert r[j] in s[1..];
          }
        }
      }
    }
  }

  /** The result is ordered by key, largest first. */
  lemma {:induction false} SortDescSorted<T>(s: seq<T>, key: T -> int)
    ensures SortedDesc(SortDesc(s, key), key)
  {
    if s != [] {
      SortDescSorted(s[1..], key);
      InsertSorted(s[0], SortDesc(s[1..], key), key);
    }
  }

  lemma {:induction false} InsertWithKey<T>(x: T, s: seq<T>, key: T -> int, k: int)
    requires SortedDesc(s, key)
    ensures WithKey(Insert(x, s, key), key, k) == (if key(x) == k then [x] else []) + WithKey(s, key, k)
  {
    if s != [] && key(x) < key(s[0]) {
      var t := s[1..];
      assert SortedDesc(t, key);
      InsertWithKey(x, t, key, k);
      assert s == [s[0]] + t;
      WithKeyCons(s[0], t, key, k);
      WithKeyCons(s[0], Insert(x, t, key), key, k);
    } else {
      WithKeyCons(x, s, key, k);
    }
  }

  lemma WithKeyCons<T>(y: T, t: seq<T>, key: T -> int, k: int)
    ensures WithKey([y] + t, key, k) == (if key(y) == k then [y] else []) + WithKey(t, key, k)
  {
    assert ([y] + t)[1..] == t;
  }

  /** Stability: for every key, the elements with that key come out in input order. */
  lemma {:induction false} SortDescStable<T>(s: seq<T>, key: T -> int, k: int)
    ensures WithKey(SortDesc(s, key), key, k) == WithKey(s, key, k)
  {
    if s != [] {
      SortDescStable(s[1..], key, k);
      SortDescSorted(s[1..], key);
      InsertWithKey(s[0], SortDesc(s[1..], key), key, k);
    }
  }

  /** A sequence already in order comes back unchanged. */
  lemma {:induction false} SortDescOfSorted<T>(s: seq<T>, key: T -> int)
    requires SortedDesc(s, key)
    ensures SortDesc(s, key) == s
  {
    if s != [] {
      SortDescOfSorted(s[1..], key);
      assert s == [s[0]] + s[1..];
    }
  }

  /**
   * `sort(desc by key).slice(0, n)` picks a top-n: it draws only from `s`, and nothing
   * it leaves out has a larger key than anything it keeps.
   */
  lemma TakeSortedIsTop<T>(s: seq<T>, key: T -> int, n: nat)
    ensures var r := Take(SortDesc(s, key), n);
      |r| == (if n < |s| then n else |s|)
      && (forall x :: x in r ==> x in s)
      && (forall x, y :: x in s && x !in r && y in r ==> key(y) >= key(x))
      && SortedDesc(r, key)
      && multiset(r) <= multiset(s)
      && (forall k :: WithKey(r, key, k) <= WithKey(s, key, k))
  {
    var sorted := SortDesc(s, key);
    var r := Take(sorted, n);
    SortDescSorted(s, key);
    TakeKeepsSorted(sorted, key, n);
    SortDescMembers(s, key);
    TakeSortedTies(s, key, n);
    forall x, y | x in s && x !in r && y in r
      ensures key(y) >= key(x)
    {
      var j :| 0 <= j < |sorted| && sorted[j] == x;
      var i :| 0 <= i < |r| && r[i] == y;
      assert j >= |r|;
    }
  }

  /**
   * The kept elements are drawn from `s` without repetition, and for every key they are
   * the first elements of `s` with that key, in order: ties are cut in input order.
   */
  lemma TakeSortedTies<T>(s: seq<T>, key: T -> int, n: nat)
    ensures var r := Take(SortDesc(s, key), n);
      multiset(r) <= multiset(s) && forall k :: WithKey(r, key, k) <= WithKey(s, key, k)
  {
    var sorted := SortDesc(s, key);
    var r := Take(sorted, n);
    var rest := sorted[|r|..];
    assert sorted == r + rest;
    assert multiset(sorted) == multiset(r) + multiset(rest);
    forall k ensures WithKey(r, key, k) <= WithKey(s, key, k) {
      WithKeyAppend(r, rest, key, k);
      SortDescStable(s, key, k);
    }
  }

  /** Selecting by key distributes over concatenation. */
  lemma {:induction false} WithKeyAppend<T>(a: seq<T>, b: seq<T>, key: T -> int, k: int)
    ensures WithKey(a + b, key, k) == WithKey(a, key, k) + WithKey(b, key, k)
  {
    if a != [] {
      var head := if key(a[0]) == k then [a[0]] else [];
      assert a + b == [a[0]] + (a[1..] + b);
      WithKeyAppend(a[1..], b, key, k);
      WithKeyCons(a[0], a[1..] + b, key, k);
      assert a == [a[0]] + a[1..];
      WithKeyCons(a[0], a[1..], key, k);
      assert head + (WithKey(a[1..], key, k) + WithKey(b, key, k))
          == (head + WithKey(a[1..], key, k)) + WithKey(b, key, k);
    } else {
      assert a + b == b;
    }
  }

  /** Sorting keeps the length and the elements. */
  lemma SortDescMembers<T>(s: seq<T>, key: T -> int)
    ensures |SortDesc(s, key)| == |s|
    ensures forall x :: x in SortDesc(s, key) <==> x in s
  {
    var sorted := SortDesc(s, key);
    assert |sorted| == |multiset(sorted)| == |multiset(s)| == |s|;
    forall x
      ensures x in sorted <==> x in s
    {
      assert x in sorted <==> x in multiset(sorted);
      assert x in s <==> x in multiset(s);
    }
  }

  /** A prefix of a sorted sequence is sorted. */
  lemma TakeKeepsSorted<T>(s: seq<T>, key: T -> int, n: nat)
    requires SortedDesc(s, key)
    ensures SortedDesc(Take(s, n), key)
  {
  }

  /**
   * `s.reduce((best, x) => key(x) > key(best) ? x : best, s[0])`: the index of the
   * first element with the largest key.
   */
  function FirstMax<T>(s: seq<T>, key: T -> int): (r: nat)
    requires s != []
    ensures r < |s|
    ensures forall j :: 0 <= j < |s| ==> key(s[j]) <= key(s[r])
    ensures forall j :: 0 <= j < r ==> key(s[j]) < key(s[r])
  {
    if |s| == 1 then 0
    else
      var b := FirstMax(s[..|s| - 1], key);
      if key(s[|s| - 1]) > key(s[b]) then |s| - 1 else b
  }
  /**
   * The head of the stable descending sort is the first element with the largest key:
   * `sort(...)[0]` and the first-maximum reduction pick the same element.
   */
  lemma {:induction false} SortDescHead<T>(s: seq<T>, key: T -> int)
    requires s != []
    ensures SortDesc(s, key)[0] == s[FirstMax(s, key)]
  {
    if |s| > 1 {
      var t := s[1..];
      SortDescHead(t, key);
      var rt := FirstMax(t, key);
      var sorted := SortDesc(t, key);
      SortDescMembers(t, key);
      assert SortDesc(s, key) == Insert(s[0], sorted, key);
      InsertHead(s[0], sorted, key);
      if key(s[0]) >= key(sorted[0]) {
        FirstMaxAtHead(s, key);
      } else {
        FirstMaxInTail(s, key);
      }
    }
  }

  /** Inserting in front of a non-empty sequence puts the larger-keyed of the two first. */
  lemma InsertHead<T>(x: T, s: seq<T>, key: T -> int)
    requires s != []
    ensures key(x) >= key(s[0]) ==> Insert(x, s, key)[0] == x
    ensures key(x) < key(s[0]) ==> Insert(x, s, key)[0] == s[0]
  {
  }

  /** The first maximum is the only index that is a maximum with smaller keys before it. */
  lemma FirstMaxUnique<T>(s: seq<T>, key: T -> int, i: nat)
    requires i < |s|
    requires forall j :: 0 <= j < |s| ==> key(s[j]) <= key(s[i])
    requires forall j :: 0 <= j < i ==> key(s[j]) < key(s[i])
    ensures FirstMax(s, key) == i
  {
  }

  /** When the head is at least the tail's first maximum, the head is the first maximum. */
  lemma FirstMaxAtHead<T>(s: seq<T>, key: T -> int)
    requires |s| > 1
    requires key(s[0]) >= key(s[1..][FirstMax(s[1..], key)])
    ensures FirstMax(s, key) == 0
  {
    var t := s[1..];
    forall j | 0 < j < |s|
      ensures key(s[j]) <= key(s[0])
    {
      assert s[j] == t[j - 1];
    }
    FirstMaxUnique(s, key, 0);
  }

  /** When the head is below the tail's first maximum, that one is the first maximum. */
  lemma FirstMaxInTail<T>(s: seq<T>, key: T -> int)
    requires |s| > 1
    requires key(s[0]) < key(s[1..][FirstMax(s[1..], key)])
    ensures FirstMax(s, key) == FirstMax(s[1..], key) + 1
  {
    var t := s[1..];
    var i := FirstMax(t, key) + 1;
    assert s[i] == t[i - 1];
    forall j | 0 < j < |s|
      ensures key(s[j]) <= key(s[i])
    {
      assert s[j] == t[j - 1];
    }
    forall j | 0 < j < i
      ensures key(s[j]) < key(s[i])
    {
      assert s[j] == t[j - 1];
    }
    FirstMaxUnique(s, key, i);
  }
}

=== FILE: records.dfy ===
/**
 * The extension's stored records: categories, prompts and the settings object.
 * Timestamps are epoch milliseconds. A prompt's `useCount` is always a number here,
 * starting at 0. Readers that sort or display the field default a missing count to 0,
 * but `incrementPromptUsage` (assets/js/storage.js:193) adds 1 without a default, so
 * a stored prompt without the field would get `NaN`; that case is not modelled.
 */
module Records {
  import opened Wrappers
  import opened Text
  import opened Values

  datatype Category = Category(
    id: string,
    name: string,
    created: int,
    modified: Option<int>,
    imported: bool,
    importDate: Option<int>)

  /** Where a prompt saved from a page selection came from. */
  datatype Source = Source(url: Option<string>, title: Option<string>, savedAt: int)

  datatype Prompt = Prompt(
    id: string,
    title: string,
    content: string,
    categoryId: Option<string>,
    created: int,
    modified: int,
    useCount: nat,
    lastUsed: Option<int>,
    source: Option<Source>,
    imported: bool,
    importDate: Option<int>)

  /** The settings object: free-form keys, as `updateSettings` merges whatever it is given. */
  type Settings = map<string, Value>

  /** Seven days in milliseconds. */
  const WeekMs: int := 7 * 24 * 60 * 60 * 1000

  /** The themes the settings panel accepts. */
  const Themes: seq<string> := ["auto", "light", "dark"]

  /** The settings the storage layer falls back to when none are stored. */
  const DefaultSettings: Settings := map[
    "theme" := Str("auto"),
    "autoBackup" := Bool(true),
    "showUsageStats" := Bool(true),
    "defaultCategory" := Null]

  /** The three categories every fresh installation starts with. */
  function DefaultCategories(now: int): (cs: seq<Category>)
    ensures |cs| == 3
    ensures forall i :: 0 <= i < 3 ==> cs[i].created == now && cs[i].modified.None?
  {
    [Category("general", "General", now, None, false, None),
     Category("work", "Work", now, None, false, None),
     Category("creative", "Creative", now, None, false, None)]
  }

  /** The fields an `updatePrompt` call may carry; `None` leaves the field as it is. */
  datatype PromptPatch = PromptPatch(
    title: Option<string>,
    content: Option<string>,
    categoryId: Option<Option<string>>)

  /** `{...prompt, ...updates, modified: now}`. */
  function ApplyPromptPatch(p: Prompt, u: PromptPatch, now: int): (r: Prompt)
    ensures r.id == p.id && r.created == p.created && r.useCount == p.useCount
    ensures r.lastUsed == p.lastUsed && r.source == p.source
    ensures r.modified == now
    ensures u == PromptPatch(None, None, None) ==> r == p.(modified := now)
  {
    p.(title := u.title.GetOr(p.title),
       content := u.content.GetOr(p.content),
       categoryId := u.categoryId.GetOr(p.categoryId),
       modified := now)
  }

  /**
   * The `updates` object of `updateCategory`: each field it carries, `None` for a field it
   * leaves out. `importDate` may be carried as `null`. A `modified` field would be
   * overwritten by the stamp, so it is not part of the patch.
   */
  datatype CategoryPatch = CategoryPatch(
    id: Option<string>,
    name: Option<string>,
    created: Option<int>,
    imported: Option<bool>,
    importDate: Option<Option<int>>)

  /** The patch that carries no field. */
  const EmptyCategoryPatch := CategoryPatch(None, None, None, None, None)

  /**
   * `{...category, ...updates, modified: now}`: every field the patch carries replaces
   * the stored one, every other field keeps its value, and `modified` is the stamp.
   */
  function ApplyCategoryPatch(c: Category, u: CategoryPatch, now: int): (r: Category)
    ensures r.modified == Some(now)
    ensures u.id.Some? ==> r.id == u.id.value
    ensures u.id.None? ==> r.id == c.id
    ensures u.name.Some? ==> r.name == u.name.value
    ensures u.name.None? ==> r.name == c.name
    ensures u.created.Some? ==> r.created == u.created.value
    ensures u.created.None? ==> r.created == c.created
    ensures u.imported.Some? ==> r.imported == u.imported.value
    ensures u.imported.None? ==> r.imported == c.imported
    ensures u.importDate.Some? ==> r.importDate == u.importDate.value
    ensures u.importDate.None? ==> r.importDate == c.importDate
  {
    Category(u.id.GetOr(c.id), u.name.GetOr(c.name), u.created.GetOr(c.created), Some(now),
             u.imported.GetOr(c.imported), u.importDate.GetOr(c.importDate))
  }

  /** Applying the same update twice, at the same time, is applying it once. */
  lemma CategoryPatchTwice(c: Category, u: CategoryPatch, now: int)
    ensures ApplyCategoryPatch(ApplyCategoryPatch(c, u, now), u, now) == ApplyCategoryPatch(c, u, now)
  {
  }

  /** An update that carries no field only stamps `modified`. */
  lemma EmptyCategoryPatchStamps(c: Category, now: int)
    ensures ApplyCategoryPatch(c, EmptyCategoryPatch, now) == c.(modified := Some(now))
  {
  }

  /** Some category's name equals `name` once both are lower-cased (the trimmed input). */
  predicate NameTaken(categories: seq<Category>, name: string)
  {
    exists i :: 0 <= i < |categories| && Lower(categories[i].name) == Lower(Trim(name))
  }

  /** The id-equality test used by every lookup by id. */
  function HasPromptId(id: string): Prompt -> bool
  {
    (p: Prompt) => p.id == id
  }

  function HasCategoryId(id: string): Category -> bool
  {
    (c: Category) => c.id == id
  }
}

=== FILE: search.dfy ===
/**
 * The popup's search engine (`PromptNestSearch`, assets/js/search.js): relevance
 * scoring, ranked results, the highlighting patterns and the search history.
 */
module Search {
  import opened Wrappers
  import opened Seqs
  import opened Text
  import opened Records
  import opened Ranking
  import Storage

  /** `{...prompt, searchScore}`. */
  datatype Hit = Hit(prompt: Prompt, searchScore: int)

  function HitScore(h: Hit): int
  {
    h.searchScore
  }

  /** The title part of the score, for a lower-cased title and query. */
  function TitleScore(title: string, query: string): (r: int)
    ensures r == 100 <==> title == query
    ensures r == 50 <==> title != query && Contains(title, query)
    ensures r == 0 <==> !Contains(title, query)
  {
    ContainsSelf(title);
    if title == query then 100 else if Contains(title, query) then 50 else 0
  }

  /** What one query word adds; words shorter than two characters add nothing. */
  function WordScore(title: string, content: string, word: string): int
  {
    if |word| < 2 then 0
    else
      (if Contains(title, word) then 20 + (if StartsWith(title, word) then 10 else 0) else 0)
      + (if Contains(content, word) then 10 else 0)
  }

  /** What the query words add together. */
  function WordsScore(title: string, content: string, words: seq<string>): (r: int)
    ensures 0 <= r <= 40 * |words|
  {
    if words == [] then 0
    else WordsScore(title, content, words[..|words| - 1]) + WordScore(title, content, words[|words| - 1])
  }

  /** Five points for a use within the last seven days. */
  function RecencyScore(lastUsed: Option<int>, now: int): int
  {
    if lastUsed.Some? && lastUsed.value != 0 && lastUsed.value > now - WeekMs then 5 else 0
  }

  /**
   * `calculateSearchScore(prompt, query, queryWords)`, with `query` already lower-cased
   * and `queryWords` its words.
   */
  function Score(p: Prompt, query: string, words: seq<string>, now: int): int
  {
    var title := Lower(p.title);
    var content := Lower(p.content);
    TitleScore(title, query)
    + (if Contains(content, query) then 30 else 0)
    + WordsScore(title, content, words)
    + 2 * p.useCount
    + RecencyScore(p.lastUsed, now)
  }

  /** The scoring loop. */
  method CalculateSearchScore(p: Prompt, query: string, queryWords: seq<string>, now: int) returns (score: int)
    ensures score == Score(p, query, queryWords, now)
  {
    score := 0;
    var title := Lower(p.title);
    var content := Lower(p.content);
    if title == query {
      score := score + 100;
    } else if Contains(title, query) {
      score := score + 50;
    }
    if Contains(content, query) {
      score := score + 30;
    }
    var i := 0;
    while i < |queryWords|
      invariant 0 <= i <= |queryWords|
      invariant score == TitleScore(title, query) + (if Contains(content, query) then 30 else 0)
                         + WordsScore(title, content, queryWords[..i])
    {
      var word := queryWords[i];
      assert queryWords[..i + 1][..i] == queryWords[..i];
      if |word| >= 2 {
        if Contains(title, word) {
          score := score + 20;
          if StartsWith(title, word) {
            score := score + 10;
          }
        }
        if Contains(content, word) {
          score := score + 10;
        }
      }
      i := i + 1;
    }
    assert queryWords[..i] == queryWords;
    score := score + p.useCount * 2;
    if p.lastUsed.Some? && p.lastUsed.value != 0 && p.lastUsed.value > now - WeekMs {
      score := score + 5;
    }
  }

  /**
   * Every score is at least twice the use count, so a prompt that has been used even
   * once is a result of every search.
   */
  lemma ScoreAtLeastUsage(p: Prompt, query: string, words: seq<string>, now: int)
    ensures Score(p, query, words, now) >= 2 * p.useCount
    ensures p.useCount > 0 ==> Score(p, query, words, now) > 0
  {
  }

  /**
   * For a one-word query, a prompt whose title is the query outranks one whose title
   * only contains it, other things being equal.
   */
  lemma ExactTitleOutranks(a: Prompt, b: Prompt, query: string, now: int)
    requires IsWord(query)
    requires Lower(a.title) == query && Lower(b.title) != query && Contains(Lower(b.title), query)
    requires Lower(a.content) == Lower(b.content) && a.useCount == b.useCount && a.lastUsed == b.lastUsed
    ensures Score(a, query, Words(query), now) > Score(b, query, Words(query), now)
  {
    SingleWord(query);
    var content := Lower(a.content);
    var ta, tb := Lower(a.title), Lower(b.title);
    OneWordScore(ta, content, query);
    OneWordScore(tb, content, query);
    ExactTitleWordScore(query, tb, content);
    assert TitleScore(ta, query) == 100;
    assert TitleScore(tb, query) == 50;
  }

  /** The title that is the word earns the most the word can add. */
  lemma ExactTitleWordScore(word: string, other: string, content: string)
    ensures WordScore(word, content, word) >= WordScore(other, content, word)
  {
    ContainsSelf(word);
    assert StartsWith(word, word);
  }

  /** The words part of the score for a one-word query. */
  lemma OneWordScore(title: string, content: string, word: string)
    ensures WordsScore(title, content, [word]) == WordScore(title, content, word)
  {
    assert [word][..0] == [];
  }

  /** The hits of a collection: each prompt with a positive score, in collection order. */
  function Hits(ps: seq<Prompt>, query: string, words: seq<string>, now: int): seq<Hit>
  {
    if ps == [] then []
    else
      var last := ps[|ps| - 1];
      var s := Score(last, query, words, now);
      Hits(ps[..|ps| - 1], query, words, now) + (if s > 0 then [Hit(last, s)] else [])
  }

  /** A hit is exactly a prompt of the collection with its positive score. */
  lemma {:induction false} HitsMembership(ps: seq<Prompt>, query: string, words: seq<string>, now: int)
    ensures forall h :: h in Hits(ps, query, words, now) <==>
      h.prompt in ps && h.searchScore == Score(h.prompt, query, words, now) && h.searchScore > 0
  {
    if ps != [] {
      var init := ps[..|ps| - 1];
      HitsMembership(init, query, words, now);
      assert ps == init + [ps[|ps| - 1]];
      forall p ensures p in ps <==> p in init || p == ps[|ps| - 1] {
      }
    }
  }

  /** `searchPrompts(query)`: the hits for the lower-cased query, best first. */
  method SearchPrompts(allPrompts: seq<Prompt>, query: string, now: int) returns (results: seq<Hit>)
    ensures results == SortDesc(Hits(allPrompts, Lower(query), Words(Lower(query)), now), HitScore)
  {
    var queryLower := Lower(query);
    var queryWords := Words(queryLower);
    var hits: seq<Hit> := [];
    var i := 0;
    while i < |allPrompts|
      invariant 0 <= i <= |allPrompts|
      invariant hits == Hits(allPrompts[..i], queryLower, queryWords, now)
    {
      var p := allPrompts[i];
      assert allPrompts[..i + 1][..i] == allPrompts[..i];
      var score := CalculateSearchScore(p, queryLower, queryWords, now);
      if score > 0 {
        hits := hits + [Hit(p, score)];
      }
      i := i + 1;
    }
    assert allPrompts[..i] == allPrompts;
    results := SortDesc(hits, HitScore);
  }

  /**
   * The ranked results: best score first; exactly the prompts with a positive score,
   * each with its score; prompts with equal scores in collection order.
   */
  lemma SearchResultsRanked(allPrompts: seq<Prompt>, query: string, now: int)
    ensures var q := Lower(query);
      var r := SortDesc(Hits(allPrompts, q, Words(q), now), HitScore);
      SortedDesc(r, HitScore)
      && (forall h :: h in r <==>
            h.prompt in allPrompts && h.searchScore == Score(h.prompt, q, Words(q), now) && h.searchScore > 0)
      && (forall k :: WithKey(r, HitScore, k) == WithKey(Hits(allPrompts, q, Words(q), now), HitScore, k))
  {
    var q := Lower(query);
    var hits := Hits(allPrompts, q, Words(q), now);
    var r := SortDesc(hits, HitScore);
    SortDescSorted(hits, HitScore);
    HitsMembership(allPrompts, q, Words(q), now);
    forall h ensures h in r <==> h in hits {
      assert h in r <==> h in multiset(r);
      assert h in hits <==> h in multiset(hits);
    }
    forall k ensures WithKey(r, HitScore, k) == WithKey(hits, HitScore, k) {
      SortDescStable(hits, HitScore, k);
    }
  }

  /** What the results pane shows. */
  datatype SearchView = AllPrompts | Results(hits: seq<Hit>, query: string)

  /** `performSearch(query)`: a blank query shows every prompt; otherwise the trimmed query is searched. */
  method PerformSearch(allPrompts: seq<Prompt>, query: string, now: int) returns (view: SearchView)
    ensures IsBlank(query) <==> view.AllPrompts?
    ensures !IsBlank(query) ==>
      view == Results(SortDesc(Hits(allPrompts, Lower(Trim(query)), Words(Lower(Trim(query))), now), HitScore), query)
  {
    if IsBlank(query) {
      return AllPrompts;
    }
    var results := SearchPrompts(allPrompts, Trim(query), now);
    view := Results(results, query);
  }

  // ---------------------------------------------------------------------------
  // Highlighting

  /** The characters `escapeRegExp` backslash-escapes. */
  predicate IsRegExpSpecial(c: char)
  {
    c == '.' || c == '*' || c == '+' || c == '?' || c == '^' || c == '$' || c == '{' || c == '}'
    || c == '(' || c == ')' || c == '|' || c == '[' || c == ']' || c == '\\'
  }

  /** `escapeRegExp(s)`: a backslash in front of every special character. */
  function EscapeRegExp(s: string): (r: string)
    ensures |s| <= |r| <= 2 * |s|
  {
    if s == [] then []
    else (if IsRegExpSpecial(s[0]) then ['\\', s[0]] else [s[0]]) + EscapeRegExp(s[1..])
  }

  /** Reading an escaped pattern back as the literal it matches. */
  function Unescape(r: string): string
  {
    if r == [] then []
    else if r[0] == '\\' && |r| >= 2 then [r[1]] + Unescape(r[2..])
    else [r[0]] + Unescape(r[1..])
  }

  /** A pattern in which every special character is escaped, so it matches only literally. */
  predicate LiteralPattern(r: string)
  {
    r == []
    || (r[0] == '\\' && |r| >= 2 && IsRegExpSpecial(r[1]) && LiteralPattern(r[2..]))
    || (!IsRegExpSpecial(r[0]) && LiteralPattern(r[1..]))
  }

  /** The escaped word is a literal pattern and matches the word itself. */
  lemma {:induction false} EscapeRegExpLiteral(s: string)
    ensures LiteralPattern(EscapeRegExp(s))
    ensures Unescape(EscapeRegExp(s)) == s
  {
    if s != [] {
      EscapeRegExpLiteral(s[1..]);
      var r := EscapeRegExp(s);
      if IsRegExpSpecial(s[0]) {
        assert r[2..] == EscapeRegExp(s[1..]);
      } else {
        assert r[1..] == EscapeRegExp(s[1..]);
      }
    }
  }

  function LongerThanOne(w: string): bool
  {
    |w| > 1
  }

  /** The words `highlightSearchTerms` marks: the lower-cased query's words longer than one character. */
  function HighlightWords(query: string): (ws: seq<string>)
    ensures forall w :: w in ws ==> |w| > 1
  {
    if IsBlank(query) then [] else Filter(Words(Lower(query)), LongerThanOne)
  }

  /** The text with every case-insensitive occurrence of `word` (lower-cased) wrapped in a mark. */
  function MarkAll(text: string, word: string): string
    requires word != []
    decreases |text|
  {
    if text == [] then []
    else if StartsWith(Lower(text), word) then
      "<mark>" + (text[..|word|] + ("</mark>" + MarkAll(text[|word|..], word)))
    else [text[0]] + MarkAll(text[1..], word)
  }

  /**
   * `highlightSearchTerms(text, query)` as written: one global replace per word, each
   * run over the output of the previous one.
   */
  function HighlightSearchTerms(text: string, query: string): string
  {
    MarkEach(text, HighlightWords(query))
  }

  function MarkEach(text: string, words: seq<string>): string
    requires forall w :: w in words ==> w != []
    decreases |words|
  {
    if words == [] then text
    else
      assert words[0] in words;
      assert forall w :: w in words[1..] ==> w in words;
      MarkEach(MarkAll(text, words[0]), words[1..])
  }

  /** Removing the `<mark>` and `</mark>` tags from highlighted text. */
  function Unmark(s: string): string
  {
    if s == [] then []
    else if s[0] == '<' && StartsWith(s, "<mark>") then Unmark(s[6..])
    else if s[0] == '<' && StartsWith(s, "</mark>") then Unmark(s[7..])
    else [s[0]] + Unmark(s[1..])
  }

  /**
   * As written, a later query word is matched inside the `<mark>` tags an earlier word
   * inserted. Highlighting a word `w` for a query whose marked words are `w` and "mark"
   * yields text that begins `<<mark>`: the markup is broken, and removing the tags no
   * longer gives the text back. The query "test mark" on the text "test" is one case.
   */
  lemma HighlightBreaksMarkup(w: string)
    requires |w| > 1 && forall i :: 0 <= i < |w| ==> w[i] != '<' && !('A' <= w[i] <= 'Z')
    ensures var out := MarkEach(w, [w, "mark"]);
      |out| > 7 && out[..7] == "<<mark>" && Unmark(out) != w
  {
    MarkWholeWord(w);
    MarkEachTwo(w, w, "mark");
    var out := MarkAll("<mark>" + (w + "</mark>"), "mark");
    MarkAfterOpenTag(w + "</mark>");
    UnmarkStep2(out);
    assert Unmark(out)[0] != w[0];
  }

  /** Marking a word in a text equal to it (no capitals) wraps the whole text. */
  lemma MarkWholeWord(w: string)
    requires w != [] && forall i :: 0 <= i < |w| ==> !('A' <= w[i] <= 'Z')
    ensures MarkAll(w, w) == "<mark>" + (w + "</mark>")
  {
    LowerPlain(w);
    assert StartsWith(Lower(w), w) by {
      assert Lower(w)[..|w|] == w;
    }
    assert w[..|w|] == w && w[|w|..] == [];
    assert "</mark>" + [] == "</mark>";
  }

  /** Two words are marked one after the other. */
  lemma MarkEachTwo(text: string, a: string, b: string)
    requires a != [] && b != []
    ensures MarkEach(text, [a, b]) == MarkAll(MarkAll(text, a), b)
  {
    assert [a, b][0] == a && [a, b][1..] == [b];
    assert [b][0] == b && [b][1..] == [];
    assert MarkEach(text, [a, b]) == MarkEach(MarkAll(text, a), [b]);
    assert MarkEach(MarkAll(text, a), [b]) == MarkEach(MarkAll(MarkAll(text, a), b), []);
  }

  /** After an opening tag, "mark" is found inside the tag itself: the output starts `<<mark>`. */
  lemma MarkAfterOpenTag(x: string)
    ensures var out := MarkAll("<mark>" + x, "mark");
      |out| > 7 && out[..7] == "<<mark>"
  {
    var t := "<mark>" + x;
    assert t[0] == '<' && Lower(t)[0] == '<';
    assert !StartsWith(Lower(t), "mark") by {
      assert Lower(t)[..4][0] == Lower(t)[0];
    }
    var u := t[1..];
    assert u == "mark>" + x;
    assert StartsWith(Lower(u), "mark") by {
      assert u[0] == 'm' && u[1] == 'a' && u[2] == 'r' && u[3] == 'k';
      assert Lower(u)[..4] == "mark";
    }
    var rest := "</mark>" + MarkAll(u[4..], "mark");
    assert MarkAll(u, "mark") == "<mark>" + (u[..4] + rest);
    assert MarkAll(t, "mark") == [t[0]] + MarkAll(u, "mark");
    OpenTagPrefix(MarkAll(t, "mark"), u[..4] + rest);
  }

  lemma OpenTagPrefix(out: string, y: string)
    requires y != [] && out == ['<'] + ("<mark>" + y)
    ensures |out| > 7 && out[..7] == "<<mark>"
  {
    assert out == "<<mark>" + y;
    assert ("<<mark>" + y)[..7] == "<<mark>";
  }

  /** A string starting `<<` is not a tag at its first character. */
  lemma UnmarkStep2(s: string)
    requires |s| > 1 && s[0] == '<' && s[1] == '<'
    ensures Unmark(s) != [] && Unmark(s)[0] == '<'
  {
    assert "<mark>"[1] == 'm' && "</mark>"[1] == '/';
    assert !StartsWith(s, "<mark>") by {
      if |s| >= 6 { assert s[..6][1] == s[1]; }
    }
    assert !StartsWith(s, "</mark>") by {
      if |s| >= 7 { assert s[..7][1] == s[1]; }
    }
  }

  /**
   * The text "test" highlighted for the query "test mark": as written the marks cannot
   * be removed to give the text back; with the one-pass marking they can.
   */
  lemma HighlightTestMark()
    ensures Unmark(HighlightSearchTerms("test", "test mark")) != "test"
    ensures Unmark(HighlightSearchTermsOnePass("test", "test mark")) == "test"
  {
    TestMarkWords();
    TestIsPlain();
    HighlightBreaksMarkup("test");
    HighlightOnePassUnmarks("test", ["test", "mark"]);
  }

  lemma TestIsPlain()
    ensures forall i :: 0 <= i < |"test"| ==> "test"[i] != '<' && !('A' <= "test"[i] <= 'Z')
  {
    var t := "test";
    assert t[0] == 't' && t[1] == 'e' && t[2] == 's' && t[3] == 't';
  }

  /** The words the query "test mark" marks. */
  lemma TestMarkWords()
    ensures HighlightWords("test mark") == ["test", "mark"]
  {
    var q := "test mark";
    LowerPlain(q);
    TestMarkSplit();
    assert !IsBlank(q) by {
      WordsEmpty(q);
    }
    assert Filter(["mark"], LongerThanOne) == ["mark"];
  }

  /** Splitting "test mark" on white space. */
  lemma TestMarkSplit()
    ensures Words("test mark") == ["test", "mark"]
  {
    TestAndMarkAreWords();
    TwoWords("test", "mark");
    TestMarkJoin();
  }

  lemma TestAndMarkAreWords()
    ensures IsWord("test") && IsWord("mark")
  {
    var t, m := "test", "mark";
    assert !IsSpace(t[0]) && !IsSpace(t[1]) && !IsSpace(t[2]) && !IsSpace(t[3]);
    assert !IsSpace(m[0]) && !IsSpace(m[1]) && !IsSpace(m[2]) && !IsSpace(m[3]);
  }

  lemma TestMarkJoin()
    ensures "test" + [' '] + "mark" == "test mark"
  {
  }

  /** Two words joined by one space split into those two words. */
  lemma TwoWords(a: string, b: string)
    requires IsWord(a) && IsWord(b)
    ensures Words(a + [' '] + b) == [a, b]
  {
    var q := a + [' '] + b;
    TwoWordsHead(a, b);
    WordsStep(q, |a|);
    TwoWordsTail(a, b);
  }

  lemma TwoWordsHead(a: string, b: string)
    requires IsWord(a)
    ensures TrimStart(a + [' '] + b) == a + [' '] + b
    ensures TokenEnd(a + [' '] + b) == |a|
  {
    var q := a + [' '] + b;
    assert q[0] == a[0];
    assert forall j :: 0 <= j < |a| ==> q[j] == a[j];
    assert q[|a|] == ' ';
    TokenEndPrefix(q, |a|);
  }

  lemma TwoWordsTail(a: string, b: string)
    requires IsWord(b)
    ensures (a + [' '] + b)[..|a|] == a
    ensures Words((a + [' '] + b)[|a|..]) == [b]
  {
    JoinSlices(a, b);
    SpaceThenWord(b);
  }

  lemma JoinSlices(a: string, b: string)
    ensures (a + [' '] + b)[..|a|] == a
    ensures (a + [' '] + b)[|a|..] == [' '] + b
  {
  }

  lemma SpaceThenWord(b: string)
    requires IsWord(b)
    ensures Words([' '] + b) == [b]
  {
    var tail := [' '] + b;
    assert tail[1..] == b;
    WordsSkipSpace(tail);
    SingleWord(b);
  }

  /** Lower-casing leaves a string without capital letters alone. */
  lemma LowerPlain(s: string)
    requires forall i :: 0 <= i < |s| ==> !('A' <= s[i] <= 'Z')
    ensures Lower(s) == s
  {
  }

  /** The index of the first word that starts `text` case-insensitively, if any. */
  function WordAt(text: string, words: seq<string>): (r: Option<nat>)
    ensures r.Some? ==> r.value < |words| && StartsWith(Lower(text), words[r.value])
  {
    if words == [] then None
    else if StartsWith(Lower(text), words[0]) then Some(0)
    else
      var k := WordAt(text, words[1..]);
      if k.Some? then Some(k.value + 1) else None
  }

  /**
   * Highlighting in one pass over the original text: at each position the first query
   * word found there is wrapped in a mark; the marks themselves are never searched.
   */
  function HighlightOnePass(text: string, words: seq<string>): string
    requires forall w :: w in words ==> w != []
    decreases |text|
  {
    if text == [] then []
    else
      var k := WordAt(text, words);
      if k.Some? then
        assert words[k.value] in words;
        "<mark>" + (text[..|words[k.value]|] + ("</mark>" + HighlightOnePass(text[|words[k.value]|..], words)))
      else [text[0]] + HighlightOnePass(text[1..], words)
  }

  /** `highlightSearchTerms` with the one-pass marking. */
  function HighlightSearchTermsOnePass(text: string, query: string): string
  {
    HighlightOnePass(text, HighlightWords(query))
  }

  /** Text without `<` is given back exactly when the marks are removed. */
  lemma HighlightOnePassUnmarks(text: string, words: seq<string>)
    requires forall w :: w in words ==> w != []
    requires forall i :: 0 <= i < |text| ==> text[i] != '<'
    ensures Unmark(HighlightOnePass(text, words)) == text
  {
    NoAngleFromAll(text);
    OnePassUnmarks(text, words);
  }

  lemma {:induction false} OnePassUnmarks(text: string, words: seq<string>)
    requires forall w :: w in words ==> w != []
    requires NoAngle(text)
    ensures Unmark(HighlightOnePass(text, words)) == text
    decreases |text|, 1
  {
    if text != [] {
      if WordAt(text, words).Some? {
        OnePassUnmarksHit(text, words);
      } else {
        OnePassUnmarksMiss(text, words);
      }
    }
  }

  lemma {:induction false} OnePassUnmarksHit(text: string, words: seq<string>)
    requires forall w :: w in words ==> w != []
    requires NoAngle(text) && text != [] && WordAt(text, words).Some?
    ensures Unmark(HighlightOnePass(text, words)) == text
    decreases |text|, 0
  {
    var n := OnePassHit(text, words);
    NoAngleSplit(text, n);
    OnePassUnmarks(text[n..], words);
    HitCase(text, n, HighlightOnePass(text, words), HighlightOnePass(text[n..], words));
  }

  lemma {:induction false} OnePassUnmarksMiss(text: string, words: seq<string>)
    requires forall w :: w in words ==> w != []
    requires NoAngle(text) && text != [] && WordAt(text, words).None?
    ensures Unmark(HighlightOnePass(text, words)) == text
    decreases |text|, 0
  {
    OnePassMiss(text, words);
    OnePassUnmarks(text[1..], words);
    ConsStep(HighlightOnePass(text, words), text[0], text[1..], HighlightOnePass(text[1..], words));
    assert text == [text[0]] + text[1..];
  }

  lemma HitCase(text: string, n: nat, h: string, r: string)
    requires n <= |text| && h == "<mark>" + (text[..n] + ("</mark>" + r))
    requires NoAngle(text[..n]) && Unmark(r) == text[n..]
    ensures Unmark(h) == text
  {
    UnmarkWrapped(text[..n], r);
    assert text[..n] + text[n..] == text;
  }

  lemma ConsStep(h: string, c: char, b: string, r: string)
    requires h == [c] + r && c != '<' && Unmark(r) == b
    ensures Unmark(h) == [c] + b
  {
    UnmarkCons(c, r);
  }

  /** No `<` anywhere, stated one character at a time. */
  predicate NoAngle(s: string)
    decreases |s|
  {
    s == [] || (s[0] != '<' && NoAngle(s[1..]))
  }

  lemma {:induction false} NoAngleFromAll(s: string)
    requires forall i :: 0 <= i < |s| ==> s[i] != '<'
    ensures NoAngle(s)
    decreases |s|
  {
    if s != [] {
      assert forall i :: 0 <= i < |s[1..]| ==> s[1..][i] == s[i + 1];
      NoAngleFromAll(s[1..]);
    }
  }

  lemma {:induction false} NoAngleSplit(s: string, n: nat)
    requires NoAngle(s) && n <= |s|
    ensures NoAngle(s[..n]) && NoAngle(s[n..])
    decreases n
  {
    if n > 0 {
      NoAngleSplit(s[1..], n - 1);
      assert s[..n][1..] == s[1..][..n - 1];
      assert s[n..] == s[1..][n - 1..];
    } else {
      assert s[..0] == [] && s[0..] == s;
    }
  }

  /** Where a word starts the text, one-pass marking wraps it and goes on after it. */
  lemma OnePassHit(text: string, words: seq<string>) returns (n: nat)
    requires forall w :: w in words ==> w != []
    requires text != [] && WordAt(text, words).Some?
    ensures n == |words[WordAt(text, words).value]| && 0 < n <= |text|
    ensures HighlightOnePass(text, words) == "<mark>" + (text[..n] + ("</mark>" + HighlightOnePass(text[n..], words)))
  {
    n := |words[WordAt(text, words).value]|;
    assert words[WordAt(text, words).value] in words;
  }

  /** Where no word starts the text, one-pass marking copies the first character. */
  lemma OnePassMiss(text: string, words: seq<string>)
    requires forall w :: w in words ==> w != []
    requires text != [] && WordAt(text, words).None?
    ensures HighlightOnePass(text, words) == [text[0]] + HighlightOnePass(text[1..], words)
  {
  }

  /** Removing the tags around one mark gives back the marked text. */
  lemma UnmarkWrapped(w: string, rest: string)
    requires NoAngle(w)
    ensures Unmark("<mark>" + (w + ("</mark>" + rest))) == w + Unmark(rest)
  {
    var close := "</mark>" + rest;
    UnmarkOpen(w + close);
    UnmarkPlain(w, close);
    UnmarkClose(rest);
  }

  /** An opening tag is dropped. */
  lemma UnmarkOpen(t: string)
    ensures Unmark("<mark>" + t) == Unmark(t)
  {
    var s := "<mark>" + t;
    assert s[0] == '<' && s[..6] == "<mark>" && s[6..] == t;
  }

  /** A closing tag is dropped. */
  lemma UnmarkClose(t: string)
    ensures Unmark("</mark>" + t) == Unmark(t)
  {
    var s := "</mark>" + t;
    assert s[1] == '/' && "<mark>"[1] == 'm';
    assert s[..6][1] == s[1];
    assert s[0] == '<' && s[..7] == "</mark>" && s[7..] == t;
  }

  /** A string not starting with `<` starts with no tag. */
  lemma UnmarkStep(s: string)
    requires s != [] && s[0] != '<'
    ensures Unmark(s) == [s[0]] + Unmark(s[1..])
  {
    assert "<mark>"[0] == '<' && "</mark>"[0] == '<';
    assert !StartsWith(s, "<mark>") by {
      if |s| >= 6 { assert s[..6][0] == s[0]; }
    }
    assert !StartsWith(s, "</mark>") by {
      if |s| >= 7 { assert s[..7][0] == s[0]; }
    }
  }

  /** A character other than `<` is copied by unmarking. */
  lemma UnmarkCons(c: char, t: string)
    requires c != '<'
    ensures Unmark([c] + t) == [c] + Unmark(t)
  {
    UnmarkStep([c] + t);
    assert ([c] + t)[1..] == t;
  }

  /** Unmarking passes over text without `<` unchanged. */
  lemma {:induction false} UnmarkPlain(plain: string, rest: string)
    requires NoAngle(plain)
    ensures Unmark(plain + rest) == plain + Unmark(rest)
    decreases |plain|
  {
    if plain != [] {
      UnmarkPlain(plain[1..], rest);
      assert plain + rest == [plain[0]] + (plain[1..] + rest);
      UnmarkCons(plain[0], plain[1..] + rest);
      assert plain == [plain[0]] + plain[1..];
    } else {
      assert plain + rest == rest;
    }
  }

  /** For one query word the one-pass marking is the global replace. */
  lemma {:induction false} OnePassSingleWord(text: string, word: string)
    requires word != []
    ensures HighlightOnePass(text, [word]) == MarkAll(text, word)
    decreases |text|
  {
    if text != [] {
      if StartsWith(Lower(text), word) {
        OnePassSingleWord(text[|word|..], word);
      } else {
        OnePassSingleWord(text[1..], word);
      }
    }
  }

  // ---------------------------------------------------------------------------
  // Search history

  const MaxHistorySize: nat := 10

  /** The guard of `addToSearchHistory`: the length test reads the untrimmed query. */
  predicate HistoryIgnores(query: string)
  {
    IsBlank(query) || |query| < 2
  }

  function NotEqualTo(t: string): string -> bool
  {
    (x: string) => x != t
  }

  /** The history after `addToSearchHistory(query)`. */
  function PushHistory(history: seq<string>, query: string): seq<string>
  {
    if HistoryIgnores(query) then history
    else Take([Trim(query)] + Filter(history, NotEqualTo(Trim(query))), MaxHistorySize)
  }

  /**
   * After a recorded query: it is the most recent entry and occurs once, the history
   * holds at most ten entries, and the older entries are the old history without the
   * query, in their order, cut to nine. An ignored query leaves the history as it was.
   */
  lemma PushHistoryProperties(history: seq<string>, query: string)
    ensures HistoryIgnores(query) ==> PushHistory(history, query) == history
    ensures !HistoryIgnores(query) ==>
      var h := PushHistory(history, query);
      |h| <= MaxHistorySize && h != [] && h[0] == Trim(query)
      && (forall i :: 1 <= i < |h| ==> h[i] != Trim(query))
      && h[1..] == Take(Filter(history, NotEqualTo(Trim(query))), MaxHistorySize - 1)
      && IsSubsequence(h[1..], history)
  {
    if !HistoryIgnores(query) {
      var t := Trim(query);
      var rest := Filter(history, NotEqualTo(t));
      PushedShape(t, rest);
      FilterIsSubsequence(history, NotEqualTo(t));
      var h := Take([t] + rest, MaxHistorySize);
      SubsequencePrefix(rest, |h| - 1, history);
    }
  }

  lemma PushedShape(t: string, rest: seq<string>)
    requires forall x :: x in rest ==> x != t
    ensures var h := Take([t] + rest, MaxHistorySize);
      h != [] && h[0] == t && (forall i :: 1 <= i < |h| ==> h[i] != t)
      && h[1..] == rest[..|h| - 1] == Take(rest, MaxHistorySize - 1)
  {
    var full := [t] + rest;
    var h := Take(full, MaxHistorySize);
    forall i | 1 <= i < |h| ensures h[i] != t {
      assert h[i] == full[i] == rest[i - 1];
      assert rest[i - 1] in rest;
    }
    assert h[1..] == rest[..|h| - 1];
    var r := Take(rest, MaxHistorySize - 1);
    assert |r| == |h| - 1;
    assert r == rest[..|r|];
  }

  /** The popup's search engine state: the recent queries, most recent first. */
  class SearchEngine {
    var searchHistory: seq<string>
    const store: Storage.Store

    constructor (store: Storage.Store)
      ensures searchHistory == [] && this.store == store
    {
      searchHistory := [];
      this.store := store;
    }

    /** `loadSearchHistory`: the stored history (an empty one when none is stored). */
    method LoadSearchHistory()
      modifies this`searchHistory
      ensures searchHistory == store.searchHistory
    {
      searchHistory := store.searchHistory;
    }

    /** `addToSearchHistory(query)`, followed by `saveSearchHistory`. */
    method AddToSearchHistory(query: string)
      modifies this`searchHistory, store`searchHistory
      ensures searchHistory == PushHistory(old(searchHistory), query)
      ensures !HistoryIgnores(query) ==> store.searchHistory == searchHistory
      ensures HistoryIgnores(query) ==> store.searchHistory == old(store.searchHistory)
    {
      if IsBlank(query) || |query| < 2 {
        return;
      }
      var trimmed := Trim(query);
      searchHistory := Filter(searchHistory, NotEqualTo(trimmed));
      searchHistory := [trimmed] + searchHistory;
      if |searchHistory| > MaxHistorySize {
        searchHistory := searchHistory[..MaxHistorySize];
      }
      store.searchHistory := searchHistory;
    }

    /** `getSearchHistory`. */
    function GetSearchHistory(): (h: seq<string>)
      reads this
      ensures h == searchHistory
    {
      searchHistory
    }
  }
}

=== FILE: seqs.dfy ===
/**
 * Sequence vocabulary shared by the model: JavaScript's `Array.prototype.filter`,
 * `findIndex` and `slice(0, n)`, and the "keeps relative order" relation.
 */
module Seqs {

  /** `s.filter(keep)`: the elements of `s` that pass `keep`, in their original order. */
  function Filter<T(!new)>(s: seq<T>, keep: T -> bool): (r: seq<T>)
    ensures |r| <= |s|
    ensures forall x :: x in r <==> x in s && keep(x)
  {
    if s == [] then []
    else (if keep(s[0]) then [s[0]] else []) + Filter(s[1..], keep)
  }

  /**
   * The filter keeps every copy of a passing element and no copy of a failing one, so
   * a list with repeated entries keeps exactly as many of them as it had.
   */
  lemma {:induction false} FilterCounts<T(!new)>(s: seq<T>, keep: T -> bool)
    ensures KeepsCounts(Filter(s, keep), s, keep)
  {
    if s != [] {
      FilterCounts(s[1..], keep);
      assert s == [s[0]] + s[1..];
    }
  }

  /** `r` holds every copy in `s` of each element that passes `keep`, and nothing else. */
  ghost predicate KeepsCounts<T(!new)>(r: seq<T>, s: seq<T>, keep: T -> bool)
  {
    forall x :: multiset(r)[x] == if keep(x) then multiset(s)[x] else 0
  }

  /** The negation of a test. */
  function Not<T>(f: T -> bool): T -> bool
  {
    x => !f(x)
  }

  /** Filtering distributes over concatenation. */
  lemma {:induction false} FilterAppend<T(!new)>(a: seq<T>, b: seq<T>, keep: T -> bool)
    ensures Filter(a + b, keep) == Filter(a, keep) + Filter(b, keep)
  {
    if a == [] {
      assert a + b == b;
    } else {
      assert (a + b)[1..] == a[1..] + b;
      FilterAppend(a[1..], b, keep);
    }
  }

  /** A filter that every element passes keeps the whole sequence. */
  lemma {:induction false} FilterAll<T(!new)>(s: seq<T>, keep: T -> bool)
    requires forall x :: x in s ==> keep(x)
    ensures Filter(s, keep) == s
  {
    if s != [] {
      FilterAll(s[1..], keep);
    }
  }

  /** A filter no element passes keeps nothing. */
  lemma FilterNone<T(!new)>(s: seq<T>, keep: T -> bool)
    requires forall x :: x in s ==> !keep(x)
    ensures Filter(s, keep) == []
  {
    if Filter(s, keep) != [] {
      assert Filter(s, keep)[0] in Filter(s, keep);
    }
  }

  /** Filtering twice by the same test changes nothing the second time. */
  lemma FilterIdempotent<T(!new)>(s: seq<T>, keep: T -> bool)
    ensures Filter(Filter(s, keep), keep) == Filter(s, keep)
  {
    FilterAll(Filter(s, keep), keep);
  }

  /** `s.findIndex(p)`: the first index whose element passes `p`, or -1. */
  function FindIndex<T>(s: seq<T>, p: T -> bool): (r: int)
    ensures -1 <= r < |s|
    ensures r == -1 <==> forall i :: 0 <= i < |s| ==> !p(s[i])
    ensures 0 <= r ==> p(s[r]) && forall i :: 0 <= i < r ==> !p(s[i])
  {
    if s == [] then -1
    else if p(s[0]) then 0
    else
      var k := FindIndex(s[1..], p);
      if k == -1 then -1 else k + 1
  }

  /** The first hit of a search is also the first hit in the prefix that ends with it. */
  lemma FindIndexPrefix<T>(s: seq<T>, p: T -> bool)
    requires FindIndex(s, p) >= 0
    ensures var i := FindIndex(s, p);
      FindIndex(s[..i + 1], p) == i
  {
    var i := FindIndex(s, p);
    var t := s[..i + 1];
    assert t[i] == s[i];
    assert forall j :: 0 <= j < i ==> t[j] == s[j];
  }

  /** `s.slice(0, n)`. */
  function Take<T>(s: seq<T>, n: nat): (r: seq<T>)
    ensures |r| <= n && |r| <= |s|
    ensures |s| <= n ==> r == s
    ensures n < |s| ==> |r| == n
    ensures forall i :: 0 <= i < |r| ==> r[i] == s[i]
  {
    if |s| <= n then s else s[..n]
  }

  /**
   * `a` is obtained from `b` by deleting elements: `b`'s elements that survive appear
   * in `a` in the order they had in `b` (greedy matching from the front).
   */
  predicate IsSubsequence<T(==)>(a: seq<T>, b: seq<T>)
    decreases |b|
  {
    a == [] ||
    (b != [] &&
      if a[0] == b[0] then IsSubsequence(a[1..], b[1..]) else IsSubsequence(a, b[1..]))
  }

  /** Dropping the head of a subsequence leaves a subsequence. */
  lemma {:induction false} SubsequenceTail<T>(a: seq<T>, b: seq<T>)
    requires a != [] && IsSubsequence(a, b)
    ensures IsSubsequence(a[1..], b)
    decreases |b|, 0
  {
    assert b != [];
    if a[0] == b[0] {
      SubsequenceCons(a[1..], b[0], b[1..]);
      assert [b[0]] + b[1..] == b;
    } else {
      SubsequenceTail(a, b[1..]);
      SubsequenceCons(a[1..], b[0], b[1..]);
      assert [b[0]] + b[1..] == b;
    }
  }

  /** Putting an element in front of the larger sequence keeps a subsequence one. */
  lemma {:induction false} SubsequenceCons<T>(a: seq<T>, x: T, b: seq<T>)
    requires IsSubsequence(a, b)
    ensures IsSubsequence(a, [x] + b)
    decreases |b|, 1
  {
    var xb := [x] + b;
    assert xb[1..] == b;
    if a != [] && a[0] == x {
      SubsequenceTail(a, b);
    }
  }

  /** Every sequence is a subsequence of itself. */
  lemma {:induction false} SubsequenceRefl<T>(s: seq<T>)
    ensures IsSubsequence(s, s)
  {
    if s != [] {
      SubsequenceRefl(s[1..]);
    }
  }

  /** The result of a filter is a subsequence of its input: the order is kept. */
  lemma {:induction false} FilterIsSubsequence<T(!new)>(s: seq<T>, keep: T -> bool)
    ensures IsSubsequence(Filter(s, keep), s)
  {
    if s != [] {
      FilterIsSubsequence(s[1..], keep);
      if keep(s[0]) {
        assert Filter(s, keep) == [s[0]] + Filter(s[1..], keep);
        assert Filter(s, keep)[1..] == Filter(s[1..], keep);
      } else {
        assert Filter(s, keep) == Filter(s[1..], keep);
        SubsequenceCons(Filter(s[1..], keep), s[0], s[1..]);
        assert [s[0]] + s[1..] == s;
      }
    }
  }

  /** A prefix of a subsequence is a subsequence. */
  lemma {:induction false} SubsequencePrefix<T>(a: seq<T>, n: nat, b: seq<T>)
    requires n <= |a| && IsSubsequence(a, b)
    ensures IsSubsequence(a[..n], b)
    decreases |b|
  {
    if n > 0 {
      assert b != [];
      assert a[..n][0] == a[0];
      if a[0] == b[0] {
        assert a[..n][1..] == a[1..][..n - 1];
        SubsequencePrefix(a[1..], n - 1, b[1..]);
      } else {
        SubsequencePrefix(a, n, b[1..]);
      }
    }
  }

  /** Number of elements of `s` that pass `p`. */
  function Count<T(!new)>(s: seq<T>, p: T -> bool): (r: nat)
    ensures r == |Filter(s, p)|
    ensures r <= |s|
  {
    if s == [] then 0 else (if p(s[0]) then 1 else 0) + Count(s[1..], p)
  }
}

=== FILE: settings.dfy ===
/**
 * The popup's settings controller (`PromptNestSettings`, popup/scripts/settings.js): the
 * settings validator, the theme logic (system preference, effective theme, toggling,
 * display names) and the in-memory copy of the settings that `updateSetting`,
 * `importSettings` and `applyTheme` reassign. The system colour-scheme preference and
 * the outcome of the storage write are parameters.
 */
module PopupSettings {
  import opened Wrappers
  import opened Values
  import opened Records
  import opened Storage

  /** The three theme names as JavaScript strings. */
  predicate IsTheme(v: Value)
  {
    v == Str("auto") || v == Str("light") || v == Str("dark")
  }

  lemma ThemesAreThemes()
    ensures forall t :: t in Themes <==> IsTheme(Str(t))
  {
  }

  /** `getSystemTheme`: "dark" when the page prefers a dark colour scheme, else "light". */
  function SystemTheme(prefersDark: bool): (t: Value)
    ensures t == Str("dark") <==> prefersDark
    ensures IsTheme(t) && t != Str("auto")
  {
    if prefersDark then Str("dark") else Str("light")
  }

  /**
   * `validateSettings`: an object (arrays included) whose truthy `theme` is one of the
   * three themes and whose `autoBackup` and `showUsageStats` are booleans when present.
   */
  function ValidateSettings(v: Value): (ok: bool)
    ensures !IsObject(v) ==> !ok
    ensures Truthy(Get(v, "theme")) && !IsTheme(Get(v, "theme")) ==> !ok
    ensures Get(v, "autoBackup") != Undefined && !Get(v, "autoBackup").Bool? ==> !ok
    ensures Get(v, "showUsageStats") != Undefined && !Get(v, "showUsageStats").Bool? ==> !ok
    ensures (IsObject(v) && (!Truthy(Get(v, "theme")) || IsTheme(Get(v, "theme"))) &&
             (Get(v, "autoBackup") == Undefined || Get(v, "autoBackup").Bool?) &&
             (Get(v, "showUsageStats") == Undefined || Get(v, "showUsageStats").Bool?)) ==> ok
  {
    if !IsObject(v) then false
    else if Truthy(Get(v, "theme")) && !IsTheme(Get(v, "theme")) then false
    else if Get(v, "autoBackup") != Undefined && !Get(v, "autoBackup").Bool? then false
    else if Get(v, "showUsageStats") != Undefined && !Get(v, "showUsageStats").Bool? then false
    else true
  }

  /** The default settings pass the validator, and so do they with any of the three themes. */
  lemma DefaultSettingsValid(theme: string)
    requires theme in Themes
    ensures ValidateSettings(Obj(DefaultSettings))
    ensures ValidateSettings(Obj(DefaultSettings["theme" := Str(theme)]))
  {
    assert Get(Obj(DefaultSettings), "theme") == Str("auto");
    assert Get(Obj(DefaultSettings), "autoBackup") == Bool(true);
    assert Get(Obj(DefaultSettings), "showUsageStats") == Bool(true);
    ThemeUpdateKeepsValid(DefaultSettings, Str(theme));
  }

  /**
   * Setting the theme to one of the three themes keeps valid settings valid, and a value
   * outside them (a non-empty string such as "blue") makes any settings invalid.
   */
  lemma ThemeUpdateKeepsValid(s: Settings, theme: Value)
    ensures ValidateSettings(Obj(s)) && IsTheme(theme) ==> ValidateSettings(Obj(s["theme" := theme]))
    ensures Truthy(theme) && !IsTheme(theme) ==> !ValidateSettings(Obj(s["theme" := theme]))
  {
    var u := s["theme" := theme];
    assert Get(Obj(u), "theme") == theme;
    assert Get(Obj(u), "autoBackup") == Get(Obj(s), "autoBackup");
    assert Get(Obj(u), "showUsageStats") == Get(Obj(s), "showUsageStats");
  }

  /** `getThemeDisplayName`: a label for each theme; anything else is shown as it is. */
  function ThemeDisplayName(theme: Value): (r: Value)
    ensures theme == Str("auto") ==> r == Str("Auto (System)")
    ensures theme == Str("light") ==> r == Str("Light")
    ensures theme == Str("dark") ==> r == Str("Dark")
    ensures !IsTheme(theme) ==> r == theme
  {
    if theme == Str("auto") then Str("Auto (System)")
    else if theme == Str("light") then Str("Light")
    else if theme == Str("dark") then Str("Dark")
    else theme
  }

  /**
   * The three themes have three different labels, none of them a theme name; but a
   * non-theme value can share a label with a theme ("Light" is shown like "light").
   */
  lemma DisplayNamesDistinct()
    ensures forall a, b :: IsTheme(a) && IsTheme(b) && ThemeDisplayName(a) == ThemeDisplayName(b) ==> a == b
    ensures forall a :: IsTheme(a) ==> !IsTheme(ThemeDisplayName(a))
    ensures ThemeDisplayName(Str("Light")) == ThemeDisplayName(Str("light"))
  {
    assert Str("Light") != Str("light") by {
      assert "Light"[0] != "light"[0];
    }
  }

  /** `toggleTheme`'s choice: "light" after "dark", "dark" after anything else. */
  function ToggledTheme(current: Value): (t: Value)
    ensures t == Str("light") <==> current == Str("dark")
    ensures t != current && IsTheme(t) && t != Str("auto")
  {
    if current == Str("dark") then Str("light") else Str("dark")
  }

  /** Toggling twice comes back to an effective light or dark theme. */
  lemma ToggleTwice(current: Value)
    requires current == Str("light") || current == Str("dark")
    ensures ToggledTheme(ToggledTheme(current)) == current
  {
  }

  /** The theme `getCurrentTheme` reports for an in-memory copy of the settings. */
  function CurrentTheme(current: Option<Settings>, prefersDark: bool): (t: Value)
    ensures current.None? ==> t == Str("auto")
    ensures current.Some? && Get(Obj(current.value), "theme") == Str("auto") ==> t == SystemTheme(prefersDark)
    ensures current.Some? && Get(Obj(current.value), "theme") != Str("auto") ==> t == Get(Obj(current.value), "theme")
    ensures current.Some? ==> t != Str("auto")
  {
    if current.None? then Str("auto")
    else
      var theme := Get(Obj(current.value), "theme");
      if theme == Str("auto") then SystemTheme(prefersDark) else theme
  }

  class SettingsPanel {
    const store: Store
    /** `currentSettings`: the in-memory copy, `null` until loaded. */
    var currentSettings: Option<Settings>
    /** The `data-theme` attribute of the page body. */
    var renderedTheme: Value

    constructor (store: Store)
      ensures this.store == store && currentSettings.None? && renderedTheme == Undefined
    {
      this.store := store;
      currentSettings := None;
      renderedTheme := Undefined;
    }

    /** `getCurrentTheme`. */
    function GetCurrentTheme(prefersDark: bool): (t: Value)
      reads this
      ensures t == CurrentTheme(currentSettings, prefersDark)
    {
      CurrentTheme(currentSettings, prefersDark)
    }

    /** `loadCurrentSettings`: the stored settings, or the defaults when reading fails. */
    method LoadCurrentSettings(readFails: bool)
      modifies this`currentSettings
      ensures !readFails ==> currentSettings == Some(store.GetSettings())
      ensures readFails ==> currentSettings == Some(DefaultSettings)
    {
      if readFails {
        currentSettings := Some(DefaultSettings);
      } else {
        currentSettings := Some(store.GetSettings());
      }
    }

    /**
     * `applyTheme`: renders the system theme for "auto" and the given theme otherwise,
     * and records the given theme in loaded settings.
     */
    method ApplyTheme(theme: Value, prefersDark: bool)
      modifies this`renderedTheme, this`currentSettings
      ensures theme == Str("auto") ==> renderedTheme == SystemTheme(prefersDark)
      ensures theme != Str("auto") ==> renderedTheme == theme
      ensures old(currentSettings).None? ==> currentSettings.None?
      ensures old(currentSettings).Some? ==> currentSettings == Some(old(currentSettings).value["theme" := theme])
    {
      renderedTheme := if theme == Str("auto") then SystemTheme(prefersDark) else theme;
      if currentSettings.Some? {
        currentSettings := Some(currentSettings.value["theme" := theme]);
      }
    }

    /**
     * `updateSetting`: the settings with the one key replaced are written; only when the
     * write succeeds does the in-memory copy become them.
     */
    method UpdateSetting(key: string, value: Value, writeOk: bool) returns (ok: bool)
      modifies this`currentSettings, store`settings
      ensures ok == writeOk
      ensures !writeOk ==> currentSettings == old(currentSettings) && store.settings == old(store.settings)
      ensures writeOk ==>
        currentSettings == Some(old(currentSettings).GetOr(map[])[key := value])
        && store.GetSettings() == Spread(old(store.GetSettings()), currentSettings.value)
    {
      var updated := currentSettings.GetOr(map[])[key := value];
      if !writeOk {
        return false;
      }
      ok := store.UpdateSettings(updated);
      currentSettings := Some(updated);
    }

    /** `setTheme`: anything but the three themes is refused without a write. */
    method SetTheme(theme: Value, writeOk: bool) returns (ok: bool)
      modifies this`currentSettings, store`settings
      ensures !IsTheme(theme) ==> !ok && currentSettings == old(currentSettings) && store.settings == old(store.settings)
      ensures IsTheme(theme) ==> ok == writeOk
      ensures IsTheme(theme) && writeOk ==>
        currentSettings == Some(old(currentSettings).GetOr(map[])["theme" := theme])
        && Get(Obj(store.GetSettings()), "theme") == theme
      ensures IsTheme(theme) && !writeOk ==> currentSettings == old(currentSettings) && store.settings == old(store.settings)
    {
      if !IsTheme(theme) {
        return false;
      }
      ok := UpdateSetting("theme", theme, writeOk);
    }

    /**
     * `toggleTheme`: switches to "light" from an effective "dark" and to "dark" from
     * anything else, stores the choice and applies it. Once settings are loaded (or the
     * write went through) the effective theme has changed.
     */
    method ToggleTheme(prefersDark: bool, writeOk: bool) returns (chosen: Value)
      modifies this`currentSettings, this`renderedTheme, store`settings
      ensures chosen == ToggledTheme(old(GetCurrentTheme(prefersDark)))
      ensures renderedTheme == chosen
      ensures old(currentSettings).Some? || writeOk ==>
        GetCurrentTheme(prefersDark) == chosen && GetCurrentTheme(prefersDark) != old(GetCurrentTheme(prefersDark))
      ensures old(currentSettings).None? && !writeOk ==> currentSettings.None?
      ensures writeOk ==> Get(Obj(store.GetSettings()), "theme") == chosen
      ensures !writeOk ==> store.settings == old(store.settings)
    {
      chosen := ToggledTheme(GetCurrentTheme(prefersDark));
      var _ := SetTheme(chosen, writeOk);
      ApplyTheme(chosen, prefersDark);
    }

    /**
     * `importSettings`: refused unless the document is truthy, has truthy `data` and its
     * `type` is "settings"; otherwise the data is stored as it is, becomes the in-memory
     * copy, and its theme (or "auto" when it has none) is applied.
     */
    method ImportSettings(importData: Value, prefersDark: bool, writeOk: bool) returns (ok: bool)
      modifies this`currentSettings, this`renderedTheme, store`settings
      ensures ok <==> Truthy(importData) && Truthy(Get(importData, "data")) && Get(importData, "type") == Str("settings")
                      && Get(importData, "data").Obj? && writeOk
      ensures !ok ==>
        currentSettings == old(currentSettings) && store.settings == old(store.settings)
        && renderedTheme == old(renderedTheme)
      ensures ok ==> Get(importData, "data").Obj?
      ensures ok && Get(importData, "data").Obj? ==>
        var data := Get(importData, "data").fields;
        var theme := if Truthy(Get(Obj(data), "theme")) then Get(Obj(data), "theme") else Str("auto");
        store.settings == Some(data) && currentSettings == Some(data["theme" := theme])
        && renderedTheme == (if theme == Str("auto") then SystemTheme(prefersDark) else theme)
    {
      if !Truthy(importData) || !Truthy(Get(importData, "data")) || Get(importData, "type") != Str("settings") {
        return false;
      }
      var data := Get(importData, "data");
      if !data.Obj? || !writeOk {
        return false;
      }
      store.settings := Some(data.fields);
      currentSettings := Some(data.fields);
      var theme := if Truthy(Get(data, "theme")) then Get(data, "theme") else Str("auto");
      ApplyTheme(theme, prefersDark);
      ok := true;
    }
  }
}

=== FILE: sidebar.dfy ===
/**
 * The in-page sidebar (`PromptNestSidebar`, content/sidebar.js): an in-memory copy of
 * the prompt and category lists, the category filter and free-text search over it,
 * usage updates when a prompt is inserted or copied, and the open/closed panel state.
 * The list rules shared with the older sidebar and with the modal dialogs (adding,
 * importing) are functions of this module, so that all three agree by construction.
 */
module Sidebar {
  import opened Wrappers
  import opened Seqs
  import opened Text
  import opened Records
  import opened Storage
  import opened Merging
  import Injection

  // ---------------------------------------------------------------------------
  // Loading and listing
  // ---------------------------------------------------------------------------

  /** The pseudo-category that stands for "every prompt". */
  const AllId: string := "all"

  /** The entry `loadData` puts in place of an empty category list. */
  function AllCategory(now: int): Category
  {
    Category(AllId, "All Prompts", now, None, false, None)
  }

  /** The category list `loadData` keeps: the stored one, or the "all" entry alone. */
  function LoadedCategories(stored: seq<Category>, now: int): (cs: seq<Category>)
    ensures cs != []
    ensures stored != [] ==> cs == stored
    ensures stored == [] ==> cs == [AllCategory(now)]
  {
    if stored == [] then [AllCategory(now)] else stored
  }

  /**
   * The prompts listed for a category selection: all of them for "all", otherwise the
   * prompts filed under exactly that category id, in stored order.
   */
  function Listed(prompts: seq<Prompt>, category: string): (r: seq<Prompt>)
    ensures IsSubsequence(r, prompts)
    ensures category == AllId ==> r == prompts
    ensures category != AllId ==> forall p :: p in r <==> p in prompts && p.categoryId == Some(category)
    ensures category != AllId ==> KeepsCounts(r, prompts, InCategory(category))
  {
    if category == AllId then
      SubsequenceRefl(prompts);
      prompts
    else
      FilterIsSubsequence(prompts, InCategory(category));
      FilterCounts(prompts, InCategory(category));
      Filter(prompts, InCategory(category))
  }

  /**
   * What `handleSearch` lists: the category's list for a blank query, otherwise those of
   * its prompts whose lower-cased title or content contains the lower-cased query. The
   * query is not trimmed for the match, only for the blank test.
   */
  function SearchResults(prompts: seq<Prompt>, category: string, query: string): (r: seq<Prompt>)
    ensures IsBlank(query) ==> r == Listed(prompts, category)
    ensures IsSubsequence(r, Listed(prompts, category))
    ensures !IsBlank(query) ==> forall p :: p in r <==>
      p in Listed(prompts, category) && (Contains(Lower(p.title), Lower(query)) || Contains(Lower(p.content), Lower(query)))
    ensures !IsBlank(query) ==> KeepsCounts(r, Listed(prompts, category), MatchesTerm(Lower(query)))
  {
    var base := Listed(prompts, category);
    if IsBlank(query) then
      SubsequenceRefl(base);
      base
    else
      FilterIsSubsequence(base, MatchesTerm(Lower(query)));
      FilterCounts(base, MatchesTerm(Lower(query)));
      Filter(base, MatchesTerm(Lower(query)))
  }

  /**
   * Because the match uses the query as typed, a query with a leading space misses a
   * title that the storage search (which trims first) finds.
   */
  lemma SearchKeepsSurroundingSpaces(p: Prompt)
    requires p.title == "ab" && p.content == "x"
    ensures SearchResults([p], AllId, " ab") == []
    ensures Filter([p], MatchesTerm(Trim(Lower(" ab")))) == [p]
  {
    LowerUnchanged();
    TrimLeadingSpace();
    SpacedQueryMisses(p);
    TrimmedQueryFinds(p, "ab");
  }

  lemma SpacedQueryMisses(p: Prompt)
    requires p.title == "ab" && p.content == "x"
    requires Lower(" ab") == " ab" && Lower("ab") == "ab"
    ensures Filter([p], MatchesTerm(Lower(" ab"))) == []
  {
    ShorterNotContained(Lower(p.title), " ab");
    ShorterNotContained(Lower(p.content), " ab");
    assert !MatchesTerm(Lower(" ab"))(p);
    assert [p][1..] == [];
  }

  lemma TrimmedQueryFinds(p: Prompt, term: string)
    requires Lower(p.title) == term
    ensures Filter([p], MatchesTerm(term)) == [p]
  {
    ContainsSelf(term);
    assert MatchesTerm(term)(p);
    assert [p][1..] == [];
  }

  lemma LowerUnchanged()
    ensures Lower(" ab") == " ab" && Lower("ab") == "ab"
  {
  }

  lemma TrimLeadingSpace()
    ensures Trim(" ab") == "ab" && !IsBlank(" ab")
  {
    TrimStartLeadingSpace();
    TrimEndWord();
  }

  lemma TrimStartLeadingSpace()
    ensures TrimStart(" ab") == "ab"
  {
    var q := " ab";
    assert IsSpace(q[0]) && !IsSpace(q[1]);
    assert q[1..] == "ab";
  }

  lemma TrimEndWord()
    ensures TrimEnd("ab") == "ab"
  {
    var q := "ab";
    assert !IsSpace(q[1]);
  }

  /**
   * The heading of a search: the category's name and the number found, "Unknown" for a
   * category that is missing or has an empty name.
   */
  function SearchHeading(categories: seq<Category>, current: string, found: nat): (h: string)
    ensures current == AllId ==> h == SearchTitle("All Prompts", found)
    ensures (current != AllId && forall i :: 0 <= i < |categories| ==> categories[i].id != current) ==>
      h == SearchTitle("Unknown", found)
    ensures forall i ::
      (current != AllId && 0 <= i < |categories| && categories[i].id == current &&
       forall j :: 0 <= j < i ==> categories[j].id != current)
      ==> h == SearchTitle(if categories[i].name != [] then categories[i].name else "Unknown", found)
  {
    SearchTitle(SearchLabel(categories, current), found)
  }

  /** "Search in <name> (<found>)". */
  function SearchTitle(name: string, found: nat): string
  {
    "Search in " + name + " (" + NatToString(found) + ")"
  }

  /** The category name a search heading shows. */
  function SearchLabel(categories: seq<Category>, current: string): (name: string)
    ensures current == AllId ==> name == "All Prompts"
    ensures (current != AllId && forall i :: 0 <= i < |categories| ==> categories[i].id != current) ==>
      name == "Unknown"
    ensures forall i ::
      (current != AllId && 0 <= i < |categories| && categories[i].id == current &&
       forall j :: 0 <= j < i ==> categories[j].id != current)
      ==> name == if categories[i].name != [] then categories[i].name else "Unknown"
  {
    var i := FindIndex(categories, HasCategoryId(current));
    if current == AllId then "All Prompts"
    else if i >= 0 && categories[i].name != [] then categories[i].name
    else "Unknown"
  }

  /** The heading after selecting a category: its name, or "All Prompts" when there is none. */
  function CategoryHeading(categories: seq<Category>, id: string): (h: string)
    ensures (forall i :: 0 <= i < |categories| ==> categories[i].id != id) ==> h == "All Prompts"
    ensures forall i ::
      (0 <= i < |categories| && categories[i].id == id && forall j :: 0 <= j < i ==> categories[j].id != id)
      ==> h == categories[i].name
  {
    var i := FindIndex(categories, HasCategoryId(id));
    if i >= 0 then categories[i].name else "All Prompts"
  }

  /** One entry of the category list: its id, its label and the number it shows. */
  datatype CountEntry = CountEntry(categoryId: string, name: string, count: nat)

  function CountsOf(prompts: seq<Prompt>, cs: seq<Category>): (r: seq<CountEntry>)
    ensures |r| == |cs|
    ensures forall i :: 0 <= i < |cs| ==>
      r[i] == CountEntry(cs[i].id, cs[i].name, Count(prompts, InCategory(cs[i].id)))
  {
    seq(|cs|, i requires 0 <= i < |cs| => CountEntry(cs[i].id, cs[i].name, Count(prompts, InCategory(cs[i].id))))
  }

  /**
   * The category list of the panel: "All Prompts" with the total, then every stored
   * category except a stored "all" one, each with the number of prompts filed under it.
   * Every entry shows exactly the number of prompts that selecting it lists.
   */
  function CategoryCounts(prompts: seq<Prompt>, categories: seq<Category>): (r: seq<CountEntry>)
    ensures |r| == 1 + |Filter(categories, Not(HasCategoryId(AllId)))|
    ensures r[0] == CountEntry(AllId, "All Prompts", |prompts|)
    ensures forall i :: 1 <= i < |r| ==>
      r[i].categoryId != AllId && r[i] == CountEntry(Filter(categories, Not(HasCategoryId(AllId)))[i - 1].id,
                                                     Filter(categories, Not(HasCategoryId(AllId)))[i - 1].name,
                                                     r[i].count)
    ensures forall i :: 0 <= i < |r| ==> r[i].count == |Listed(prompts, r[i].categoryId)|
  {
    var shown := Filter(categories, Not(HasCategoryId(AllId)));
    var r := [CountEntry(AllId, "All Prompts", |prompts|)] + CountsOf(prompts, shown);
    forall i | 1 <= i < |r|
      ensures r[i].categoryId != AllId
      ensures r[i].count == |Listed(prompts, r[i].categoryId)|
    {
      assert shown[i - 1] in shown;
    }
    r
  }

  // ---------------------------------------------------------------------------
  // List updates shared by the sidebar dialogs and the older sidebar
  // ---------------------------------------------------------------------------

  /** The category select's value, or "general" when nothing is selected. */
  function SelectedOrGeneral(selected: string): (id: string)
    ensures id != []
    ensures selected != [] ==> id == selected
  {
    if selected == [] then "general" else selected
  }

  /**
   * The prompt list after the add-prompt dialog is saved: unchanged for a blank title or
   * content and for a duplicate of trimmed title and content; otherwise one new prompt,
   * stamped with `Date.now()` as its id, at the end.
   */
  function PromptsAfterDialogAdd(ps: seq<Prompt>, title: string, content: string, selected: string, now: nat)
    : (r: seq<Prompt>)
    ensures r == ps || r == ps + [NewPrompt(NatToString(now), title, content, Some(SelectedOrGeneral(selected)), now)]
    ensures r != ps <==>
      !IsBlank(title) && !IsBlank(content) && forall i :: 0 <= i < |ps| ==> !SameText(title, content)(ps[i])
  {
    if IsBlank(title) || IsBlank(content) then ps
    else PromptsAfterAdd(ps, title, content, Some(SelectedOrGeneral(selected)), NatToString(now), now)
  }

  /** Saving the same dialog twice stores the prompt once. */
  lemma DialogAddIdempotent(ps: seq<Prompt>, title: string, content: string, selected: string, now: nat,
                            selected2: string, now2: nat)
    ensures var once := PromptsAfterDialogAdd(ps, title, content, selected, now);
      PromptsAfterDialogAdd(once, title, content, selected2, now2) == once
  {
    if !IsBlank(title) && !IsBlank(content) {
      AddPromptIdempotent(ps, title, content, Some(SelectedOrGeneral(selected)), NatToString(now), now,
                          Some(SelectedOrGeneral(selected2)), NatToString(now2), now2);
    }
  }

  /** A list without blank titles or contents never gains one through the dialog. */
  lemma DialogAddNeverBlank(ps: seq<Prompt>, title: string, content: string, selected: string, now: nat)
    requires forall p :: p in ps ==> !IsBlank(p.title) && !IsBlank(p.content)
    ensures forall p :: p in PromptsAfterDialogAdd(ps, title, content, selected, now) ==>
      !IsBlank(p.title) && !IsBlank(p.content)
  {
    var r := PromptsAfterDialogAdd(ps, title, content, selected, now);
    if r != ps {
      var n := NewPrompt(NatToString(now), title, content, Some(SelectedOrGeneral(selected)), now);
      assert r == ps + [n];
      TrimmedNotBlank(title);
      TrimmedNotBlank(content);
      forall p | p in r
        ensures !IsBlank(p.title) && !IsBlank(p.content)
      {
        if p != n {
          assert p in ps;
        }
      }
    }
  }

  /** A string that is not blank stays so when trimmed. */
  lemma TrimmedNotBlank(s: string)
    requires !IsBlank(s)
    ensures !IsBlank(Trim(s))
  {
    TrimIdempotent(s);
  }

  /** The lower-cased names of the categories, as compared by the duplicate checks. */
  function LowerNames(cs: seq<Category>): (r: seq<string>)
    ensures |r| == |cs| && forall i :: 0 <= i < |cs| ==> r[i] == Lower(cs[i].name)
  {
    seq(|cs|, i requires 0 <= i < |cs| => Lower(cs[i].name))
  }

  /** The category the add-category dialog creates, or `None` for a blank or taken name. */
  function DialogCategory(cs: seq<Category>, name: string, now: nat): (r: Option<Category>)
    ensures r.None? <==> IsBlank(name) || Lower(Trim(name)) in LowerNames(cs)
    ensures r.Some? ==> r.value == Category(NatToString(now), Trim(name), now, None, false, None)
  {
    if IsBlank(name) || Lower(Trim(name)) in LowerNames(cs) then None
    else Some(Category(NatToString(now), Trim(name), now, None, false, None))
  }

  /** Once a name has been added, the dialog rejects it (in any letter case) from then on. */
  lemma DialogCategoryOnce(cs: seq<Category>, name: string, now: nat, name2: string, now2: nat)
    requires DialogCategory(cs, name, now).Some?
    requires Lower(Trim(name2)) == Lower(Trim(name))
    ensures DialogCategory(cs + [DialogCategory(cs, name, now).value], name2, now2).None?
  {
    var c := DialogCategory(cs, name, now).value;
    assert LowerNames(cs + [c])[|cs|] == Lower(Trim(name));
  }

  /** The import filter of the sidebars: not the "all" entry, and a name not already present. */
  function Importable(existing: seq<Category>): Category -> bool
  {
    (c: Category) => c.id != AllId && Lower(c.name) !in LowerNames(existing)
  }

  /** The lists a sidebar import takes from a parsed file: each only when it is an array. */
  datatype SidebarImport = SidebarImport(prompts: Option<seq<Prompt>>, categories: Option<seq<Category>>)

  /** The prompt list after a sidebar import: every incoming prompt appended, no dedup. */
  function PromptsAfterSidebarImport(existing: seq<Prompt>, incoming: Option<seq<Prompt>>): seq<Prompt>
  {
    existing + incoming.GetOr([])
  }

  /** The category list after a sidebar import: the importable incoming ones appended. */
  function CategoriesAfterSidebarImport(existing: seq<Category>, incoming: Option<seq<Category>>): seq<Category>
  {
    existing + Filter(incoming.GetOr([]), Importable(existing))
  }

  /**
   * The category import keeps the list as a prefix; what it appends is never the "all"
   * entry nor a name already present; and every incoming category passing that test
   * is appended.
   */
  lemma SidebarImportCategories(existing: seq<Category>, incoming: seq<Category>)
    ensures var r := CategoriesAfterSidebarImport(existing, Some(incoming));
      r[..|existing|] == existing
      && (forall i :: |existing| <= i < |r| ==> r[i].id != AllId && Lower(r[i].name) !in LowerNames(existing))
      && (forall c :: c in incoming && c.id != AllId && Lower(c.name) !in LowerNames(existing) ==> c in r)
  {
    var r := CategoriesAfterSidebarImport(existing, Some(incoming));
    var added := Filter(incoming, Importable(existing));
    forall i | |existing| <= i < |r|
      ensures r[i].id != AllId && Lower(r[i].name) !in LowerNames(existing)
    {
      assert r[i] == added[i - |existing|];
      assert added[i - |existing|] in added;
    }
    forall c | c in incoming && c.id != AllId && Lower(c.name) !in LowerNames(existing)
      ensures c in r
    {
      assert Importable(existing)(c);
      assert c in added;
    }
  }

  /**
   * The name test is against the list as it was before the import: two incoming
   * categories whose names differ only in letter case both get in, which the
   * add-category dialog would never allow.
   */
  lemma SidebarImportKeepsSameNamedPair(now: int)
    ensures var a := Category("a", "Work", now, None, false, None);
      var b := Category("b", "work", now, None, false, None);
      CategoriesAfterSidebarImport([], Some([a, b])) == [a, b]
      && Lower(a.name) == Lower(b.name)
  {
    var a := Category("a", "Work", now, None, false, None);
    var b := Category("b", "work", now, None, false, None);
    assert LowerNames([]) == [];
    assert Importable([])(a) && Importable([])(b);
    FilterAll([a, b], Importable([]));
    assert Lower("Work") == "work" by {
      assert LowerChar('W') == 'w';
    }
    assert Lower("work") == "work";
  }

  /**
   * Importing a list of prompts into itself doubles it in the sidebars, while the
   * storage manager's id-keyed merge leaves it as it was.
   */
  lemma SidebarImportDisagreesWithStore(ps: seq<Prompt>, promptIds: nat -> string)
    requires ps != []
    ensures |PromptsAfterSidebarImport(ps, Some(ps))| == 2 * |ps|
    ensures Merged(ps, ps, PromptIdKey, PromptWithNewId(promptIds)) == ps
  {
    ImportOwnExportMerge([], ps, map[], (n: nat) => "", promptIds);
  }

  // ---------------------------------------------------------------------------
  // The panel
  // ---------------------------------------------------------------------------

  class PromptNestSidebar {
    /** The storage area the sidebar writes its lists back to. */
    const store: Store
    var prompts: seq<Prompt>
    var categories: seq<Category>
    var currentCategory: string
    /** The prompts the list currently shows, and the heading above them. */
    var shown: seq<Prompt>
    var heading: string
    var isOpen: bool
    /** The panel and overlay elements exist (until `destroy`). */
    var hasPanel: bool
    /** The page body's scrolling is locked (`overflow: hidden`). */
    var scrollLocked: bool

    /** The page is locked exactly while an existing panel is open. */
    predicate Valid()
      reads this
    {
      scrollLocked == (hasPanel && isOpen)
    }

    /** `constructor` and `init`: load the lists, build the closed panel showing every prompt. */
    constructor (store: Store, loadFailed: bool, now: int)
      ensures this.store == store && Valid()
      ensures !isOpen && hasPanel && currentCategory == AllId
      ensures loadFailed ==> prompts == [] && categories == [AllCategory(now)]
      ensures !loadFailed ==> prompts == store.prompts && categories == LoadedCategories(store.categories, now)
      ensures shown == prompts
    {
      this.store := store;
      prompts := [];
      categories := [];
      currentCategory := AllId;
      shown := [];
      heading := "All Prompts";
      isOpen := false;
      hasPanel := true;
      scrollLocked := false;
      new;
      LoadData(loadFailed, now);
      shown := prompts;
    }

    /** `loadData`: the stored lists, defaulting categories to the "all" entry; on failure, no prompts. */
    method LoadData(loadFailed: bool, now: int)
      modifies this`prompts, this`categories
      ensures loadFailed ==> prompts == [] && categories == [AllCategory(now)]
      ensures !loadFailed ==> prompts == store.prompts && categories == LoadedCategories(store.categories, now)
      ensures categories != []
    {
      if loadFailed {
        prompts := [];
        categories := [AllCategory(now)];
      } else {
        prompts := store.prompts;
        categories := LoadedCategories(store.categories, now);
      }
    }

    /** `updatePromptList()` without an argument: the current category's list. */
    method UpdatePromptList()
      modifies this`shown
      ensures shown == Listed(prompts, currentCategory)
    {
      shown := Listed(prompts, currentCategory);
    }

    /**
     * `handleSearch`: a blank query lists the category; otherwise the matches, with a counting
     * heading. The prompts, categories and filter are not changed, so `old(...)` of each is its value.
     */
    method HandleSearch(query: string)
      modifies this`shown, this`heading
      ensures shown == SearchResults(old(prompts), old(currentCategory), query)
      ensures IsSubsequence(shown, Listed(old(prompts), old(currentCategory)))
      ensures IsBlank(query) ==> heading == old(heading)
      ensures !IsBlank(query) ==> heading == SearchHeading(old(categories), old(currentCategory), |shown|)
    {
      if IsBlank(query) {
        UpdatePromptList();
        return;
      }
      var filtered := SearchResults(prompts, currentCategory, query);
      shown := filtered;
      heading := SearchHeading(categories, currentCategory, |filtered|);
    }

    /** `selectCategory`: switch the filter and show that category's list under its name. */
    method SelectCategory(id: string)
      modifies this`currentCategory, this`shown, this`heading
      ensures currentCategory == id
      ensures shown == Listed(prompts, id)
      ensures heading == CategoryHeading(categories, id)
    {
      currentCategory := id;
      heading := CategoryHeading(categories, id);
      UpdatePromptList();
    }

    /** `open`: a no-op when already open. */
    method Open()
      modifies this`isOpen, this`scrollLocked
      ensures isOpen
      ensures old(isOpen) ==> scrollLocked == old(scrollLocked)
      ensures old(Valid()) ==> Valid()
    {
      if isOpen {
        return;
      }
      isOpen := true;
      // Without a panel the class-list update throws before the body is locked.
      if hasPanel {
        scrollLocked := true;
      }
    }

    /** `close`: a no-op when already closed. */
    method Close()
      modifies this`isOpen, this`scrollLocked
      ensures !isOpen
      ensures !old(isOpen) ==> scrollLocked == old(scrollLocked)
      ensures old(Valid()) ==> Valid()
    {
      if !isOpen {
        return;
      }
      isOpen := false;
      if hasPanel {
        scrollLocked := false;
      }
    }

    /** `toggle`: flips the open state. */
    method Toggle()
      modifies this`isOpen, this`scrollLocked
      ensures isOpen == !old(isOpen)
      ensures old(Valid()) ==> Valid()
    {
      if isOpen {
        Close();
      } else {
        Open();
      }
    }

    /** `destroy`: removes the panel and unlocks the page. */
    method Destroy()
      modifies this`isOpen, this`scrollLocked, this`hasPanel
      ensures !isOpen && !hasPanel && !scrollLocked && Valid()
    {
      hasPanel := false;
      isOpen := false;
      scrollLocked := false;
    }

    /**
     * `handlePromptAction('use')` and `usePrompt`: insert the prompt's content into the
     * page; only when that succeeds, count one use, store the list and close the panel.
     */
    method UsePrompt(promptId: string, page: Injection.Page, hostname: string, now: int)
      returns (ok: bool, effects: seq<Injection.Effect>)
      modifies this`prompts, this`isOpen, this`scrollLocked, store`prompts
      ensures var i := FindIndex(old(prompts), HasPromptId(promptId));
        ok <==> i >= 0 && Injection.TargetOf(page, Injection.SelectorsFor(hostname)).Some?
      ensures ok ==> var i := FindIndex(old(prompts), HasPromptId(promptId));
        effects == Injection.WriteEffects(Injection.TargetOf(page, Injection.SelectorsFor(hostname)).value,
                                          old(prompts)[i].content)
        && prompts == old(prompts)[i := WithUsage(old(prompts)[i], now)]
        && TotalUses(prompts) == TotalUses(old(prompts)) + 1
        && store.prompts == prompts && !isOpen
      ensures !ok ==> (effects == [] && prompts == old(prompts) && store.prompts == old(store.prompts)
        && isOpen == old(isOpen) && scrollLocked == old(scrollLocked))
      ensures old(Valid()) ==> Valid()
    {
      var i := FindIndex(prompts, HasPromptId(promptId));
      if i < 0 {
        return false, [];
      }
      ok, effects := Injection.FindAndFillInput(page, hostname, prompts[i].content);
      if ok {
        RecordUse(i, now);
      }
    }

    /** The bookkeeping after a successful insertion: one more use, stored, panel closed. */
    method RecordUse(i: nat, now: int)
      requires i < |prompts|
      modifies this`prompts, this`isOpen, this`scrollLocked, store`prompts
      ensures prompts == old(prompts)[i := WithUsage(old(prompts)[i], now)]
      ensures TotalUses(prompts) == TotalUses(old(prompts)) + 1
      ensures store.prompts == prompts && !isOpen
      ensures old(Valid()) ==> Valid()
    {
      TotalUsesAfterUse(prompts, i, now);
      prompts := prompts[i := WithUsage(prompts[i], now)];
      store.prompts := prompts;
      Close();
    }

    /**
     * `handlePromptAction('copy')` and `copyPrompt`: count one use and store the list only
     * when the clipboard write completed.
     */
    method CopyPrompt(promptId: string, clipboardOk: bool, now: int) returns (counted: bool)
      modifies this`prompts, store`prompts
      ensures var i := FindIndex(old(prompts), HasPromptId(promptId));
        counted <==> i >= 0 && clipboardOk
      ensures counted ==> var i := FindIndex(old(prompts), HasPromptId(promptId));
        prompts == old(prompts)[i := WithUsage(old(prompts)[i], now)] && store.prompts == prompts
      ensures !counted ==> prompts == old(prompts) && store.prompts == old(store.prompts)
    {
      var i := FindIndex(prompts, HasPromptId(promptId));
      if i < 0 || !clipboardOk {
        return false;
      }
      prompts := prompts[i := WithUsage(prompts[i], now)];
      store.prompts := prompts;
      counted := true;
    }
  }
}

=== FILE: sidebar_original.dfy ===
/**
 * The older, single-class sidebar (content/sidebar-original.js). Its list handling is
 * the one the refactored sidebar's dialogs kept, so the list rules are the functions of
 * the `Sidebar` module; what differs is where the state lives (one object holding the
 * lists, the submission flag and the open state) and the input resolver it uses
 * (`Injection.FindAndFillInputOriginal`).
 */
module SidebarOriginal {
  import opened Wrappers
  import opened Seqs
  import opened Text
  import opened Records
  import opened Storage
  import opened Sidebar

  class OriginalSidebar {
    const store: Store
    var prompts: seq<Prompt>
    var categories: seq<Category>
    var isOpen: bool
    var isSubmitting: bool
    /** The page body's scrolling is locked (`overflow: hidden`). */
    var scrollLocked: bool

    /** The page is locked exactly while the panel is open. */
    predicate Valid()
      reads this
    {
      scrollLocked == isOpen
    }

    /** The closed panel over the stored lists (an empty category list gets the "all" entry). */
    constructor (store: Store, now: int)
      ensures this.store == store && Valid()
      ensures !isOpen && !isSubmitting
      ensures prompts == store.prompts && categories == LoadedCategories(store.categories, now)
    {
      this.store := store;
      prompts := store.prompts;
      categories := LoadedCategories(store.categories, now);
      isOpen := false;
      isSubmitting := false;
      scrollLocked := false;
    }

    /**
     * `handleAddPrompt`: ignored while a submission is in progress; otherwise adds the
     * dialog's prompt unless blank or a duplicate, clearing the flag on every way out.
     */
    method HandleAddPrompt(title: string, content: string, selected: string, now: nat)
      modifies this`isSubmitting, this`prompts, store`prompts
      ensures old(isSubmitting) ==>
        isSubmitting && prompts == old(prompts) && store.prompts == old(store.prompts)
      ensures !old(isSubmitting) ==>
        !isSubmitting && prompts == PromptsAfterDialogAdd(old(prompts), title, content, selected, now)
      ensures prompts != old(prompts) ==> store.prompts == prompts
      ensures prompts == old(prompts) ==> store.prompts == old(store.prompts)
    {
      if isSubmitting {
        return;
      }
      isSubmitting := true;
      var next := PromptsAfterDialogAdd(prompts, title, content, selected, now);
      if next != prompts {
        prompts := next;
        store.prompts := next;
      }
      isSubmitting := false;
    }

    /** `handleAddCategory`: rejects a blank or already present name, otherwise appends and stores. */
    method HandleAddCategory(name: string, now: nat) returns (added: bool)
      modifies this`categories, store`categories
      ensures added <==> DialogCategory(old(categories), name, now).Some?
      ensures !added ==> categories == old(categories) && store.categories == old(store.categories)
      ensures added ==>
        categories == old(categories) + [DialogCategory(old(categories), name, now).value]
        && store.categories == categories
    {
      var c := DialogCategory(categories, name, now);
      if c.None? {
        return false;
      }
      categories := categories + [c.value];
      store.categories := categories;
      added := true;
    }

    /** `handleDeletePrompt`: every prompt with the id goes, the rest keep their order. */
    method HandleDeletePrompt(promptId: string)
      modifies this`prompts, store`prompts
      ensures prompts == Filter(old(prompts), Not(HasPromptId(promptId)))
      ensures forall p :: p in prompts <==> p in old(prompts) && p.id != promptId
      ensures IsSubsequence(prompts, old(prompts)) && store.prompts == prompts
    {
      FilterIsSubsequence(prompts, Not(HasPromptId(promptId)));
      prompts := Filter(prompts, Not(HasPromptId(promptId)));
      store.prompts := prompts;
    }

    /** `importData`, once the file is read: the same rules as the refactored sidebar. */
    method ImportData(data: Option<SidebarImport>)
      modifies this`prompts, this`categories, store`prompts, store`categories
      ensures data.None? ==>
        prompts == old(prompts) && categories == old(categories)
        && store.prompts == old(store.prompts) && store.categories == old(store.categories)
      ensures data.Some? ==>
        prompts == PromptsAfterSidebarImport(old(prompts), data.value.prompts)
        && categories == CategoriesAfterSidebarImport(old(categories), data.value.categories)
        && store.prompts == prompts && store.categories == categories
    {
      if data.None? {
        return;
      }
      prompts := PromptsAfterSidebarImport(prompts, data.value.prompts);
      categories := CategoriesAfterSidebarImport(categories, data.value.categories);
      store.prompts := prompts;
      store.categories := categories;
    }

    /** `open`: a no-op when already open. */
    method Open()
      modifies this`isOpen, this`scrollLocked
      ensures isOpen && (old(isOpen) ==> scrollLocked == old(scrollLocked))
      ensures old(Valid()) ==> Valid()
    {
      if isOpen {
        return;
      }
      isOpen := true;
      scrollLocked := true;
    }

    /** `close`: a no-op when already closed. */
    method Close()
      modifies this`isOpen, this`scrollLocked
      ensures !isOpen && (!old(isOpen) ==> scrollLocked == old(scrollLocked))
      ensures old(Valid()) ==> Valid()
    {
      if !isOpen {
        return;
      }
      isOpen := false;
      scrollLocked := false;
    }

    /** `toggle`: flips the open state. */
    method Toggle()
      modifies this`isOpen, this`scrollLocked
      ensures isOpen == !old(isOpen)
      ensures old(Valid()) ==> Valid()
    {
      if isOpen {
        Close();
      } else {
        Open();
      }
    }
  }
}

=== FILE: storage.dfy ===
/**
 * The storage manager (`PromptNestStorage`, assets/js/storage.js): the extension's
 * local storage area, seen through the read-modify-write operations the manager
 * offers. Every write is modelled as succeeding; fresh ids (`generateId`) and the
 * clock (`Date.now()`) are parameters.
 */
module Storage {
  import opened Wrappers
  import opened Seqs
  import opened Text
  import opened Values
  import opened Records
  import opened Ranking
  import opened Merging

  /** `importData.data` after the `!importData || !importData.data` guard has passed. */
  datatype ImportPayload = ImportPayload(
    categories: Option<seq<Category>>,
    prompts: Option<seq<Prompt>>,
    settings: Option<Settings>)

  /** The object `exportData` returns. */
  datatype Snapshot = Snapshot(
    version: string,
    exportDate: string,
    categories: seq<Category>,
    prompts: seq<Prompt>,
    settings: Settings)

  /** What `getStatistics` reports (the floating-point average is not part of this model). */
  datatype Statistics = Statistics(
    totalCategories: nat,
    totalPrompts: nat,
    totalUses: nat,
    mostUsedPrompt: Option<Prompt>,
    recentActivity: nat)

  /** The new record `addPrompt` stores: trimmed text, fresh counters. */
  function NewPrompt(id: string, title: string, content: string, categoryId: Option<string>, now: int): (p: Prompt)
    ensures p.title == Trim(title) && p.content == Trim(content)
    ensures p.useCount == 0 && p.lastUsed.None? && p.created == now && p.modified == now
  {
    Prompt(id, Trim(title), Trim(content), categoryId, now, now, 0, None, None, false, None)
  }

  /** The duplicate test of `addPrompt`: same title and content once both are trimmed. */
  function SameText(title: string, content: string): Prompt -> bool
  {
    (p: Prompt) => Trim(p.title) == Trim(title) && Trim(p.content) == Trim(content)
  }

  /** The prompt list after `addPrompt`: unchanged when a duplicate exists, else one more. */
  function PromptsAfterAdd(ps: seq<Prompt>, title: string, content: string, categoryId: Option<string>,
                           id: string, now: int): seq<Prompt>
  {
    if FindIndex(ps, SameText(title, content)) >= 0 then ps
    else ps + [NewPrompt(id, title, content, categoryId, now)]
  }

  /** Adding the same title and content twice stores it once: the second add finds the first. */
  lemma AddPromptIdempotent(ps: seq<Prompt>, title: string, content: string, categoryId: Option<string>,
                            id: string, now: int, categoryId2: Option<string>, id2: string, now2: int)
    ensures var once := PromptsAfterAdd(ps, title, content, categoryId, id, now);
      PromptsAfterAdd(once, title, content, categoryId2, id2, now2) == once
  {
    var once := PromptsAfterAdd(ps, title, content, categoryId, id, now);
    if FindIndex(ps, SameText(title, content)) < 0 {
      var p := NewPrompt(id, title, content, categoryId, now);
      TrimIdempotent(title);
      TrimIdempotent(content);
      assert SameText(title, content)(once[|ps|]);
    }
  }

  /** `{...original, id, title: title + ' (Copy)', ...}`: a copy with fresh counters. */
  function CloneOf(orig: Prompt, id: string, now: int): (c: Prompt)
    ensures c.id == id && c.title == orig.title + " (Copy)"
    ensures c.content == orig.content && c.categoryId == orig.categoryId && c.source == orig.source
    ensures c.useCount == 0 && c.lastUsed.None? && c.created == now && c.modified == now
  {
    orig.(id := id, title := orig.title + " (Copy)", created := now, modified := now,
          useCount := 0, lastUsed := None)
  }

  /** One more use, stamped now. */
  function WithUsage(p: Prompt, now: int): (q: Prompt)
    ensures q.useCount == p.useCount + 1 && q.lastUsed == Some(now)
    ensures q.(useCount := p.useCount, lastUsed := p.lastUsed) == p
  {
    p.(useCount := p.useCount + 1, lastUsed := Some(now))
  }

  /** `prompts.reduce((sum, p) => sum + (p.useCount || 0), 0)`. */
  function TotalUses(ps: seq<Prompt>): nat
  {
    if ps == [] then 0 else ps[0].useCount + TotalUses(ps[1..])
  }

  /** Recording one use raises the total use count by exactly one. */
  lemma {:induction false} TotalUsesAfterUse(ps: seq<Prompt>, i: nat, now: int)
    requires i < |ps|
    ensures TotalUses(ps[i := WithUsage(ps[i], now)]) == TotalUses(ps) + 1
  {
    if i > 0 {
      TotalUsesAfterUse(ps[1..], i - 1, now);
      assert ps[i := WithUsage(ps[i], now)][1..] == ps[1..][i - 1 := WithUsage(ps[i], now)];
    }
  }

  /** The category filter of `deleteCategory`. */
  function InCategory(id: string): Prompt -> bool
  {
    (p: Prompt) => p.categoryId == Some(id)
  }

  /**
   * Deleting a category cascades: no remaining prompt belongs to it, every prompt of
   * another category (or of none) stays, and the survivors keep their order.
   */
  lemma DeleteCategoryCascade(cs: seq<Category>, ps: seq<Prompt>, id: string)
    ensures forall c :: c in Filter(cs, Not(HasCategoryId(id))) <==> c in cs && c.id != id
    ensures forall p :: p in Filter(ps, Not(InCategory(id))) <==> p in ps && p.categoryId != Some(id)
    ensures IsSubsequence(Filter(ps, Not(InCategory(id))), ps)
    ensures IsSubsequence(Filter(cs, Not(HasCategoryId(id))), cs)
    ensures KeepsCounts(Filter(cs, Not(HasCategoryId(id))), cs, Not(HasCategoryId(id)))
    ensures KeepsCounts(Filter(ps, Not(InCategory(id))), ps, Not(InCategory(id)))
  {
    FilterIsSubsequence(ps, Not(InCategory(id)));
    FilterIsSubsequence(cs, Not(HasCategoryId(id)));
    FilterCounts(ps, Not(InCategory(id)));
    FilterCounts(cs, Not(HasCategoryId(id)));
  }

  /** The match test of `searchPrompts`, for an already lower-cased and trimmed term. */
  function MatchesTerm(term: string): Prompt -> bool
  {
    (p: Prompt) => Contains(Lower(p.title), term) || Contains(Lower(p.content), term)
  }

  function LastUsedKey(p: Prompt): int
  {
    p.lastUsed.GetOr(0)
  }

  function UseCountKey(p: Prompt): int
  {
    p.useCount
  }

  /** Used within the last seven days (`lastUsed && lastUsed > now - week`). */
  function UsedSince(now: int): Prompt -> bool
  {
    (p: Prompt) => p.lastUsed.Some? && p.lastUsed.value != 0 && p.lastUsed.value > now - WeekMs
  }

  function CategoryIdKey(c: Category): string
  {
    c.id
  }

  function PromptIdKey(p: Prompt): string
  {
    p.id
  }

  /** `{...item, id: generateId()}`; the n-th regenerated id is `ids(n)`. */
  function CategoryWithNewId(ids: nat -> string): (Category, nat) -> Category
  {
    (c: Category, n: nat) => c.(id := ids(n))
  }

  function PromptWithNewId(ids: nat -> string): (Prompt, nat) -> Prompt
  {
    (p: Prompt, n: nat) => p.(id := ids(n))
  }

  class Store {
    var categories: seq<Category>
    var prompts: seq<Prompt>
    var settings: Option<Settings>
    var searchHistory: seq<string>
    var backups: seq<Value>

    /** An empty storage area. */
    constructor ()
      ensures categories == [] && prompts == [] && settings.None?
      ensures searchHistory == [] && backups == []
    {
      categories := [];
      prompts := [];
      settings := None;
      searchHistory := [];
      backups := [];
    }

    /** `init`: the default categories are written when there are none. */
    method Init(now: int)
      modifies this`categories
      ensures old(categories) == [] ==> categories == DefaultCategories(now)
      ensures old(categories) != [] ==> categories == old(categories)
    {
      if categories == [] {
        categories := DefaultCategories(now);
      }
    }

    /** `addCategory`: appends a category with the trimmed name; names are not checked. */
    method AddCategory(name: string, freshId: string, now: int) returns (c: Category)
      modifies this`categories
      ensures c == Category(freshId, Trim(name), now, None, false, None)
      ensures categories == old(categories) + [c]
    {
      c := Category(freshId, Trim(name), now, None, false, None);
      categories := categories + [c];
    }

    /** `updateCategory`: patches the first category with the id; false when there is none. */
    method UpdateCategory(id: string, u: CategoryPatch, now: int) returns (ok: bool)
      modifies this`categories
      ensures ok <==> exists i :: 0 <= i < |old(categories)| && old(categories)[i].id == id
      ensures !ok ==> categories == old(categories)
      ensures ok ==> var i := FindIndex(old(categories), HasCategoryId(id));
        categories == old(categories)[i := ApplyCategoryPatch(old(categories)[i], u, now)]
    {
      var i := FindIndex(categories, HasCategoryId(id));
      if i == -1 {
        return false;
      }
      categories := categories[i := ApplyCategoryPatch(categories[i], u, now)];
      ok := true;
    }

    /** `deleteCategory`: removes the category and, with it, every prompt filed under it. */
    method DeleteCategory(id: string) returns (ok: bool)
      modifies this`categories, this`prompts
      ensures ok
      ensures categories == Filter(old(categories), Not(HasCategoryId(id)))
      ensures prompts == Filter(old(prompts), Not(InCategory(id)))
    {
      categories := Filter(categories, Not(HasCategoryId(id)));
      prompts := Filter(prompts, Not(InCategory(id)));
      ok := true;
    }

    /**
     * `addPrompt`: when a prompt with the same trimmed title and content exists, that
     * prompt is returned and nothing is stored; otherwise a new prompt is appended.
     */
    method AddPrompt(title: string, content: string, categoryId: Option<string>, freshId: string, now: int)
      returns (p: Prompt)
      modifies this`prompts
      ensures prompts == PromptsAfterAdd(old(prompts), title, content, categoryId, freshId, now)
      ensures var i := FindIndex(old(prompts), SameText(title, content));
        if i >= 0 then p == old(prompts)[i] else p == NewPrompt(freshId, title, content, categoryId, now)
      ensures Trim(p.title) == Trim(title) && Trim(p.content) == Trim(content)
    {
      var i := FindIndex(prompts, SameText(title, content));
      if i >= 0 {
        p := prompts[i];
        return;
      }
      p := NewPrompt(freshId, title, content, categoryId, now);
      TrimIdempotent(title);
      TrimIdempotent(content);
      prompts := prompts + [p];
    }

    /** `updatePrompt`: patches the first prompt with the id; false when there is none. */
    method UpdatePrompt(id: string, u: PromptPatch, now: int) returns (ok: bool)
      modifies this`prompts
      ensures ok <==> exists i :: 0 <= i < |old(prompts)| && old(prompts)[i].id == id
      ensures !ok ==> prompts == old(prompts)
      ensures ok ==> var i := FindIndex(old(prompts), HasPromptId(id));
        prompts == old(prompts)[i := ApplyPromptPatch(old(prompts)[i], u, now)]
    {
      var i := FindIndex(prompts, HasPromptId(id));
      if i == -1 {
        return false;
      }
      prompts := prompts[i := ApplyPromptPatch(prompts[i], u, now)];
      ok := true;
    }

    /** `deletePrompt`: removes every prompt with the id. */
    method DeletePrompt(id: string) returns (ok: bool)
      modifies this`prompts
      ensures ok
      ensures prompts == Filter(old(prompts), Not(HasPromptId(id)))
      ensures forall p :: p in prompts <==> p in old(prompts) && p.id != id
    {
      prompts := Filter(prompts, Not(HasPromptId(id)));
      ok := true;
    }

    /** `clonePrompt`: appends a copy of the first prompt with the id; `None` when there is none. */
    method ClonePrompt(id: string, freshId: string, now: int) returns (r: Option<Prompt>)
      modifies this`prompts
      ensures r.None? <==> forall i :: 0 <= i < |old(prompts)| ==> old(prompts)[i].id != id
      ensures r.None? ==> prompts == old(prompts)
      ensures r.Some? ==>
        r.value == CloneOf(old(prompts)[FindIndex(old(prompts), HasPromptId(id))], freshId, now)
        && prompts == old(prompts) + [r.value]
    {
      var i := FindIndex(prompts, HasPromptId(id));
      if i == -1 {
        return None;
      }
      var c := CloneOf(prompts[i], freshId, now);
      prompts := prompts + [c];
      r := Some(c);
    }

    /** `incrementPromptUsage`: one more use of the first prompt with the id, stamped now. */
    method IncrementPromptUsage(id: string, now: int) returns (ok: bool)
      modifies this`prompts
      ensures ok <==> exists i :: 0 <= i < |old(prompts)| && old(prompts)[i].id == id
      ensures !ok ==> prompts == old(prompts)
      ensures ok ==> var i := FindIndex(old(prompts), HasPromptId(id));
        prompts == old(prompts)[i := WithUsage(old(prompts)[i], now)]
        && TotalUses(prompts) == TotalUses(old(prompts)) + 1
    {
      var i := FindIndex(prompts, HasPromptId(id));
      if i == -1 {
        return false;
      }
      TotalUsesAfterUse(prompts, i, now);
      prompts := prompts[i := WithUsage(prompts[i], now)];
      ok := true;
    }

    /**
     * `searchPrompts`: a blank query returns every prompt; otherwise the prompts whose
     * lower-cased title or content contains the lower-cased, trimmed query, in order.
     * An absent query behaves as the empty string.
     */
    function SearchPrompts(query: string): (r: seq<Prompt>)
      reads this
      ensures IsBlank(query) ==> r == prompts
      ensures !IsBlank(query) ==> forall p :: p in r <==>
        p in prompts && (Contains(Lower(p.title), Trim(Lower(query))) || Contains(Lower(p.content), Trim(Lower(query))))
      ensures !IsBlank(query) ==> KeepsCounts(r, prompts, MatchesTerm(Trim(Lower(query))))
      ensures IsSubsequence(r, prompts)
    {
      if IsBlank(query) then
        SubsequenceRefl(prompts);
        prompts
      else
        FilterIsSubsequence(prompts, MatchesTerm(Trim(Lower(query))));
        FilterCounts(prompts, MatchesTerm(Trim(Lower(query))));
        Filter(prompts, MatchesTerm(Trim(Lower(query))))
    }

    /** `getPromptsByCategory`: `'all'` or an empty id gives every prompt. */
    function GetPromptsByCategory(categoryId: string): (r: seq<Prompt>)
      reads this
      ensures categoryId == "all" || categoryId == "" ==> r == prompts
      ensures categoryId != "all" && categoryId != "" ==>
        forall p :: p in r <==> p in prompts && p.categoryId == Some(categoryId)
      ensures categoryId != "all" && categoryId != "" ==> KeepsCounts(r, prompts, InCategory(categoryId))
      ensures IsSubsequence(r, prompts)
    {
      if categoryId == "all" || categoryId == "" then
        SubsequenceRefl(prompts);
        prompts
      else
        FilterIsSubsequence(prompts, InCategory(categoryId));
        FilterCounts(prompts, InCategory(categoryId));
        Filter(prompts, InCategory(categoryId))
    }

    /** `getRecentPrompts(limit)`: the `limit` most recently used prompts, latest first. */
    function GetRecentPrompts(limit: nat): (r: seq<Prompt>)
      reads this
      ensures |r| == (if limit < |prompts| then limit else |prompts|)
      ensures SortedDesc(r, LastUsedKey)
      ensures forall p :: p in r ==> p in prompts
      ensures forall p, q :: p in prompts && p !in r && q in r ==> LastUsedKey(q) >= LastUsedKey(p)
      ensures multiset(r) <= multiset(prompts)
      ensures forall k :: WithKey(r, LastUsedKey, k) <= WithKey(prompts, LastUsedKey, k)
    {
      TakeSortedIsTop(prompts, LastUsedKey, limit);
      Take(SortDesc(prompts, LastUsedKey), limit)
    }

    /** `getPopularPrompts(limit)`: the `limit` most used prompts, most used first. */
    function GetPopularPrompts(limit: nat): (r: seq<Prompt>)
      reads this
      ensures |r| == (if limit < |prompts| then limit else |prompts|)
      ensures SortedDesc(r, UseCountKey)
      ensures forall p :: p in r ==> p in prompts
      ensures forall p, q :: p in prompts && p !in r && q in r ==> UseCountKey(q) >= UseCountKey(p)
      ensures multiset(r) <= multiset(prompts)
      ensures forall k :: WithKey(r, UseCountKey, k) <= WithKey(prompts, UseCountKey, k)
    {
      TakeSortedIsTop(prompts, UseCountKey, limit);
      Take(SortDesc(prompts, UseCountKey), limit)
    }

    /** `getSettings`: the stored settings, or the defaults when none are stored. */
    function GetSettings(): (s: Settings)
      reads this
      ensures settings.None? ==> s == DefaultSettings
      ensures settings.Some? ==> s == settings.value
    {
      settings.GetOr(DefaultSettings)
    }

    /** `updateSettings`: the given keys overwrite the current settings, the others stay. */
    method UpdateSettings(newSettings: Settings) returns (ok: bool)
      modifies this`settings
      ensures ok
      ensures settings.Some? && GetSettings().Keys == old(GetSettings()).Keys + newSettings.Keys
      ensures forall k :: k in newSettings ==> GetSettings()[k] == newSettings[k]
      ensures forall k :: k in old(GetSettings()) && k !in newSettings ==> GetSettings()[k] == old(GetSettings())[k]
    {
      settings := Some(Spread(GetSettings(), newSettings));
      ok := true;
    }

    /** `exportData`: everything, with the effective settings. */
    function ExportData(exportDate: string): (snap: Snapshot)
      reads this
      ensures snap.version == "1.0" && snap.exportDate == exportDate
      ensures snap.categories == categories && snap.prompts == prompts && snap.settings == GetSettings()
    {
      Snapshot("1.0", exportDate, categories, prompts, GetSettings())
    }

    /**
     * `importData`: rejected without a payload. Merge mode appends the incoming records
     * whose id is new, each under a regenerated id, and merges the settings like
     * `updateSettings`. Replace mode overwrites both lists (an absent list becomes
     * empty) and stores incoming settings as they are.
     */
    method ImportData(payload: Option<ImportPayload>, merge: bool, categoryIds: nat -> string, promptIds: nat -> string)
      returns (ok: bool)
      modifies this`categories, this`prompts, this`settings
      ensures ok <==> payload.Some?
      ensures !ok ==> categories == old(categories) && prompts == old(prompts) && settings == old(settings)
      ensures ok && merge ==>
        categories == Merged(old(categories), payload.value.categories.GetOr([]), CategoryIdKey, CategoryWithNewId(categoryIds))
        && prompts == Merged(old(prompts), payload.value.prompts.GetOr([]), PromptIdKey, PromptWithNewId(promptIds))
        && settings == if payload.value.settings.Some?
                       then Some(Spread(old(GetSettings()), payload.value.settings.value))
                       else old(settings)
      ensures ok && !merge ==>
        categories == payload.value.categories.GetOr([])
        && prompts == payload.value.prompts.GetOr([])
        && settings == if payload.value.settings.Some? then payload.value.settings else old(settings)
    {
      if payload.None? {
        return false;
      }
      var data := payload.value;
      if merge {
        categories := MergeUnseen(categories, data.categories.GetOr([]), CategoryIdKey, CategoryWithNewId(categoryIds));
        prompts := MergeUnseen(prompts, data.prompts.GetOr([]), PromptIdKey, PromptWithNewId(promptIds));
        if data.settings.Some? {
          settings := Some(Spread(GetSettings(), data.settings.value));
        }
      } else {
        categories := data.categories.GetOr([]);
        prompts := data.prompts.GetOr([]);
        if data.settings.Some? {
          settings := data.settings;
        }
      }
      ok := true;
    }

    /** `getStatistics`. */
    function GetStatistics(now: int): (st: Statistics)
      reads this
      ensures st.totalCategories == |categories| && st.totalPrompts == |prompts|
      ensures st.totalUses == TotalUses(prompts)
      ensures st.mostUsedPrompt.None? <==> prompts == []
      ensures st.mostUsedPrompt.Some? ==>
        st.mostUsedPrompt.value in prompts
        && forall p :: p in prompts ==> p.useCount <= st.mostUsedPrompt.value.useCount
      ensures st.mostUsedPrompt.Some? ==>
        exists i :: 0 <= i < |prompts| && st.mostUsedPrompt.value == prompts[i]
          && forall j :: 0 <= j < i ==> prompts[j].useCount < prompts[i].useCount
      ensures st.recentActivity == |Filter(prompts, UsedSince(now))|
    {
      Statistics(|categories|, |prompts|, TotalUses(prompts),
                 if prompts == [] then None else Some(prompts[FirstMax(prompts, UseCountKey)]),
                 Count(prompts, UsedSince(now)))
    }
  }

  /**
   * Importing the store's own export in merge mode changes no record and no effective
   * setting: every id is already present, and merging the settings into themselves is
   * the identity.
   */
  lemma ImportOwnExportMerge(cs: seq<Category>, ps: seq<Prompt>, s: Settings, categoryIds: nat -> string, promptIds: nat -> string)
    ensures Merged(cs, cs, CategoryIdKey, CategoryWithNewId(categoryIds)) == cs
    ensures Merged(ps, ps, PromptIdKey, PromptWithNewId(promptIds)) == ps
    ensures Spread(s, s) == s
  {
    MergeIntoSelf(cs, CategoryIdKey, CategoryWithNewId(categoryIds));
    MergeIntoSelf(ps, PromptIdKey, PromptWithNewId(promptIds));
  }
}

=== FILE: text.dfy ===
/**
 * The JavaScript string operations the extension relies on: `trim`, the `\s`
 * character class, `toLowerCase` (ASCII letters only, see README), `includes`,
 * `startsWith`, `split(/\s+/)` followed by dropping empty pieces, and the decimal
 * rendering of a non-negative integer (`Date.now().toString()`).
 */
module Text {

  /** The characters `String.prototype.trim` removes and `\s` matches. */
  predicate IsSpace(c: char)
  {
    c == ' ' || c == '\t' || c == '\n' || c == '\r' || c == '\U{000B}' || c == '\U{000C}'
    || c == '\U{00A0}' || c == '\U{1680}' || ('\U{2000}' <= c <= '\U{200A}')
    || c == '\U{2028}' || c == '\U{2029}' || c == '\U{202F}' || c == '\U{205F}'
    || c == '\U{3000}' || c == '\U{FEFF}'
  }

  predicate AllSpace(s: string)
  {
    forall i :: 0 <= i < |s| ==> IsSpace(s[i])
  }

  /** Leading white space removed. */
  function TrimStart(s: string): (r: string)
    ensures |r| <= |s| && r == s[|s| - |r|..]
    ensures AllSpace(s[..|s| - |r|])
    ensures r == [] || !IsSpace(r[0])
  {
    if s != [] && IsSpace(s[0]) then TrimStart(s[1..]) else s
  }

  /** Trailing white space removed. */
  function TrimEnd(s: string): (r: string)
    ensures |r| <= |s| && r == s[..|r|]
    ensures AllSpace(s[|r|..])
    ensures r == [] || !IsSpace(r[|r| - 1])
  {
    if s != [] && IsSpace(s[|s| - 1]) then TrimEnd(s[..|s| - 1]) else s
  }

  /** `s.trim()`. */
  function Trim(s: string): (r: string)
    ensures |r| <= |s|
    ensures r == [] || (!IsSpace(r[0]) && !IsSpace(r[|r| - 1]))
    ensures r == [] <==> AllSpace(s)
    ensures StripsSpace(s, r)
  {
    var t := TrimStart(s);
    var r := TrimEnd(t);
    TrimEnds(s, t, r);
    TrimParts(s, t, r);
    r
  }

  /** Neither end of the trimmed string is white space, and only white space trims away. */
  lemma TrimEnds(s: string, t: string, r: string)
    requires t == TrimStart(s) && r == TrimEnd(t)
    ensures r == [] || (!IsSpace(r[0]) && !IsSpace(r[|r| - 1]))
    ensures r == [] <==> AllSpace(s)
  {
    TrimStartEmpty(s);
    assert r != [] ==> r[0] == t[0];
    assert r == [] ==> AllSpace(t) && t == [];
  }

  /** `r` is `s` with some leading and some trailing white space cut off. */
  predicate StripsSpace(s: string, r: string)
  {
    exists i :: 0 <= i <= |s| - |r| && r == s[i..i + |r|] && AllSpace(s[..i]) && AllSpace(s[i + |r|..])
  }

  /** The trimmed string sits between the leading and the trailing white space. */
  lemma TrimParts(s: string, t: string, r: string)
    requires |t| <= |s| && t == s[|s| - |t|..] && AllSpace(s[..|s| - |t|])
    requires |r| <= |t| && r == t[..|r|] && AllSpace(t[|r|..])
    ensures StripsSpace(s, r)
  {
    var i := |s| - |t|;
    assert t == s[i..];
    SliceOfSuffix(s, i, |r|);
    assert r == s[i..i + |r|] && AllSpace(s[..i]) && AllSpace(s[i + |r|..]);
  }

  /** Only an all-white-space string trims to nothing at the front. */
  lemma {:induction false} TrimStartEmpty(s: string)
    ensures TrimStart(s) == [] <==> AllSpace(s)
  {
    if s != [] && IsSpace(s[0]) {
      TrimStartEmpty(s[1..]);
      assert AllSpace(s) <==> AllSpace(s[1..]);
    }
  }

  /** A string with no white space at either end is its own trim. */
  lemma TrimOfTrimmed(s: string)
    requires s == [] || (!IsSpace(s[0]) && !IsSpace(s[|s| - 1]))
    ensures Trim(s) == s
  {
    assert TrimStart(s) == s;
    assert TrimEnd(s) == s;
  }

  /** Trimming is idempotent. */
  lemma TrimIdempotent(s: string)
    ensures Trim(Trim(s)) == Trim(s)
  {
    TrimOfTrimmed(Trim(s));
  }

  /** `!s || s.trim() === ''`, for a string that is present. */
  predicate IsBlank(s: string)
  {
    Trim(s) == []
  }

  /** `toLowerCase` on one character (ASCII letters only). */
  function LowerChar(c: char): (r: char)
    ensures 'A' <= c <= 'Z' ==> 'a' <= r <= 'z' && r as int == c as int + 32
    ensures !('A' <= c <= 'Z') ==> r == c
  {
    if 'A' <= c <= 'Z' then (c as int + 32) as char else c
  }

  /** `s.toLowerCase()` (ASCII letters only). */
  function Lower(s: string): (r: string)
    ensures |r| == |s|
    ensures forall i :: 0 <= i < |s| ==> r[i] == LowerChar(s[i])
  {
    seq(|s|, i requires 0 <= i < |s| => LowerChar(s[i]))
  }

  /** Lower-casing twice is lower-casing once; white space is left alone. */
  lemma LowerIdempotent(s: string)
    ensures Lower(Lower(s)) == Lower(s)
    ensures forall i :: 0 <= i < |s| ==> (IsSpace(Lower(s)[i]) <==> IsSpace(s[i]))
  {
  }

  /** Lower-casing and trimming commute: lower-casing neither makes nor unmakes white space. */
  lemma {:induction false} LowerTrim(s: string)
    ensures Lower(Trim(s)) == Trim(Lower(s))
  {
    LowerTrimStart(s);
    LowerTrimEnd(TrimStart(s));
  }

  /** Lower-casing a character keeps it white space or not. */
  lemma LowerKeepsSpace(c: char)
    ensures IsSpace(LowerChar(c)) == IsSpace(c)
  {
  }

  lemma {:induction false} LowerTrimStart(s: string)
    ensures Lower(TrimStart(s)) == TrimStart(Lower(s))
  {
    if s != [] {
      var l := Lower(s);
      LowerKeepsSpace(s[0]);
      assert l[1..] == Lower(s[1..]);
      if IsSpace(s[0]) {
        assert TrimStart(l) == TrimStart(l[1..]);
        LowerTrimStart(s[1..]);
      } else {
        assert TrimStart(l) == l;
      }
    }
  }

  lemma {:induction false} LowerTrimEnd(s: string)
    ensures Lower(TrimEnd(s)) == TrimEnd(Lower(s))
  {
    if s != [] {
      var n := |s| - 1;
      var l := Lower(s);
      LowerKeepsSpace(s[n]);
      assert l[..n] == Lower(s[..n]);
      if IsSpace(s[n]) {
        assert TrimEnd(s) == TrimEnd(s[..n]);
        assert TrimEnd(l) == TrimEnd(l[..n]);
        LowerTrimEnd(s[..n]);
      } else {
        assert TrimEnd(s) == s;
        assert TrimEnd(l) == l;
      }
    }
  }

  /** `s.startsWith(p)`. */
  predicate StartsWith(s: string, p: string)
  {
    |p| <= |s| && s[..|p|] == p
  }

  /** `s.includes(sub)`: `sub` occurs in `s` at some position. */
  predicate Contains(s: string, sub: string)
    decreases |s|
  {
    StartsWith(s, sub) || (s != [] && Contains(s[1..], sub))
  }

  /** `Contains` means an occurrence at some index, and every occurrence counts. */
  lemma {:induction false} ContainsAt(s: string, sub: string, k: nat)
    requires k + |sub| <= |s| && s[k..k + |sub|] == sub
    ensures Contains(s, sub)
    decreases k
  {
    if k > 0 {
      assert s[1..][k - 1..k - 1 + |sub|] == s[k..k + |sub|];
      ContainsAt(s[1..], sub, k - 1);
    }
  }

  /** A string never contains a longer one. */
  lemma {:induction false} ShorterNotContained(s: string, sub: string)
    requires |s| < |sub|
    ensures !Contains(s, sub)
  {
    if s != [] {
      ShorterNotContained(s[1..], sub);
    }
  }

  /** Every string contains itself and the empty string. */
  lemma ContainsSelf(s: string)
    ensures Contains(s, s)
    ensures Contains(s, [])
  {
    assert s[..|s|] == s;
  }

  /** Number of leading characters of `t` that are not white space. */
  function TokenEnd(t: string): (n: nat)
    ensures n <= |t|
    ensures forall j :: 0 <= j < n ==> !IsSpace(t[j])
    ensures n == |t| || IsSpace(t[n])
  {
    if t == [] || IsSpace(t[0]) then 0 else 1 + TokenEnd(t[1..])
  }

  /**
   * `s.split(/\s+/).filter(w => w.length > 0)`: the maximal runs of non-white-space
   * characters of `s`, in order.
   */
  function Words(s: string): (ws: seq<string>)
    ensures |ws| <= |s|
    decreases |s|
  {
    var t := TrimStart(s);
    if t == [] then []
    else
      var n := TokenEnd(t);
      [t[..n]] + Words(t[n..])
  }

  /** Every piece `Words` returns is a non-empty run without white space. */
  lemma {:induction false} WordsAreWords(s: string)
    ensures forall i :: 0 <= i < |Words(s)| ==> IsWord(Words(s)[i])
    decreases |s|
  {
    var t := TrimStart(s);
    if t != [] {
      var n := TokenEnd(t);
      WordsAreWords(t[n..]);
      assert IsWord(t[..n]);
      AllWordsCons(t[..n], Words(t[n..]));
    }
  }

  lemma AllWordsCons(w: string, rest: seq<string>)
    requires IsWord(w) && forall i :: 0 <= i < |rest| ==> IsWord(rest[i])
    ensures forall i :: 0 <= i < |[w] + rest| ==> IsWord(([w] + rest)[i])
  {
  }

  /** Splitting gives no words exactly when the string is all white space. */
  lemma WordsEmpty(s: string)
    ensures Words(s) == [] <==> AllSpace(s)
  {
    TrimStartEmpty(s);
  }

  /** A non-empty run of non-white-space characters. */
  predicate IsWord(w: string)
  {
    w != [] && forall j :: 0 <= j < |w| ==> !IsSpace(w[j])
  }

  /** With no leading white space, the first word runs to the first white space. */
  lemma WordsStep(s: string, n: nat)
    requires s != [] && TrimStart(s) == s && TokenEnd(s) == n
    ensures n <= |s| && Words(s) == [s[..n]] + Words(s[n..])
  {
  }

  /** A leading white-space character does not change the words. */
  lemma WordsSkipSpace(s: string)
    requires s != [] && IsSpace(s[0])
    ensures Words(s) == Words(s[1..])
  {
    assert TrimStart(s) == TrimStart(s[1..]);
  }

  /** A non-empty string without white space is a single word. */
  lemma SingleWord(s: string)
    requires IsWord(s)
    ensures Words(s) == [s]
  {
    assert TrimStart(s) == s;
    TokenEndAll(s);
    assert s[|s|..] == [];
    assert s[..|s|] == s;
  }

  lemma {:induction false} TokenEndAll(s: string)
    requires forall i :: 0 <= i < |s| ==> !IsSpace(s[i])
    ensures TokenEnd(s) == |s|
  {
    if s != [] {
      TokenEndAll(s[1..]);
    }
  }

  /** A run of `n` non-space characters followed by a space is a token of length `n`. */
  lemma {:induction false} TokenEndPrefix(t: string, n: nat)
    requires n < |t| && IsSpace(t[n]) && forall j :: 0 <= j < n ==> !IsSpace(t[j])
    ensures TokenEnd(t) == n
  {
    if n > 0 {
      TokenEndPrefix(t[1..], n - 1);
    }
  }

  /** The characters of `s` that are not white space, in order. */
  function NonSpace(s: string): (r: string)
    ensures |r| <= |s|
    ensures forall j :: 0 <= j < |r| ==> !IsSpace(r[j])
  {
    if s == [] then []
    else if IsSpace(s[0]) then NonSpace(s[1..])
    else [s[0]] + NonSpace(s[1..])
  }

  /** The words written one after another with nothing between them. */
  function Concat(ws: seq<string>): string
  {
    if ws == [] then [] else ws[0] + Concat(ws[1..])
  }

  lemma {:induction false} NonSpaceAppend(a: string, b: string)
    ensures NonSpace(a + b) == NonSpace(a) + NonSpace(b)
  {
    if a == [] {
      assert a + b == b;
    } else {
      assert (a + b)[0] == a[0];
      assert (a + b)[1..] == a[1..] + b;
      NonSpaceAppend(a[1..], b);
    }
  }

  lemma {:induction false} NonSpaceOfSpace(s: string)
    requires AllSpace(s)
    ensures NonSpace(s) == []
  {
    if s != [] {
      NonSpaceOfSpace(s[1..]);
    }
  }

  lemma {:induction false} NonSpaceOfWord(s: string)
    requires forall j :: 0 <= j < |s| ==> !IsSpace(s[j])
    ensures NonSpace(s) == s
  {
    if s != [] {
      NonSpaceOfWord(s[1..]);
    }
  }

  /** Leading white space and the first word split off the non-white-space characters. */
  lemma NonSpaceSplit(s: string, k: nat, n: nat)
    requires k <= |s| && AllSpace(s[..k]) && n <= |s| - k
    requires forall j :: k <= j < k + n ==> !IsSpace(s[j])
    ensures NonSpace(s) == s[k..k + n] + NonSpace(s[k + n..])
  {
    ThreeParts(s, k, n);
    NonSpaceAppend(s[..k], s[k..k + n] + s[k + n..]);
    NonSpaceAppend(s[k..k + n], s[k + n..]);
    NonSpaceOfSpace(s[..k]);
    NonSpaceOfWord(s[k..k + n]);
  }

  lemma ThreeParts(s: string, k: nat, n: nat)
    requires k + n <= |s|
    ensures s == s[..k] + (s[k..k + n] + s[k + n..])
  {
  }

  /** The words of `s` written one after another are `s` with its white space removed. */
  lemma {:induction false} WordsConcat(s: string)
    ensures Concat(Words(s)) == NonSpace(s)
    decreases |s|
  {
    var t := TrimStart(s);
    if t == [] {
      TrimStartEmpty(s);
      NonSpaceOfSpace(s);
    } else {
      var n := TokenEnd(t);
      NonSpaceFirstWord(s, n);
      WordsConcat(t[n..]);
      ConcatCons(t[..n], Words(t[n..]));
    }
  }

  /** The non-white-space characters of `s` start with its first word. */
  lemma NonSpaceFirstWord(s: string, n: nat)
    requires TrimStart(s) != [] && n == TokenEnd(TrimStart(s))
    ensures NonSpace(s) == TrimStart(s)[..n] + NonSpace(TrimStart(s)[n..])
  {
    var k := |s| - |TrimStart(s)|;
    SliceOfSuffix(s, k, n);
    NonSpaceSplit(s, k, n);
  }

  lemma SliceOfSuffix(s: string, k: nat, n: nat)
    requires k + n <= |s|
    ensures s[k..][..n] == s[k..k + n] && s[k..][n..] == s[k + n..]
  {
  }

  lemma ConcatCons(w: string, ws: seq<string>)
    ensures Concat([w] + ws) == w + Concat(ws)
  {
    assert ([w] + ws)[1..] == ws;
  }

  /** Prefixed white space does not change the words. */
  lemma {:induction false} WordsSkipSpaces(p: string, s: string)
    requires AllSpace(p)
    ensures Words(p + s) == Words(s)
  {
    if p != [] {
      assert (p + s)[1..] == p[1..] + s;
      WordsSkipSpace(p + s);
      WordsSkipSpaces(p[1..], s);
    } else {
      assert p + s == s;
    }
  }

  /** The first token of a string ends where it ended before text was appended after white space. */
  lemma TokenEndAppend(t: string, c: char, b: string)
    requires IsSpace(c)
    ensures TokenEnd(t + [c] + b) == TokenEnd(t)
  {
    var u := t + [c] + b;
    var n := TokenEnd(t);
    assert forall j :: 0 <= j < n ==> u[j] == t[j];
    assert u[n] == if n < |t| then t[n] else c;
    TokenEndPrefix(u, n);
  }

  /**
   * Splitting at a white-space character: the words of `a`, a white-space character and
   * `b` are the words of `a` followed by the words of `b`. With `SingleWord` and
   * `WordsEmpty` this fixes `Words` on every string.
   */
  lemma {:induction false} WordsJoin(a: string, c: char, b: string)
    requires IsSpace(c)
    ensures Words(a + [c] + b) == Words(a) + Words(b)
    decreases |a|
  {
    var t := TrimStart(a);
    var k := |a| - |t|;
    RejoinSuffix(a, k, c, b);
    WordsSkipSpaces(a[..k], t + [c] + b);
    if t == [] {
      SpaceThenWords(c, b);
    } else {
      var n := TokenEnd(t);
      WordsJoinStep(t, c, b, n);
      WordsJoin(t[n..], c, b);
      var w, tail, rest := t[..n], Words(t[n..]), Words(b);
      assert Words(a) == [w] + tail;
      ConsAppend(w, tail, rest);
    }
  }

  lemma RejoinSuffix(a: string, k: nat, c: char, b: string)
    requires k <= |a|
    ensures a + [c] + b == a[..k] + (a[k..] + [c] + b)
  {
  }

  lemma SpaceThenWords(c: char, b: string)
    requires IsSpace(c)
    ensures Words([] + [c] + b) == Words(b)
  {
    var u := [] + [c] + b;
    assert u[1..] == b;
    WordsSkipSpace(u);
  }

  /** The first word of `t` is still the first word once white space and more text follow. */
  lemma WordsJoinStep(t: string, c: char, b: string, n: nat)
    requires t != [] && TrimStart(t) == t && TokenEnd(t) == n && IsSpace(c)
    ensures n <= |t| && Words(t + [c] + b) == [t[..n]] + Words(t[n..] + [c] + b)
  {
    var u := t + [c] + b;
    TokenEndAppend(t, c, b);
    assert TrimStart(u) == u by {
      assert u[0] == t[0];
    }
    WordsStep(u, n);
    SplitJoined(t, c, b, n);
  }

  lemma SplitJoined(t: string, c: char, b: string, n: nat)
    requires n <= |t|
    ensures (t + [c] + b)[..n] == t[..n]
    ensures (t + [c] + b)[n..] == t[n..] + [c] + b
  {
  }

  lemma ConsAppend<T>(x: T, xs: seq<T>, ys: seq<T>)
    ensures [x] + (xs + ys) == ([x] + xs) + ys
  {
  }

  /** The decimal digit of a value below ten. */
  function Digit(d: nat): (c: char)
    requires d < 10
    ensures '0' <= c <= '9' && c as int - '0' as int == d
  {
    (d + '0' as int) as char
  }

  /** `n.toString()` for a non-negative integer. */
  function NatToString(n: nat): (r: string)
    ensures r != []
    ensures forall i :: 0 <= i < |r| ==> '0' <= r[i] <= '9'
  {
    if n < 10 then [Digit(n)] else NatToString(n / 10) + [Digit(n % 10)]
  }

  /** The value of a string of decimal digits. */
  function DigitsValue(s: string): nat
    requires forall i :: 0 <= i < |s| ==> '0' <= s[i] <= '9'
  {
    if s == [] then 0
    else 10 * DigitsValue(s[..|s| - 1]) + (s[|s| - 1] as int - '0' as int)
  }

  /** Reading the decimal rendering back gives the number: the rendering is injective. */
  lemma {:induction false} NatToStringRoundTrip(n: nat)
    ensures DigitsValue(NatToString(n)) == n
  {
    if n >= 10 {
      NatToStringRoundTrip(n / 10);
      var r := NatToString(n);
      assert r[..|r| - 1] == NatToString(n / 10);
    }
  }
}

=== FILE: utils.dfy ===
/**
 * The text helpers shared by the popup (popup/scripts/utils.js) and the sidebar
 * (content/sidebar-utils.js): shortening a text for display and the "Never" case of
 * date formatting. Locale formatting is a parameter.
 */
module Utils {
  import opened Wrappers

  /** The `maxLength` both copies of `truncateText` default to. */
  const DefaultMaxLength: int := 150

  /**
   * `truncateText`: a text no longer than `maxLength` comes back as it is; a longer one
   * is cut to its first `maxLength` characters (none for a negative limit, as
   * `substring` clamps) followed by "...".
   */
  function TruncateText(text: string, maxLength: int): (r: string)
    ensures |text| <= maxLength ==> r == text
    ensures |text| > maxLength ==> |r| == (if maxLength < 0 then 0 else maxLength) + 3
    ensures |text| > maxLength ==>
      r[..|r| - 3] == text[..|r| - 3] && r[|r| - 3..] == "..."
  {
    if |text| <= maxLength then text
    else
      var cut := if maxLength < 0 then 0 else maxLength;
      text[..cut] + "..."
  }

  /** With a non-negative limit the result is at most three characters longer than the limit. */
  lemma TruncateBound(text: string, maxLength: int)
    requires maxLength >= 0
    ensures |TruncateText(text, maxLength)| <= maxLength + 3
    ensures |TruncateText(text, DefaultMaxLength)| <= 153
  {
  }

  /** Truncating an already truncated text changes nothing. */
  lemma {:induction false} TruncateIdempotent(text: string, maxLength: int)
    ensures TruncateText(TruncateText(text, maxLength), maxLength) == TruncateText(text, maxLength)
  {
    var r := TruncateText(text, maxLength);
    if |text| > maxLength {
      var cut := if maxLength < 0 then 0 else maxLength;
      assert r == text[..cut] + "...";
      assert r[..cut] == text[..cut];
    }
  }

  /**
   * `formatDate`: "Never" for a missing or zero timestamp (the falsy ones), the
   * locale's rendering of the date otherwise.
   */
  function FormatDate(timestamp: Option<int>, render: int -> string): (r: string)
    ensures timestamp.None? || timestamp == Some(0) ==> r == "Never"
    ensures timestamp.Some? && timestamp.value != 0 ==> r == render(timestamp.value)
  {
    if timestamp.None? || timestamp.value == 0 then "Never" else render(timestamp.value)
  }
}

=== FILE: values.dfy ===
/**
 * JSON-like JavaScript values, as far as the extension inspects them: the import
 * validator, the settings validator and the background message router look at
 * untyped data and test it with JavaScript's truthiness rules.
 */
module Values {

  /** Numbers are integers here; floating point is not part of this model. */
  datatype Value =
    | Undefined
    | Null
    | Bool(b: bool)
    | Num(n: int)
    | Str(s: string)
    | Arr(items: seq<Value>)
    | Obj(fields: map<string, Value>)

  /** JavaScript's `!!v`. Arrays and objects are truthy even when empty. */
  predicate Truthy(v: Value)
  {
    match v
    case Undefined => false
    case Null => false
    case Bool(b) => b
    case Num(n) => n != 0
    case Str(s) => s != []
    case Arr(_) => true
    case Obj(_) => true
  }

  /** `typeof v === 'object' && v !== null`: arrays are objects too. */
  predicate IsObject(v: Value)
  {
    v.Arr? || v.Obj?
  }

  /** Property read `v[key]`: anything but a present field of an object reads as `undefined`. */
  function Get(v: Value, key: string): (r: Value)
    ensures !v.Obj? ==> r == Undefined
    ensures v.Obj? && key !in v.fields ==> r == Undefined
  {
    if v.Obj? && key in v.fields then v.fields[key] else Undefined
  }

  /** Object spread `{...a, ...b}`: every key of `b` wins over the same key of `a`. */
  function Spread(a: map<string, Value>, b: map<string, Value>): (r: map<string, Value>)
    ensures r.Keys == a.Keys + b.Keys
    ensures forall k :: k in b ==> r[k] == b[k]
    ensures forall k :: k in a && k !in b ==> r[k] == a[k]
  {
    a + b
  }
}

=== FILE: wrappers.dfy ===
/** Optional values: the model's reading of JavaScript's `null` / `undefined`. */
module Wrappers {
  datatype Option<+T> = None | Some(value: T)
  {
    /** `x || fallback` for a value that is either absent or present. */
    function GetOr(fallback: T): T
    {
      match this
      case None => fallback
      case Some(v) => v
    }
  }
}
